=== FILE: README.md ===
# Flowboard core, modelled in Dafny

Flowboard is a project board. Workspaces hold tasks in five status columns, and members are
either ADMIN or MEMBER. A WebSocket hub carries two kinds of traffic: chat rooms, one per
workspace, and per-user notifications. This project models the parts of it that make
decisions, as pure Dafny functions, and proves what they promise.

- **The hub** (`src/lib/websocketServer.ts`, module `Hub`, proofs in `HubProofs`)
  - A state of two registries:
    - the room table: room name to a duplicate-free, insertion-ordered list of connections;
    - the notification table: user id to one connection.
  - Each connection has a phase and a socket ready-state.
  - One step function maps each event to the next state and the list of `send`/`close`
    calls the handler makes. The events are: connect, authentication result, membership
    result, inbound frame, peer closing, and the socket's `close` event.
  - Authentication, workspace membership and JSON parsing are inputs of the events.
  - The close codes 4001 and 4003 lie in the private-use range of section 7.4.2 of
    RFC 6455.
- **How the hub reads a connection URL** (`HubRequest`, on top of `Uri`)
  - The clients write the URL with `encodeURIComponent` (section 19.2.6.5 of ECMA-262).
  - The hub reads it with `URLSearchParams`: the application/x-www-form-urlencoded parser
    of section 5.1 of the WHATWG URL Standard, then UTF-8 decoding (section 9.1.1 of the
    WHATWG Encoding Standard).
- **The task API** (`src/features/tasks/server/route.ts`, module `TaskRoutes`)
  - The list query and the population of its results.
  - The new-task position.
  - What a PATCH writes, the lock and role gates, and the notification fan-out.
  - The DELETE gates, and get-by-id.
  - The request validators of `src/features/tasks/schemas.ts` (`TaskSchemas`) and the
    enums of `src/features/tasks/types.ts` (`TaskTypes`).
- **The member API** (`src/features/members/server/route.ts`, module `MemberRoutes`): the
  membership gate, the name and email fallbacks of the list, and the DELETE check order.
- **The board views**
  - Kanban grouping and drag-and-drop (`Kanban`).
  - The overdue/upcoming charts (`ProgressMetrics`).
  - The `yyyy-mm-dd` formatter of the edit form (`DateFormat`).
- **The browser scripts**
  - Cookie lookup, in the pages and in the test helper (`Cookies`).
  - The chat room page (`ChatClient`) and the notification listener (`NotificationClient`).
  - The floating chat widget (`FloatWidget`).

Shared modules: `Wrappers` (Option/Result), `Strings` (the JavaScript string primitives
used: `trim`, `split`, `startsWith`, `padStart`, `String(n)`), and `Seqs` (filter, find,
map and duplicate-free add/remove).

Databases, the clock and the user directory are parameters:

- a collection is a sequence of documents;
- `getDocument` is a lookup by id that fails with 500 when nothing is found, because the
  Appwrite client throws;
- `new Date()` is an integer `now`;
- `differenceInDays` is an arbitrary function.

## Model

| member | source | states |
|---|---|---|
| Hub.Broadcast | src/lib/websocketServer.ts:248-256 | Every call it makes is a `send` of the given envelope, to a member of the room whose socket is OPEN. |
| Hub.BroadcastExactlyOnce | src/lib/websocketServer.ts:248-256 | For a duplicate-free member set: an OPEN member receives exactly one copy of the broadcast, and every other connection receives none. |
| Hub.Notify | src/lib/websocketServer.ts:259-266 | At most one send. There is one exactly when the user has a registered connection and it is OPEN, and it goes to that connection. |
| Hub.EmptyInv | src/lib/websocketServer.ts:198-199 | The two empty registries satisfy the hub invariant. |
| HubProofs.ConnectKeepsInv | src/lib/websocketServer.ts:271-292 | The start of the connection handler keeps the invariant. Every room in the table is non-empty, duplicate-free and holds exactly the connections in that room. Every notification entry points to a subscribed connection of that user. |
| HubProofs.AuthResultKeepsInv | src/lib/websocketServer.ts:294-310 | The continuation after authentication keeps the invariant. |
| HubProofs.MembershipResultKeepsInv | src/lib/websocketServer.ts:310-335 | Refusing or joining a room keeps the invariant, so a room exists only while it has members. |
| HubProofs.InboundKeepsInv | src/lib/websocketServer.ts:338-345 | Chat messages and relay frames keep the invariant. |
| HubProofs.PeerClosingKeepsInv | src/lib/websocketServer.ts:251-253 | A socket leaving OPEN without a handler running keeps the invariant. |
| HubProofs.DisconnectedKeepsInv | src/lib/websocketServer.ts:348-361 | The close handler keeps the invariant. A room is deleted exactly when its last member leaves. |
| HubProofs.StepKeepsInv | src/lib/websocketServer.ts:271-384 | Every event keeps the invariant, so it holds in every reachable state. |
| HubProofs.ConnectValidation | src/lib/websocketServer.ts:280-292 | The connection is closed with 4001 and the fixed reason exactly when the parameters fail the check. The check is: a non-empty session, and a channel of notification, backend, or chatroom with a non-empty room. Neither registry changes. |
| HubProofs.ConnectRoutes | src/lib/websocketServer.ts:294-367 | A valid connection stays OPEN. Notification and chatroom connections go to authentication, with the requested room. A backend connection relays exactly when its session equals the backend key. |
| HubProofs.AuthFailureCloses | src/lib/websocketServer.ts:297-304 | A failed authentication closes with 4003 "Invalid session key." and leaves both registries unchanged. |
| HubProofs.ForbiddenJoinCloses | src/lib/websocketServer.ts:311-314 | A non-member's join closes with 4003 "Forbidden." and leaves both registries unchanged. |
| HubProofs.AuthAndForbiddenShareCode | src/lib/websocketServer.ts:297-314 | The close code of an authentication failure equals the close code of a forbidden join. |
| HubProofs.NotificationLastWriterWins | src/lib/websocketServer.ts:306-309 | After a notification connection authenticates, the user's entry is that connection. Every other entry, the ready-states and the rooms are unchanged, and nothing is sent or closed. |
| HubProofs.NotifyReachesNewest | src/lib/websocketServer.ts:259-266 | After registration, a notification for the user goes to the newest OPEN connection only. |
| HubProofs.NotificationEntrySurvivesClose | src/lib/websocketServer.ts:306-309 | Closing a notification connection leaves the notification table as it was. No close handler is installed. |
| HubProofs.NotificationInboundIgnored | src/lib/websocketServer.ts:306-309 | A notification connection has no message handler: inbound data changes nothing. |
| HubProofs.BroadcastOnlyCarries | src/lib/websocketServer.ts:248-256 | A broadcast contains no action other than sends of its envelope. |
| HubProofs.JoinUpdatesRooms | src/lib/websocketServer.ts:318-323 | A join creates the room as `[c]` when it is absent, or appends `c` to it. Every other room and the notification table are unchanged. |
| HubProofs.JoinDelivers | src/lib/websocketServer.ts:325-335 | The joiner's welcome comes first and is sent once. Then every OPEN member of the updated room, the joiner included, gets exactly one "joined" message, and nobody else does. |
| HubProofs.ChatEchoesToRoom | src/lib/websocketServer.ts:338-345 | An inbound chat message goes to every OPEN member, sender included, exactly once, as a `message` with the sender's name. Nothing else is sent and the state is unchanged. |
| HubProofs.BroadcastToAbsentRoom | src/lib/websocketServer.ts:248-249 | Broadcasting to a room not in the table sends nothing. |
| HubProofs.LeaveAnnounces | src/lib/websocketServer.ts:348-361 | On close, the connection leaves its room. The room survives exactly when others remain. Each remaining OPEN member gets exactly one "left" message, and nothing is sent when the leaver was alone. Other rooms and the notification table are unchanged. |
| HubProofs.ClosedSocketCloseIsNoOp | src/lib/websocketServer.ts:348-361 | A second `close` event of the same socket changes nothing. |
| HubProofs.JoinAfterCloseStays | src/lib/websocketServer.ts:311-335 | A socket that closes while its membership lookup is pending is still added to the room, and no later close removes it. |
| HubProofs.RelayForwards | src/lib/websocketServer.ts:369-377 | A relay frame is sent once to the user's OPEN notification connection and otherwise dropped. A malformed frame is dropped. The state is unchanged either way. |
| HubProofs.RelayKeyMismatchIgnored | src/lib/websocketServer.ts:363-367 | A backend connection with the wrong key stays OPEN and is not closed, and whatever it sends is ignored. |
| HubRequest.ParamsOf | src/lib/websocketServer.ts:273-278 | A request target without a query yields three absent parameters, which fail validation. |
| HubRequest.WrittenParams | src/lib/websocketServer.ts:274-278 | For a URL written with plain names and encoded values, the hub reads each parameter as the value of the first pair with that name. |
| Uri.EncodeURIComponent | public/chatroom/room.js:28 | The output holds only unreserved characters and `%`, so it never holds `&`, `=`, `+`, `#` or `?`. It is empty exactly when the input is. Unreserved text is left unchanged. |
| Uri.EncodeRoundTrip | public/chatroom/room.js:28 | Form-decoding, as the hub does, returns exactly the text that was encoded. |
| Uri.Get | src/lib/websocketServer.ts:275-278 | `get` is null exactly when no pair has the name. Otherwise it returns a value paired with that name. |
| Uri.GetFirst | src/lib/websocketServer.ts:275-278 | `get` returns the value of the first pair with the name, whatever later pairs say. |
| Uri.QueryRoundTrip | public/chatroom/room.js:28 | Pieces `name=encoded` joined by `&` parse back into exactly the pairs they were written from. |
| Uri.UrlQueryRoundTrip | public/notificationChannel.js:18 | The query of `base?pieces` parses back into the pairs it was written from. |
| Uri.Search | public/chatroom/room.js:13 | `location.search` parses into the same pairs as the URL's query. |
| Strings.Split | public/chatroom/room.js:6 | `split` gives at least one part, and exactly one when the separator does not occur. No part contains the separator. |
| Strings.TrimSlice | public/chatroom/room.js:74 | The trimmed text is a slice of the input with only whitespace on either side. |
| Strings.TrimEmptyIff | public/chatroom/room.js:74-76 | The trimmed text is empty exactly when the input is all whitespace. |
| Strings.TrimIdempotent | public/chatroom/room.js:74 | Trimming twice is trimming once. |
| TaskTypes.ParseStatus | src/features/tasks/types.ts:3-9 | A string reads as a status exactly when it is that status's value. Otherwise it matches no status. |
| TaskTypes.ParsePriority | src/features/tasks/types.ts:11-19 | A string reads as a priority exactly when it is that priority's value. Otherwise it matches no priority. |
| TaskTypes.StatusRoundTrip | src/features/tasks/types.ts:3-9 | Every status reads back from its value, and distinct statuses have distinct values. |
| TaskTypes.PriorityRoundTrip | src/features/tasks/types.ts:11-19 | Every priority reads back from its value, and distinct priorities have distinct values. |
| TaskTypes.FiveStatuses | src/features/tasks/types.ts:3-9 | There are exactly five distinct statuses, and every status is one of them. |
| TaskTypes.SevenPriorities | src/features/tasks/types.ts:11-19 | There are exactly seven distinct priorities, NULL among them, and every priority is one of them. |
| TaskSchemas.NonEmptyString | src/features/tasks/schemas.ts:5 | `z.string().min(1)` accepts only strings of length at least one. |
| TaskSchemas.TrimmedNonEmpty | src/features/tasks/schemas.ts:7-8 | An id is accepted exactly when it is a string that is not all whitespace. The accepted value is the trimmed string. |
| TaskSchemas.CoerceDate | src/features/tasks/schemas.ts:9 | An absent date fails, `null` coerces to time 0, and an accepted date is within the `Date` range. |
| TaskSchemas.TrimmedIds | src/features/tasks/schemas.ts:14 | An id list is accepted exactly when every element passes the id check. Each accepted element is the trimmed element. |
| TaskSchemas.IdArray | src/features/tasks/schemas.ts:14 | Only an array whose elements all pass the id check is accepted, and the result is clean ids. |
| TaskSchemas.OptionalIds | src/features/tasks/schemas.ts:14 | An accepted `assigneesId` holds only clean ids. |
| TaskSchemas.CheckCreate | src/features/tasks/schemas.ts:4-15 | Every field the create checks accept satisfies that field's constraint. |
| TaskSchemas.CreateIssues | src/features/tasks/schemas.ts:4-15 | The issue list is empty exactly when every create field passed. |
| TaskSchemas.ValidateCreate | src/features/tasks/schemas.ts:4-15 | A rejection names at least one field. An accepted task is valid: non-empty name, trimmed non-empty ids, a date in range, clean assignee ids. |
| TaskSchemas.IdsRoundTrip | src/features/tasks/schemas.ts:14 | Clean ids written as a JSON array are accepted as themselves. |
| TaskSchemas.CleanIdPasses | src/features/tasks/schemas.ts:7-8 | A trimmed non-empty id is accepted unchanged. |
| TaskSchemas.CreateRoundTrip | src/features/tasks/schemas.ts:4-15 | Every valid create request, written as a JSON body, validates back to itself. |
| TaskSchemas.CreateDefaults | src/features/tasks/schemas.ts:12-13 | An absent priority defaults to NULL and an absent `locked` to false. An explicit `null` for either is rejected. |
| TaskSchemas.CreateTrimsIds | src/features/tasks/schemas.ts:5-8 | Accepted workspace and project ids are the trimmed inputs, and the name is kept untrimmed. An all-whitespace workspace id is rejected. |
| TaskSchemas.CreateStripsUnknown | src/features/tasks/schemas.ts:4-15 | A key outside the schema does not change the outcome. |
| TaskSchemas.UpdateKeys | src/features/tasks/schemas.ts:28-32 | The keys the refinement counts always include task id, name, status, due date and priority, because priority has a default. `projectId` and `locked` count exactly when given. |
| TaskSchemas.UpdateIssues | src/features/tasks/schemas.ts:18-27 | The issue list is empty exactly when every update field passed. |
| TaskSchemas.ValidateUpdate | src/features/tasks/schemas.ts:18-32 | A field rejection names at least one field. An accepted update has a non-empty task id and name, and clean assignee ids. |
| TaskSchemas.UpdateRefineNeverFails | src/features/tasks/schemas.ts:28-32 | The "at least one field" refinement never fails: validation succeeds exactly when the field checks pass. |
| TaskSchemas.UpdateNullHandling | src/features/tasks/schemas.ts:24-27 | An absent priority defaults to NULL and `null` stays null. `locked` and `assigneesId` are null exactly when sent as `null`. |
| TaskSchemas.NullishRoundTrips | src/features/tasks/schemas.ts:24-27 | Undefined, null and defined values of description, locked and assigneesId read back as themselves. |
| TaskSchemas.AssigneesRoundTrip | src/features/tasks/schemas.ts:27 | A defined list of clean ids reads back as itself. |
| TaskSchemas.UpdateRoundTrip | src/features/tasks/schemas.ts:18-32 | Every valid update, written as a JSON body, validates back to itself. |
| TaskSchemas.UpdateStripsAssigneeId | src/features/tasks/schemas.ts:18-32 | An `assigneeId` key in the body does not change the validated update. |
| TaskSchemas.ValidateTaskId | src/features/tasks/schemas.ts:34-40 | The id is accepted exactly when it is a string that is not all whitespace, and the result is the trimmed id. |
| TaskRoutes.OptEqual | src/features/tasks/server/route.ts:72-75 | An optional equality filter adds exactly one clause when its value is truthy, and none otherwise. |
| TaskRoutes.StatusClause | src/features/tasks/server/route.ts:77-80 | The status filter adds one clause exactly when a status is given. |
| TaskRoutes.SearchClause | src/features/tasks/server/route.ts:92-95 | The search filter adds one clause exactly when the text is non-empty. |
| TaskRoutes.PriorityClause | src/features/tasks/server/route.ts:97-100 | The priority filter adds one clause exactly when a priority is given. |
| TaskRoutes.AssigneeClauses | src/features/tasks/server/route.ts:102-112 | An array adds one `contains` clause per element. A non-empty single id adds one. |
| TaskRoutes.EqualityClauses | src/features/tasks/server/route.ts:67-100 | The query starts with the workspace equality and the `$createdAt` descending order. |
| TaskRoutes.ListQuery | src/features/tasks/server/route.ts:67-112 | The full query starts with the workspace filter and the newest-first order. |
| TaskRoutes.EqualityClausesOrdered | src/features/tasks/server/route.ts:67-100 | The fixed clauses and the optional equality filters appear in source order. |
| TaskRoutes.ListQueryOrdered | src/features/tasks/server/route.ts:67-112 | All clauses appear in source order: workspace, order, project, status, assignee, due date, search, priority, assignees. |
| TaskRoutes.ListQueryLength | src/features/tasks/server/route.ts:67-112 | The query has two clauses plus one per truthy filter, plus one per requested assignee. |
| TaskRoutes.OptEqualMeaning | src/features/tasks/server/route.ts:72-90 | A task passes an optional equality clause exactly when the filter is unset or the task's attribute equals it. |
| TaskRoutes.StatusClauseMeaning | src/features/tasks/server/route.ts:77-80 | A task passes the status clause exactly when no status is given or its status matches. |
| TaskRoutes.SearchClauseMeaning | src/features/tasks/server/route.ts:92-95 | A task passes the search clause exactly when no text is given or its name is a search hit. |
| TaskRoutes.PriorityClauseMeaning | src/features/tasks/server/route.ts:97-100 | A task passes the priority clause exactly when no priority is given or its priority matches. |
| TaskRoutes.AssigneeClausesMeaning | src/features/tasks/server/route.ts:102-112 | A task passes the assignee clauses exactly when it lists every requested assignee. |
| TaskRoutes.HeadMeaning | src/features/tasks/server/route.ts:67-70 | A task passes the two fixed clauses exactly when it belongs to the workspace. |
| TaskRoutes.ListQueryMeaning | src/features/tasks/server/route.ts:67-114 | A task passes the whole query exactly when it satisfies every requested filter, as an independent predicate states them. |
| TaskRoutes.GetMember | src/features/tasks/server/route.ts:57-65 | A membership is found exactly when the requester has one in the workspace, and it belongs to that requester and workspace. |
| TaskRoutes.TaskById | src/features/tasks/server/route.ts:305 | A task is found exactly when one has the id, and the task found has it. |
| TaskRoutes.ProjectById | src/features/tasks/server/route.ts:153 | A project is found exactly when one has the id, and the project found has it. |
| TaskRoutes.AssigneeById | src/features/tasks/server/route.ts:154 | An assignee is found exactly when one has the id, and the one found is in the list and has it. |
| TaskRoutes.Prefix | src/features/tasks/server/route.ts:144 | `substring(0, 8)` is a prefix of at most 8 characters, of exactly 8 when the text is that long. |
| TaskRoutes.ResolveAssignee | src/features/tasks/server/route.ts:131-148 | With the user found, the assignee shows the user's name and email. Otherwise the email is the unknown address, and the name is the member name, or `User ` followed by the first eight characters of the user id when the member has no name. |
| TaskRoutes.ResolveAll | src/features/tasks/server/route.ts:131-149 | One assignee per fetched member. |
| TaskRoutes.Populate | src/features/tasks/server/route.ts:152-161 | Each task keeps its place and carries the project and the assignee found by its ids. |
| TaskRoutes.Requested | src/features/tasks/server/route.ts:114 | The listed tasks are exactly the stored tasks that satisfy the filters. |
| TaskRoutes.SelectedIsRequested | src/features/tasks/server/route.ts:114 | Filtering by the built query equals filtering by the independent filter predicate. |
| TaskRoutes.FetchedProjectFound | src/features/tasks/server/route.ts:119-123 | Narrowing the project fetch to the listed ids loses no project a listed task refers to. |
| TaskRoutes.FetchedMemberFound | src/features/tasks/server/route.ts:125-129 | Narrowing the member fetch to the listed ids loses no member a listed task refers to. |
| TaskRoutes.AssigneeOfMember | src/features/tasks/server/route.ts:131-154 | A task's assignee is found exactly when its member exists, and it is that member resolved. |
| TaskRoutes.ListTasks | src/features/tasks/server/route.ts:57-168 | The only refusal is 401. |
| TaskRoutes.ListTasksMeaning | src/features/tasks/server/route.ts:57-161 | The GET answers 401 exactly for a non-member, before anything is read. Otherwise it lists the requested tasks in store order, each with its project and its resolved assignee. |
| TaskRoutes.GetTaskById | src/features/tasks/server/route.ts:173-184 | The task is returned exactly when one has the id. Otherwise the answer is 500. |
| TaskRoutes.ColumnPositions | src/features/tasks/server/route.ts:217-222 | The query fetches the position of every same-workspace, same-status task, and every position it fetches belongs to such a task. |
| TaskRoutes.PositionAsWritten | src/features/tasks/server/route.ts:217-227 | As written, the new position is 1000 for an empty column, and otherwise the lowest position plus 1000. |
| TaskRoutes.PositionAsWrittenCollides | src/features/tasks/server/route.ts:217-227 | In an empty column, three creates get 1000, 2000 and 2000. |
| TaskRoutes.PositionAsWrittenReuses | src/features/tasks/server/route.ts:217-227 | When lowest + 1000 is taken, the new task gets a position already in use. |
| TaskRoutes.NewPosition | src/features/tasks/server/route.ts:224-227 | Corrected: 1000 for an empty column, otherwise a position 1000 above a taken one and above every taken one. |
| TaskRoutes.PostTask | src/features/tasks/server/route.ts:207-241 | The only refusal is 401. The created document carries the validated fields, at the position the handler computes from the fetched column. |
| TaskRoutes.PostTaskMeaning | src/features/tasks/server/route.ts:207-241 | POST answers 401 exactly for a non-member. A member's task gets 1000 in an empty column. Otherwise it gets 1000 above the lowest task of its column: no task of the column is more than 1000 below it, and one is exactly 1000 below. |
| TaskRoutes.PostTaskReusesPosition | src/features/tasks/server/route.ts:217-233 | When a task sits exactly 1000 above the lowest task of the column, a member's new task is created at that task's position. |
| TaskRoutes.PostTaskCorrected | src/features/tasks/server/route.ts:207-241 | Corrected handler: same refusal and same fields, with the position 1000 above the highest. |
| TaskRoutes.PostTaskCorrectedMeaning | src/features/tasks/server/route.ts:207-241 | Corrected handler: 401 exactly for a non-member, and a created task goes below every task of its column. |
| TaskRoutes.UpdateData | src/features/tasks/server/route.ts:288-301 | The update always writes name, status, due date and priority. It never writes the project, workspace, position or creation time. |
| TaskRoutes.UpdateDataRoundTrip | src/features/tasks/server/route.ts:288-301 | The update reads back as exactly the request fields that are not `undefined`, `null` values included. |
| TaskRoutes.ProjectIdNotWritten | src/features/tasks/server/route.ts:254-301 | Changing the requested `projectId` does not change what is written. |
| TaskRoutes.ValidatedWritesNoAssigneeId | src/features/tasks/server/route.ts:254-301 | After validation, `assigneeId` is never written. |
| TaskRoutes.LockGateMeaning | src/features/tasks/server/route.ts:304-317 | A PATCH passes the lock gates exactly when the requester is an ADMIN and the task is unlocked, or the request sets `locked` to false or null. A MEMBER passes only on an unlocked task with `locked: false`. |
| TaskRoutes.AssigneeTarget | src/features/tasks/server/route.ts:319-325 | With no `assigneeId` the first notice goes to "". A `null` id fails. |
| TaskRoutes.AssigneesTargets | src/features/tasks/server/route.ts:333-341 | With no list there are no extra targets, and `null` fails. A list gives exactly the user ids of its members, in order, and fails when one is missing. |
| TaskRoutes.UserIdsOf | src/features/tasks/server/route.ts:336-340 | The list resolves exactly when every id names a member, one user id per id in order. |
| TaskRoutes.FanOut | src/features/tasks/server/route.ts:346-350 | Exactly 1 + n notices: "name has been updated." to the first target, then "Task name has been updated." to each listed target in order. |
| TaskRoutes.Patch | src/features/tasks/server/route.ts:265-353 | An update targets the requested task. |
| TaskRoutes.PatchMeaning | src/features/tasks/server/route.ts:265-353 | A PATCH succeeds exactly when the task exists, has a workspace, the requester is a member, the lock gates pass and both assignee lookups resolve. A failed lookup after the gates gives 500. A refusal at a gate is 500, 404, 401 or 403. |
| TaskRoutes.PatchRefusals | src/features/tasks/server/route.ts:265-317 | The refusals come in order: an unknown task gives 500, a task without a workspace 404, a non-member 401, a lock-gate refusal 403. |
| TaskRoutes.PatchNotifications | src/features/tasks/server/route.ts:319-350 | A successful PATCH writes the request's update. It sends 1 + \|assigneesId\| notices naming the new name, or the stored one. The first goes to the assignee's user and the rest to each listed member's user. |
| TaskRoutes.NullAssigneesFails | src/features/tasks/server/route.ts:335-336 | `assigneesId: null` never leads to an update: iterating `null` throws. |
| TaskRoutes.ValidatedPatchNotifies | src/features/tasks/server/route.ts:319-346 | After validation the first notice always goes to the user id "". |
| TaskRoutes.DeleteTask | src/features/tasks/server/route.ts:366-397 | A deletion removes the requested task. |
| TaskRoutes.DeleteTaskMeaning | src/features/tasks/server/route.ts:366-397 | A task is deleted exactly when it exists, has a workspace, the requester is a member and it is unlocked. A locked task gives 403 for every role. |
| TaskRoutes.DeleteTaskRefusals | src/features/tasks/server/route.ts:366-387 | The refusals come in order: an unknown task gives 500, a task without a workspace 404, and a requester outside the workspace 401. |
| MemberRoutes.Memberships | src/features/members/server/route.ts:22-29 | The memberships found belong to the requester in the workspace. |
| MemberRoutes.MemberById | src/features/members/server/route.ts:93 | A member is found exactly when one has the id, and the member found has it. |
| MemberRoutes.ListedMember | src/features/members/server/route.ts:45-63 | A non-empty member name is shown as it is. With the user found, an empty member name falls back to the user's name and the email is the user's. When `users.get` fails, the email is "unknown@example.com" and an empty member name becomes "Unknown User". |
| MemberRoutes.ListMembers | src/features/members/server/route.ts:16-66 | The only refusal is 401. |
| MemberRoutes.MembershipsMeaning | src/features/members/server/route.ts:22-33 | The membership list is non-empty exactly when the requester belongs to the workspace. |
| MemberRoutes.ListMembersMeaning | src/features/members/server/route.ts:22-65 | GET answers 401 exactly for a non-member. Otherwise a member is listed exactly when it belongs to the workspace. |
| MemberRoutes.DeleteMember | src/features/members/server/route.ts:80-120 | A deletion removes the requested member. |
| MemberRoutes.DeleteMemberMeaning | src/features/members/server/route.ts:85-116 | A member is deleted exactly when there is a user, the target exists in the workspace, and the requester is a member of it. |
| MemberRoutes.DeleteMemberRefusals | src/features/members/server/route.ts:85-120 | No session user gives 401. A target id without a document gives 500 through the `catch`. A requester outside the target's workspace gives 401. |
| MemberRoutes.ForeignTargetBeforeMembership | src/features/members/server/route.ts:93-111 | A target in another workspace gives 404 whether or not the requester is a member: the target check comes first. |
| MemberRoutes.DeleteIgnoresRoles | src/features/members/server/route.ts:99-114 | Changing every member's role does not change the DELETE outcome: only membership is checked. |
| Kanban.WithDisplayId | src/features/tasks/components/kanban-view.tsx:16-21 | The id shown is the document id when non-empty, else the task's own id. The other fields are kept. |
| Kanban.WithDisplayIdIdempotent | src/features/tasks/components/kanban-view.tsx:16-21 | Assigning display ids twice is assigning them once. |
| Kanban.ColumnOf | src/features/tasks/components/kanban-view.tsx:33-34 | An empty status goes to BACKLOG. A status string goes to the column with that value, or to none when no status has it. |
| Kanban.ColumnMembers | src/features/tasks/components/kanban-view.tsx:32-37 | A card is in a column exactly when it is among the tasks and its status names that column. |
| Kanban.ColumnConcat | src/features/tasks/components/kanban-view.tsx:32-37 | Grouping keeps input order: the column of a concatenation is the concatenation of the columns. |
| Kanban.EveryStatus | src/features/tasks/components/kanban-view.tsx:25-31 | The five buckets cover every status. |
| Kanban.Push | src/features/tasks/components/kanban-view.tsx:34-35 | Pushing a card keeps a bucket for every status. |
| Kanban.PushBuildsColumns | src/features/tasks/components/kanban-view.tsx:32-37 | Pushing the next card extends each bucket to the column of the longer input. |
| Kanban.GroupTasks | src/features/tasks/components/kanban-view.tsx:24-39 | Each of the five buckets is the in-order column of the tasks with display ids. |
| Kanban.ColumnsDisjoint | src/features/tasks/components/kanban-view.tsx:32-37 | A card is in at most one bucket. A card with an empty status is in BACKLOG. A card with an unknown status is in none. |
| Kanban.RemoveAt | src/features/tasks/components/kanban-view.tsx:64 | `splice(i, 1)` removes exactly that one element. |
| Kanban.InsertAt | src/features/tasks/components/kanban-view.tsx:67 | `splice(i, 0, x)` inserts `x` at `i`, or at the end when `i` is past it, and keeps the rest. |
| Kanban.OnDragEnd | src/features/tasks/components/kanban-view.tsx:42-84 | No destination, or the same place, changes nothing and sends no update. |
| Kanban.DragKeepsCards | src/features/tasks/components/kanban-view.tsx:57-67 | A move keeps the multiset of all cards on the board. |
| Kanban.DragPlacesCard | src/features/tasks/components/kanban-view.tsx:57-73 | The moved card sits at the destination index and the update request carries its id and the destination status. The other columns are unchanged. |
| ProgressMetrics.Overdue | src/features/tasks/components/task-progress-metrics.tsx:35-41 | The overdue tasks are exactly the tasks with a valid due date strictly before now. |
| ProgressMetrics.Upcoming | src/features/tasks/components/task-progress-metrics.tsx:44-50 | The upcoming tasks are exactly the tasks with a valid due date strictly after now. |
| ProgressMetrics.ComputeMetrics | src/features/tasks/components/task-progress-metrics.tsx:35-89 | The overdue chart adds up to the overdue tasks, and the two upcoming charts add up to the upcoming tasks. |
| ProgressMetrics.OverdueUpcomingDisjoint | src/features/tasks/components/task-progress-metrics.tsx:35-50 | No task is both overdue and upcoming. A task without a valid date, or due exactly now, is neither. |
| ProgressMetrics.DatedTaskClassified | src/features/tasks/components/task-progress-metrics.tsx:35-50 | A task with a valid date other than now is overdue or upcoming. |
| ProgressMetrics.UpcomingSplits | src/features/tasks/components/task-progress-metrics.tsx:53-65 | Within-a-week and after-a-week partition the upcoming tasks as a multiset, whatever the day difference computes. |
| ProgressMetrics.CompletedIncompletePartition | src/features/tasks/components/task-progress-metrics.tsx:68-89 | In every chart, completed plus incomplete is the whole group, as a multiset. |
| DateFormat.TwoDigits | src/features/tasks/components/update-task-form-wrapper.tsx:18-19 | A month or day is two digits that read back as the number. |
| DateFormat.TimeToDateString | src/features/tasks/components/update-task-form-wrapper.tsx:14-22 | The text is the year's digits plus six characters. |
| DateFormat.FourDigitYearLength | src/features/tasks/components/update-task-form-wrapper.tsx:17-21 | A four-digit year gives ten characters, with dashes at positions 4 and 7. |
| DateFormat.ParseDateString | src/features/tasks/components/update-task-form-wrapper.tsx:21 | A date read back from `yyyy-mm-dd` has a month and a day in range. |
| DateFormat.DateStringRoundTrip | src/features/tasks/components/update-task-form-wrapper.tsx:14-22 | For a non-negative year the formatted date reads back as the UTC fields it came from: the month shifted to one-based, the padding lost nothing. |
| DateFormat.SplitDigitRuns | src/features/tasks/components/update-task-form-wrapper.tsx:21 | Three digit runs joined by dashes split back into the three runs. |
| Cookies.GetCookie | public/chatroom/room.js:4-8 | A value is found only when `; name=` occurs in `"; " + document.cookie`, and it holds no `;`. The same function is in public/notificationChannel.js:2-6. |
| Cookies.GetCookieSingleMatch | public/chatroom/room.js:5-7 | When `; name=` occurs exactly once in `"; " + document.cookie`, the value is the text after it up to the next `;`. This holds in whichever entry it occurs. |
| Cookies.AbsentCookie | public/chatroom/room.js:5-7 | A name that does not occur gives no value. |
| Cookies.DuplicateCookie | public/chatroom/room.js:6-7 | A name that occurs twice gives no value. |
| Cookies.FirstCookie | public/chatroom/room.js:5-7 | The first cookie can match thanks to the leading `"; "`. Its value runs up to the next `;`. |
| Cookies.ValueUpToSemicolon | public/chatroom/room.js:7 | The value is the text up to the first `;`. |
| Cookies.SuffixNameNoMatch | public/notificationChannel.js:3-4 | A name that is only the tail of another cookie's name never matches. |
| Cookies.SessionLine | __tests__/utils.js:95 | The line used is one of the `set-cookie` lines and starts with `AUTH_COOKIE=`. No line is used exactly when no line starts with it. |
| Cookies.SessionLineFirst | __tests__/utils.js:95 | The line used is the first line that starts with `AUTH_COOKIE=`, whatever later lines hold. |
| Cookies.FindLoginCookieValue | __tests__/utils.js:89-102 | A non-array throws. The result is null exactly when no line starts with `AUTH_COOKIE=`. A found value holds neither `;` nor `=`. |
| Cookies.FindLoginCookieValueReads | __tests__/utils.js:95-101 | When the first session line is `AUTH_COOKIE=rest`, the result is `rest` cut at its first `;`, then at its first `=`. |
| Cookies.UpToCommutes | __tests__/utils.js:101 | Cutting at the first `;` and then at the first `=` is the same as cutting in the other order. |
| Cookies.ExtractionOrdersAgree | __tests__/utils.js:46 | For `NAME=rest` with no `;` or `=` in NAME, `split("=")[1].split(";")[0]` equals `split(';')[0].split("=")[1]`. |
| ChatClient.ConnectToServer | public/chatroom/room.js:11-29 | A missing or empty room gives "Please fill in all fields.", and then a missing session "Session key not found. Please log in.". Otherwise a socket opens, and the hub reads exactly that room, that key and the chatroom channel, which pass its check. |
| ChatClient.ChatUrlWritten | public/chatroom/room.js:28 | The template URL is the server address with the three encoded pairs as its query. |
| ChatClient.ChatUrlReachesHub | public/chatroom/room.js:28 | For every room and key, the hub reads back exactly them with the chatroom channel. It accepts them exactly when neither is empty. |
| ChatClient.Render | public/chatroom/room.js:38-55 | Nothing is appended exactly for an envelope of another type without a `message`, because logging its message throws. An appended line is in the system style exactly for `welcome` and `system` envelopes. |
| ChatClient.RenderKeepsMessage | public/chatroom/room.js:38-55 | A system line is `[System] ` followed by the message. A chat line splits at its first `:` into the sender and the message, when the name has no `:`. An envelope of another type that has a `message` gives an empty line. |
| ChatClient.WelcomeRendersAsSystem | public/chatroom/room.js:46-48 | `welcome` and `system` render alike. |
| ChatClient.SocketAfterConnect | public/chatroom/room.js:11-29 | An alert leaves `socket` unassigned. An opened connection leaves a WebSocket that is still CONNECTING. |
| ChatClient.SendMessage | public/chatroom/room.js:72-84 | An all-whitespace input shows the alert, keeps the input and calls no `send`. Otherwise `send` is called with the trimmed, non-empty text. It throws on an unassigned or CONNECTING socket, and then the input is kept. An open socket transmits the text, and the input is cleared. A closing or closed socket drops the text, and the input is cleared as well. |
| ChatClient.SendBeforeOpenThrows | public/chatroom/room.js:11-84 | Before the socket opens, whatever `connectToServer` did, a non-blank message makes `send` throw and stays in the input box. |
| ChatClient.SentIsInnerSlice | public/chatroom/room.js:74 | The sent text is the input minus the whitespace at its two ends. |
| ChatClient.ResendUnchanged | public/chatroom/room.js:74 | Sending the sent text again on the same socket sends the same text. |
| NotificationClient.Connect | public/notificationChannel.js:12-19 | A socket opens exactly when the session cookie is non-empty. The hub reads the key and the notification channel, no room, and accepts them. |
| NotificationClient.NotificationUrlWritten | public/notificationChannel.js:18 | The template URL is the server address with the two encoded pairs as its query. |
| NotificationClient.NotificationUrlReachesHub | public/notificationChannel.js:18 | For every key, the hub reads back exactly that key and `channel=notification`. It accepts them exactly when the key is non-empty. |
| FloatWidget.Toggle | public/chatroom/float.js:18-22 | The result is `block` or `none`, and `none` exactly when the display was `block`. |
| FloatWidget.ToggleAlternates | public/chatroom/float.js:18-22 | After the first click the display alternates: toggling twice restores it. |
| FloatWidget.Segment | public/chatroom/float.js:27 | `[^/?]+` taken greedily: the longest prefix without `/` or `?`. |
| FloatWidget.MatchFrom | public/chatroom/float.js:27 | The leftmost position at or after the start where the pattern matches, or none. |
| FloatWidget.WorkspaceId | public/chatroom/float.js:27-28 | null exactly when the pattern matches nowhere. Otherwise a non-empty id without `/` or `?`. |
| FloatWidget.WorkspaceIdLeftmost | public/chatroom/float.js:27-28 | The id is the whole segment after the leftmost match. |
| FloatWidget.SegmentOf | public/chatroom/float.js:27 | A segment stops exactly at the next `/` or `?`. |
| FloatWidget.WorkspacePageId | public/chatroom/float.js:27-28 | On `origin/workspaces/<id>` followed by nothing, a path or a query, the widget reads exactly `<id>`. |
| FloatWidget.IframeRoomId | public/chatroom/float.js:31 | The chat page reads back the workspace id, or `null`, as its `id` parameter when the id needs no encoding. |
| FloatWidget.ToggleChatVisibility | public/chatroom/float.js:17-40 | The display toggles and the iframe points at the workspace's room. `src` is assigned exactly when it differs, and otherwise only the display changes. |
| FloatWidget.SecondClickKeepsRoom | public/chatroom/float.js:34-38 | A second click on the same page reverses the display and does not reload the iframe. |
| FloatWidget.WidgetOpensWorkspaceRoom | public/chatroom/float.js:27-31 | The widget's chat page opens a socket exactly when the session cookie is set. The hub then reads the page's workspace id, or `null`, as the room. |

## Left out

- **Sockets and the server itself.** Real sockets, the `ws` server, port binding and the singleton (src/lib/websocketServer.ts:195-223) are left out. The hub is a state value stepped one event at a time.
- **Concurrency.** Each handler runs as one atomic step, and async interleaving is not modelled.
- **The hub's external calls.** `authenticate` and `hasAccessToWorkspace` (src/lib/websocketServer.ts:226-245) are event inputs, not calls.
- **The notification sender.** The exported `sendNotificationToUser` (src/lib/websocketServer.ts:403-410) opens a socket per call. It is pure I/O, so PATCH returns the relay frames it would send.
- **Logging.** `console` output and the socket `error` handler are left out.
- **Dead code.** src/lib/websocketServer.ts:1-172 and src/lib/singleton.ts are commented out.
- **Code outside this model.** src/features/members/utils (`getMember`), src/features/members/type (`MemberRole`) and src/features/auth/constants (`AUTH_COOKIE`) are not part of this model.
  - `getMember` is taken to be the first membership document of the requester in the workspace.
  - `MemberRole` is ADMIN or MEMBER.
  - `AUTH_COOKIE` is a parameter.
- **Database behaviour.** Appwrite calls are filters and lookups over sequences.
  - Pagination of `listDocuments` is left out.
  - `Query.search` is an arbitrary predicate `hit`.
  - `users.get` failing is a user id missing from the map.
- **Dates.** `z.coerce.date()`, `new Date()`, `differenceInDays` and the timestamp-to-UTC-fields conversion are parameters: a `parse` function, `now`, `daysUntil`, and the UTC fields.
- **JSON.** `JSON.stringify` and `JSON.parse` are datatypes, with a parse failure as the `Malformed` frame.
- **Prototype-named statuses.** Kanban grouping of a status named after an object prototype property (`constructor`, `toString`) is not modelled. There `groups[status]` is a function and `push` throws.
- **Display ids in the charts.** The id re-mapping of task-progress-metrics.tsx:24-29 is not modelled, because the charts do not read the id.
- **Browser UI.** React components, hooks, DOM work, alerts after the socket closes, public/notification.js and the random alias of the test helpers are left out.
- **Lone surrogates.** `encodeURIComponent` throws on a lone surrogate, but a Dafny `string` holds scalar values, so that case cannot arise.
- **URL parsing.** Only the query is read.
  - The URL parser's own percent-encoding of query characters is left out, because the clients' queries are already encoded.
  - Host and path parsing are left out.
  - `QueryOf` splits at the first `#` and the first `?`.
- FloatWidget.SecondClickKeepsRoom: takes `iframe.src` to read back exactly as assigned. The URL serializer re-encodes some query characters, such as `'` in the query of a special-scheme URL. For a workspace id holding one, every click would reassign `src` and reload the room.
- Kanban.OnDragEnd: requires the source index to lie inside its column, which the drag library guarantees for every drop.
- FloatWidget.IframeRoomId: requires a workspace id made of unreserved characters. float.js does not encode the id, so an id with `&`, `%`, `+`, `#` or `=` can read back differently. A page without a workspace opens the room named `null`.
- DateFormat.DateStringRoundTrip: holds for years from 0 up. A negative year prints with a `-` that the dash split cannot tell apart.
- DateFormat.TimeToDateString: only the length is stated for every year, and the round trip is stated for years from 0 up.
- Cookies.FindLoginCookieValue: requires a cookie name without `;` or `=`, which a `Set-Cookie` name cannot contain.
- TaskSchemas.CoerceDate: JSON numbers are integers. The truncation that `TimeClip` applies to a fractional number is not modelled, because the model has no floating point.

## Where the code and its documentation differ

The model follows the code:

- **Notification entries are never removed.** Closing a notification socket leaves its entry in the table, because no `close` handler is installed.
- **PATCH never writes `assigneeId`.** `updateTaskSchema` has no `assigneeId`, so validation strips it. The first notification of a PATCH therefore always goes to the user id `""`.
- **`assigneesId: null` fails the PATCH.** It passes validation, but iterating it throws, so the PATCH fails with 500 after the gates and before the update.
- **An ADMIN may send `locked: null`.** On a locked task, `null` passes the ADMIN gate, since it is neither undefined nor true.
- **A MEMBER must send `locked: false`.** A MEMBER is refused whenever `locked` is absent, because `undefined !== false`.
- **Some 404 branches are dead.** An unknown id makes `getDocument` throw, so the answer is 500:
  - in get-by-id, PATCH and DELETE;
  - in member DELETE, where the error is caught and returns 500.

  The `!task` and `!member` 404 branches never run.
- **PATCH never writes `projectId`.** It is accepted by validation and then dropped.

## Findings

| source | as written | input that shows it | evidently intended | confidence | as-written member | corrected member |
|---|---|---|---|---|---|---|
| src/features/tasks/server/route.ts:217-227 | The new position is the lowest same-status position plus 1000 (`orderAsc`, `limit 1`), though the result is named `highestPositionTask`. | Three tasks created in an empty column get positions 1000, 2000 and 2000. The third collides with the second. | The highest position plus 1000, so a new task goes below every task of its column. | not executed | TaskRoutes.PostTask, TaskRoutes.PositionAsWritten, TaskRoutes.PositionAsWrittenCollides, TaskRoutes.PostTaskReusesPosition | TaskRoutes.NewPosition, TaskRoutes.PostTaskCorrected, TaskRoutes.PostTaskCorrectedMeaning |

=== FILE: chat_client.dfy ===
/**
  The chat room page, `public/chatroom/room.js`: it opens a chatroom connection for the
  room named in its own URL, renders every envelope the hub sends as one line, and sends
  the trimmed text of the input box.

  The page's URL query, its cookies and the input box's text are parameters; alerts,
  the socket and the DOM become the values the functions return.
 */
module ChatClient {
  import opened Wrappers
  import opened Strings
  import opened Uri
  import Cookies
  import Hub
  import HubRequest

  // ---------------------------------------------------------------------------
  // connectToServer
  // ---------------------------------------------------------------------------

  /** What `connectToServer` does: show an alert and stop, or open a socket to a URL. */
  datatype Connect = Alert(text: string) | Open(url: string)

  const NoRoomAlert := "Please fill in all fields."
  const NoSessionAlert := "Session key not found. Please log in."
  const ServerBase := "ws://localhost:8080"

  /** The chatroom connection URL, with room and session key URI-encoded. */
  function ChatUrl(room: string, key: string): string {
    "ws://localhost:8080?chatroom=" + EncodeURIComponent(room) + "&session=" + EncodeURIComponent(key)
      + "&channel=chatroom"
  }

  function ChatPairs(room: string, key: string): seq<(string, string)> {
    [("chatroom", room), ("session", key), ("channel", "chatroom")]
  }

  /** The page reads the room from the `id` parameter of its own query and the session key
      from the session cookie; either one missing or empty stops it with an alert. */
  function ConnectToServer(search: string, cookie: string): (r: Connect)
    ensures var room, key := Get(SearchParams(search), "id"), Cookies.GetCookie(cookie, Cookies.SessionCookie);
            && (r.Open? <==> Hub.Truthy(room) && Hub.Truthy(key))
            && (!Hub.Truthy(room) ==> r == Alert(NoRoomAlert))
            && (Hub.Truthy(room) && !Hub.Truthy(key) ==> r == Alert(NoSessionAlert))
            && (r.Open? ==> HubRequest.ParamsOf(r.url) == Hub.ConnectParams(Some("chatroom"), key, room))
            && (r.Open? ==> Hub.ParamsValid(HubRequest.ParamsOf(r.url)))
  {
    var room := Get(SearchParams(search), "id");
    var key := Cookies.GetCookie(cookie, Cookies.SessionCookie);
    if !Hub.Truthy(room) then Alert(NoRoomAlert)
    else if !Hub.Truthy(key) then Alert(NoSessionAlert)
    else
      ChatUrlReachesHub(room.value, key.value);
      Open(ChatUrl(room.value, key.value))
  }

  /** The URL is the server address followed by a query of three pieces. */
  lemma ChatUrlWritten(room: string, key: string)
    ensures ChatUrl(room, key) == WithQuery(ServerBase, ChatPairs(room, key))
  {
    var ps := ChatPairs(room, key);
    var e1, e2 := EncodeURIComponent(room), EncodeURIComponent(key);
    assert Piece(ps[0]) == "chatroom" + "=" + e1;
    assert Piece(ps[1]) == "session" + "=" + e2;
    PlainPiece(ps[2]);
    WithThreePieces(ServerBase, ps);
    ChatTemplate(e1, e2);
  }

  lemma ChatTemplate(e1: string, e2: string)
    ensures "ws://localhost:8080?chatroom=" + e1 + "&session=" + e2 + "&channel=chatroom"
         == ServerBase + "?" + ("chatroom" + "=" + e1) + "&" + ("session" + "=" + e2) + "&" + ("channel" + "=" + "chatroom")
  {
  }

  /** Whatever the room and the key, the hub reads back exactly the room, the key and the
      chatroom channel; it lets the connection past its parameter check exactly when
      neither the room nor the key is empty. */
  lemma ChatUrlReachesHub(room: string, key: string)
    ensures HubRequest.ParamsOf(ChatUrl(room, key)) == Hub.ConnectParams(Some("chatroom"), Some(key), Some(room))
    ensures Hub.ParamsValid(HubRequest.ParamsOf(ChatUrl(room, key))) <==> room != "" && key != ""
  {
    ChatUrlWritten(room, key);
    ChatPairsPlain(room, key);
    HubRequest.WrittenParams(ServerBase, ChatPairs(room, key));
    ChatGets(room, key);
  }

  lemma ChatPairsPlain(room: string, key: string)
    ensures '?' !in ServerBase && '#' !in ServerBase && PlainNames(ChatPairs(room, key))
  {
  }

  lemma ChatGets(room: string, key: string)
    ensures var ps := ChatPairs(room, key);
            Get(ps, "channel") == Some("chatroom") && Get(ps, "session") == Some(key) && Get(ps, "chatroom") == Some(room)
  {
    var ps := ChatPairs(room, key);
    assert "chatroom" != "channel" && "chatroom" != "session" && "session" != "channel" by {
      assert "session"[0] != "channel"[0];
    }
    GetFirst(ps, "chatroom", 0);
    GetFirst(ps, "session", 1);
    GetFirst(ps, "channel", 2);
  }

  // ---------------------------------------------------------------------------
  // onmessage
  // ---------------------------------------------------------------------------

  /** An envelope as the page receives it: one of the hub's three, or any other `type`,
      with or without a `message` property (a `null` message counts as none). */
  datatype Incoming = Known(envelope: Hub.Envelope) | OtherType(hasMessage: bool)

  /** The `div` appended to the chat box: its text, and whether it carries the
      `system-message` class. */
  datatype ChatLine = ChatLine(text: string, system: bool)

  const SystemPrefix := "[System] "

  /** The `onmessage` handler: it logs `data.message.toString()` before it looks at the
      type, so an envelope without a message throws there and nothing is appended (`None`).
      Otherwise `welcome` and `system` become `[System] message` in the system style,
      `message` becomes `username: message`, and any other type an empty line. */
  function Render(m: Incoming): (line: Option<ChatLine>)
    ensures line.None? <==> m.OtherType? && !m.hasMessage
    ensures line.Some? ==> (line.value.system <==> m.Known? && !m.envelope.Chat?)
  {
    match m
    case Known(Welcome(message)) => Some(ChatLine(SystemPrefix + message, true))
    case Known(System(message)) => Some(ChatLine(SystemPrefix + message, true))
    case Known(Chat(username, message)) => Some(ChatLine(username + ": " + message, false))
    case OtherType(hasMessage) => if hasMessage then Some(ChatLine("", false)) else None
  }

  /** A rendered line gives its message back: after the `[System] ` prefix for the hub's
      own messages, and after the first `:` for a chat message whose sender's name has
      no `:`. An envelope of another type gives an empty line when it has a message. */
  lemma RenderKeepsMessage(m: Incoming)
    ensures m.Known? ==> Render(m).Some?
    ensures m.Known? && !m.envelope.Chat? ==>
              StartsWith(Render(m).value.text, SystemPrefix) && Render(m).value.text[|SystemPrefix|..] == m.envelope.message
    ensures m.Known? && m.envelope.Chat? && ':' !in m.envelope.username ==>
              BreakAt(Render(m).value.text, ':') == (m.envelope.username, " " + m.envelope.message)
    ensures m.OtherType? && m.hasMessage ==> Render(m) == Some(ChatLine("", false))
  {
    if m.Known? && m.envelope.Chat? && ':' !in m.envelope.username {
      var e := m.envelope;
      assert Render(m).value.text == e.username + [':'] + (" " + e.message);
      BreakAtFirst(e.username, ':', " " + e.message);
    }
  }

  /** A `welcome` and a `system` envelope with the same message render alike: the page does
      not tell them apart. */
  lemma WelcomeRendersAsSystem(message: string)
    ensures Render(Known(Hub.Welcome(message))) == Render(Known(Hub.System(message)))
  {
  }

  // ---------------------------------------------------------------------------
  // sendMessage
  // ---------------------------------------------------------------------------

  const EmptyAlert := "Message cannot be empty."

  /** The page's `socket` variable when `sendMessage` runs: never assigned because
      `connectToServer` stopped at an alert, or a WebSocket in one of its ready states
      (CLOSING and CLOSED behave alike here). */
  datatype Socket = NoSocket | Connecting | OpenSocket | ClosedSocket

  /** The socket `connectToServer` leaves behind: none after an alert, otherwise a new
      WebSocket, which starts out CONNECTING. */
  function SocketAfterConnect(c: Connect): (s: Socket)
    ensures s.NoSocket? <==> c.Alert?
    ensures c.Open? ==> s.Connecting?
  {
    if c.Alert? then NoSocket else Connecting
  }

  /** What `sendMessage` does: the text the socket transmits if any, the input box's text
      afterwards, the alert shown if any, and whether `socket.send` threw. */
  datatype SendOutcome = SendOutcome(sent: Option<string>, input: string, alert: Option<string>, thrown: bool)

  /** The input is trimmed; when that leaves nothing, the alert shows and the input is kept.
      Otherwise `socket.send` is called with the trimmed text: it throws on an unassigned
      socket (a TypeError) and on a CONNECTING one (an InvalidStateError, as the WebSocket
      interface of the HTML Living Standard requires), and then the input is kept; an
      open socket transmits the text and a closing or closed one drops it, and in both
      cases the input is cleared. */
  function SendMessage(input: string, socket: Socket): (o: SendOutcome)
    ensures AllWhitespace(input) ==> o == SendOutcome(None, input, Some(EmptyAlert), false)
    ensures !AllWhitespace(input) ==> o.alert.None?
    ensures o.sent.Some? <==> !AllWhitespace(input) && socket.OpenSocket?
    ensures o.sent.Some? ==> o.sent.value != "" && Trimmed(o.sent.value) && o.sent.value == Trim(input)
    ensures o.thrown <==> !AllWhitespace(input) && (socket.NoSocket? || socket.Connecting?)
    ensures !AllWhitespace(input) ==> (o.input == "" <==> !o.thrown)
    ensures o.thrown ==> o.input == input
  {
    var message := Trim(input);
    TrimEmptyIff(input);
    if message == "" then SendOutcome(None, input, Some(EmptyAlert), false)
    else match socket
      case NoSocket => SendOutcome(None, input, None, true)
      case Connecting => SendOutcome(None, input, None, true)
      case OpenSocket => SendOutcome(Some(message), "", None, false)
      case ClosedSocket => SendOutcome(None, "", None, false)
  }

  /** Right after the page loads nothing can be sent: whatever `connectToServer` did, a
      non-blank message makes `socket.send` throw and stays in the input box. */
  lemma SendBeforeOpenThrows(search: string, cookie: string, input: string)
    requires !AllWhitespace(input)
    ensures var o := SendMessage(input, SocketAfterConnect(ConnectToServer(search, cookie)));
            o.thrown && o.sent.None? && o.input == input
  {
  }

  /** The text sent is the input with whitespace removed from its two ends and nothing
      else: a slice of the input with only whitespace on either side. */
  lemma SentIsInnerSlice(input: string, socket: Socket) returns (i: nat)
    ensures var o := SendMessage(input, socket);
            o.sent.Some? ==>
              && i + |o.sent.value| <= |input|
              && o.sent.value == input[i..i + |o.sent.value|]
              && AllWhitespace(input[..i]) && AllWhitespace(input[i + |o.sent.value|..])
  {
    i := TrimSlice(input);
  }

  /** Typing the sent text again into the same socket sends the same text. */
  lemma ResendUnchanged(input: string, socket: Socket)
    ensures var o := SendMessage(input, socket);
            o.sent.Some? ==> SendMessage(o.sent.value, socket).sent == o.sent
  {
    TrimIdempotent(input);
  }
}

=== FILE: cookies.dfy ===
/**
  Reading a session cookie on the client and in the test helpers.

  `getCookie` (defined identically in `public/chatroom/room.js` and
  `public/notificationChannel.js`) reads one cookie out of `document.cookie`, a string of
  `name=value` entries separated by `"; "`. `findLoginCookieValue` (`__tests__/utils.js`)
  reads the session value out of the `Set-Cookie` header lines of a response. Both
  formats are those of section 4 of RFC 6265: `Set-Cookie` lines in section 4.1 and the
  `Cookie` header, which `document.cookie` mirrors, in section 4.2.
 */
module Cookies {
  import opened Wrappers
  import opened Strings

  /** The session cookie both clients read. */
  const SessionCookie := "flowboard-flowboard-cosc310-session"

  // ---------------------------------------------------------------------------
  // getCookie
  // ---------------------------------------------------------------------------

  /** What `getCookie` splits on: the name preceded by the entry separator and followed by `=`. */
  function Marker(name: string): (r: string)
    ensures |r| == |name| + 3 && r[0] == ';' && r[|r| - 1] == '='
  {
    "; " + name + "="
  }

  /** `getCookie(name)`: `"; " + cookie` split on `"; name="` must give exactly two pieces; the
      value is then the second piece up to its first `;`. */
  function GetCookie(cookie: string, name: string): (r: Option<string>)
    ensures r.Some? ==> ';' !in r.value
    ensures r.Some? ==> Contains("; " + cookie, Marker(name))
  {
    var parts := Split("; " + cookie, Marker(name));
    if |parts| == 2 then
      var value := Split(parts[1], ";")[0];
      ContainsChar(value, ';');
      Some(value)
    else None
  }

  /** A name that does not occur gives no value. */
  lemma AbsentCookie(cookie: string, name: string)
    requires !Contains("; " + cookie, Marker(name))
    ensures GetCookie(cookie, name) == None
  {
  }

  /** A name that occurs twice gives no value either. */
  lemma DuplicateCookie(cookie: string, name: string, i: int, j: int)
    requires OccursAt("; " + cookie, Marker(name), i) && OccursAt("; " + cookie, Marker(name), j)
    requires i + |Marker(name)| <= j
    ensures GetCookie(cookie, name) == None
  {
    TwoOccurrencesThreePieces("; " + cookie, Marker(name), i, j);
  }

  /** Whatever entry it sits in, a name whose marker occurs exactly once gives the text
      after that marker up to the next `;`. */
  lemma GetCookieSingleMatch(cookie: string, name: string, i: int)
    requires OccursAt("; " + cookie, Marker(name), i)
    requires forall j :: OccursAt("; " + cookie, Marker(name), j) ==> j == i
    ensures GetCookie(cookie, name) == Some(UpTo(("; " + cookie)[i + |Marker(name)|..], ';'))
  {
    var s := "; " + cookie;
    var m := Marker(name);
    SplitAtOnlyOccurrence(s, m, i);
    SplitCharFirst(s[i + |m|..], ';');
  }

  /** Splitting on a separator that occurs only at `i` gives two pieces, the second being
      everything after that occurrence. */
  lemma SplitAtOnlyOccurrence(s: string, sep: string, i: int)
    requires |sep| > 0 && OccursAt(s, sep, i)
    requires forall j :: OccursAt(s, sep, j) ==> j == i
    ensures |Split(s, sep)| == 2 && Split(s, sep)[1] == s[i + |sep|..]
  {
    var tail := s[i + |sep|..];
    NothingAfterOnlyOccurrence(s, sep, i);
    FoundAtOnlyOccurrence(s, sep, i);
    SplitRest(s, sep);
    SplitFirst(tail, sep);
    assert Split(s, sep)[1..] == [tail];
  }

  /** A separator that occurs only at `i` is found there. */
  lemma FoundAtOnlyOccurrence(s: string, sep: string, i: int)
    requires OccursAt(s, sep, i)
    requires forall j :: OccursAt(s, sep, j) ==> j == i
    ensures Find(s, sep) == Some(i)
  {
  }

  /** A separator that occurs only at `i` does not occur in what follows it. */
  lemma NothingAfterOnlyOccurrence(s: string, sep: string, i: int)
    requires |sep| > 0 && OccursAt(s, sep, i)
    requires forall j :: OccursAt(s, sep, j) ==> j == i
    ensures !Contains(s[i + |sep|..], sep)
  {
    var tail := s[i + |sep|..];
    if Contains(tail, sep) {
      var j :| 0 <= j <= |tail| && OccursAt(tail, sep, j);
      assert s[i + |sep|..|s|] == tail;
      OccursInSlice(s, sep, i + |sep|, |s|, j);
      assert false;
    }
  }

  /** The first entry can match, thanks to the leading `"; "`: when the cookie starts with
      `name=value`, the value ends at the next `;` and the name occurs nowhere later, the
      value is found. */
  lemma FirstCookie(name: string, value: string, rest: string)
    requires ';' !in name && ';' !in value
    requires rest == "" || rest[0] == ';'
    requires !Contains(rest, Marker(name))
    ensures GetCookie(name + "=" + value + rest, name) == Some(value)
  {
    var m := Marker(name);
    var tail := value + rest;
    var s := "; " + (name + "=" + value + rest);
    assert s == m + tail;
    assert Find(s, m) == Some(0) by {
      assert OccursAt(s, m, 0);
    }
    SplitFirst(s, m);
    SplitRest(s, m);
    assert s[|m|..] == tail;
    NoMarkerInTail(value, rest, m);
    assert Split(s, m) == [""] + [tail];
    ValueUpToSemicolon(value, rest);
  }

  /** A marker, which starts with `;`, cannot start inside a `;`-free prefix. */
  lemma NoMarkerInTail(value: string, rest: string, m: string)
    requires ';' !in value && |m| > 0 && m[0] == ';'
    requires !Contains(rest, m)
    ensures !Contains(value + rest, m)
  {
    var t := value + rest;
    if Contains(t, m) {
      var j :| 0 <= j <= |t| && OccursAt(t, m, j);
      assert t[j] == m[0];
      if j >= |value| {
        OccursInSuffix(t, m, |value|, j);
      }
    }
  }

  /** The piece up to the first `;` of a `;`-free value followed by `;` or nothing is the value. */
  lemma ValueUpToSemicolon(value: string, rest: string)
    requires ';' !in value
    requires rest == "" || rest[0] == ';'
    ensures Split(value + rest, ";")[0] == value
  {
    var t := value + rest;
    SplitCharFirst(t, ';');
    assert t[..|value|] == value;
    UpToUnique(t, ';', |value|);
  }

  /** A name that is only the tail of another cookie's name never matches: in the single
      entry `other + name = value`, with a non-empty `other`, no `;` anywhere and no `=` in
      the names, `name` is not found. */
  lemma SuffixNameNoMatch(other: string, name: string, value: string)
    requires other != ""
    requires ';' !in other && ';' !in name && ';' !in value
    requires '=' !in other && '=' !in name
    ensures GetCookie(other + name + "=" + value, name) == None
  {
    var m := Marker(name);
    var s := "; " + (other + name + "=" + value);
    if Contains(s, m) {
      var j :| 0 <= j <= |s| && OccursAt(s, m, j);
    }
  }

  // ---------------------------------------------------------------------------
  // findLoginCookieValue
  // ---------------------------------------------------------------------------

  /** The `set-cookie` header as the helper receives it: a list of lines, or anything else. */
  datatype CookieHeader = NotAnArray | Lines(lines: seq<string>)

  /** The helper either throws, returns `null`, or returns a string. */
  datatype LoginCookie = Thrown | NullCookie | Found(value: string)

  /** A cookie name as a `Set-Cookie` line can carry one: without `;` or `=`. */
  predicate CookieName(name: string) {
    ';' !in name && '=' !in name
  }

  /** The first line that starts with `authCookie=`. */
  function SessionLine(lines: seq<string>, authCookie: string): (r: Option<string>)
    ensures r.Some? ==> r.value in lines && StartsWith(r.value, authCookie + "=")
    ensures r.None? ==> forall i :: 0 <= i < |lines| ==> !StartsWith(lines[i], authCookie + "=")
  {
    if |lines| == 0 then None
    else if StartsWith(lines[0], authCookie + "=") then Some(lines[0])
    else
      var r := SessionLine(lines[1..], authCookie);
      assert forall i :: 1 <= i < |lines| ==> lines[i] == lines[1..][i - 1];
      r
  }

  /** `find` stops at the first match: the line used is the first that starts with
      `authCookie=`, whatever later lines hold. */
  lemma {:induction false} SessionLineFirst(lines: seq<string>, authCookie: string, i: nat)
    requires i < |lines| && StartsWith(lines[i], authCookie + "=")
    requires forall j :: 0 <= j < i ==> !StartsWith(lines[j], authCookie + "=")
    ensures SessionLine(lines, authCookie) == Some(lines[i])
    decreases i
  {
    if i > 0 {
      assert lines[1..][i - 1] == lines[i];
      SessionLineFirst(lines[1..], authCookie, i - 1);
    }
  }

  /** `findLoginCookieValue(cookies)`: a non-array throws; no line for the session cookie
      gives `null`; otherwise the first such line, cut at its first `;`, and then the text
      after its first `=` up to the next `=`. `authCookie` is the session cookie's name. */
  function FindLoginCookieValue(header: CookieHeader, authCookie: string): (r: LoginCookie)
    requires CookieName(authCookie)
    ensures header.NotAnArray? <==> r.Thrown?
    ensures header.Lines? ==>
              (r.NullCookie? <==> forall i :: 0 <= i < |header.lines| ==> !StartsWith(header.lines[i], authCookie + "="))
    ensures r.Found? ==> ';' !in r.value && '=' !in r.value
  {
    if header.NotAnArray? then Thrown
    else match SessionLine(header.lines, authCookie)
      case None => NullCookie
      case Some(line) =>
        var parts := Split(Split(line, ";")[0], "=");
        SessionLineHasValue(line, authCookie);
        var value := parts[1];
        ContainsChar(value, '=');
        assert ';' !in value by { ValueInFirstEntry(line, authCookie); }
        Found(value)
  }

  /** What the helper returns for the first session line `authCookie=rest`: `rest` cut at
      its first `;`, then at its first `=`. */
  lemma FindLoginCookieValueReads(lines: seq<string>, authCookie: string, i: nat, rest: string)
    requires CookieName(authCookie)
    requires i < |lines| && lines[i] == authCookie + "=" + rest
    requires forall j :: 0 <= j < i ==> !StartsWith(lines[j], authCookie + "=")
    ensures FindLoginCookieValue(Lines(lines), authCookie) == Found(UpTo(UpTo(rest, ';'), '='))
  {
    assert (authCookie + "=" + rest)[..|authCookie + "="|] == authCookie + "=";
    SessionLineFirst(lines, authCookie, i);
    FirstPieceKeepsName(authCookie, rest);
    AfterName(authCookie, UpTo(rest, ';'));
    SplitCharFirst(UpTo(rest, ';'), '=');
  }

  /** A session line's part before `;` contains the `=` after the name, so it splits on `=`
      into at least two pieces. */
  lemma SessionLineHasValue(line: string, authCookie: string)
    requires CookieName(authCookie) && StartsWith(line, authCookie + "=")
    ensures |Split(Split(line, ";")[0], "=")| >= 2
  {
    var rest := line[|authCookie| + 1..];
    assert line == authCookie + "=" + rest;
    FirstPieceKeepsName(authCookie, rest);
    var head := Split(line, ";")[0];
    assert OccursAt(head, "=", |authCookie|);
  }

  /** Cutting `name=rest` at its first `;` keeps the name and the `=`. */
  lemma FirstPieceKeepsName(name: string, rest: string)
    requires CookieName(name)
    ensures Split(name + "=" + rest, ";")[0] == name + "=" + UpTo(rest, ';')
  {
    SplitCharFirst(name + "=" + rest, ';');
    UpToAfterPrefix(name + "=", rest, ';');
  }

  /** Cutting after a prefix free of `c` cuts inside the rest. */
  lemma UpToAfterPrefix(p: string, rest: string, c: char)
    requires c !in p
    ensures UpTo(p + rest, c) == p + UpTo(rest, c)
  {
    var s := p + rest;
    var k := |p| + |UpTo(rest, c)|;
    assert s[..k] == p + UpTo(rest, c);
    UpToUnique(s, c, k);
  }

  /** The value found lies before the first `;` of the line, so it holds no `;`. */
  lemma ValueInFirstEntry(line: string, authCookie: string)
    requires CookieName(authCookie) && StartsWith(line, authCookie + "=")
    requires |Split(Split(line, ";")[0], "=")| >= 2
    ensures ';' !in Split(Split(line, ";")[0], "=")[1]
  {
    var head := Split(line, ";")[0];
    ContainsChar(head, ';');
    NoCharInPieces(head, "=", ';');
  }

  /** The pieces of a split hold no character the split string does not hold. */
  lemma NoCharInPieces(s: string, sep: string, c: char)
    requires |sep| > 0 && c !in s
    ensures forall k :: 0 <= k < |Split(s, sep)| ==> c !in Split(s, sep)[k]
  {
    JoinSplit(s, sep);
    forall k | 0 <= k < |Split(s, sep)| ensures c !in Split(s, sep)[k] {
      if c in Split(s, sep)[k] {
        PieceInJoin(Split(s, sep), sep, k, c);
      }
    }
  }

  /** A character of a piece is a character of the join. */
  lemma {:induction false} PieceInJoin(parts: seq<string>, sep: string, k: nat, c: char)
    requires k < |parts| && c in parts[k]
    ensures c in Join(parts, sep)
    decreases k
  {
    if |parts| == 1 {
    } else if k == 0 {
      assert Join(parts, sep) == parts[0] + sep + Join(parts[1..], sep);
    } else {
      PieceInJoin(parts[1..], sep, k - 1, c);
      assert Join(parts, sep) == parts[0] + sep + Join(parts[1..], sep);
    }
  }

  // ---------------------------------------------------------------------------
  // The two extraction orders agree
  // ---------------------------------------------------------------------------

  /** The text before the first `c`, or all of `s` when there is none. */
  function UpTo(s: string, c: char): (r: string)
    ensures |r| <= |s| && r == s[..|r|] && c !in r
    ensures |r| < |s| ==> s[|r|] == c
  {
    if |s| == 0 then ""
    else if s[0] == c then ""
    else
      var r := [s[0]] + UpTo(s[1..], c);
      assert s == [s[0]] + s[1..];
      r
  }

  /** The text before the first `c` is the only prefix without `c` that ends at a `c` or at
      the end. */
  lemma UpToUnique(s: string, c: char, k: nat)
    requires k <= |s| && c !in s[..k] && (k < |s| ==> s[k] == c)
    ensures UpTo(s, c) == s[..k]
  {
  }

  /** Cutting at the first `a` and then at the first `b` is cutting at whichever comes
      first, so the order does not matter. */
  lemma UpToCommutes(s: string, a: char, b: char)
    ensures UpTo(UpTo(s, a), b) == UpTo(UpTo(s, b), a)
  {
    var ka, kb := |UpTo(s, a)|, |UpTo(s, b)|;
    var m := if ka <= kb then ka else kb;
    assert UpTo(s, a)[..m] == s[..m] == UpTo(s, b)[..m];
    UpToUnique(UpTo(s, a), b, m);
    UpToUnique(UpTo(s, b), a, m);
  }

  /** Splitting on a one-character separator: the first piece is the text before it. */
  lemma SplitCharFirst(s: string, c: char)
    ensures Split(s, [c])[0] == UpTo(s, c)
  {
    SplitFirst(s, [c]);
    match Find(s, [c])
    case None =>
      ContainsChar(s, c);
      UpToUnique(s, c, |s|);
    case Some(k) =>
      forall j | 0 <= j < k ensures s[j] != c {
        assert !OccursAt(s, [c], j);
        assert s[j..j + 1] == [s[j]];
      }
      assert s[k..k + 1][0] == s[k];
      UpToUnique(s, c, k);
  }

  /** For a line `name=rest` whose name holds neither `;` nor `=`, the login helper's
      extraction (cut at `;`, then take what follows the first `=`) and the other helper's
      extraction (take what follows the first `=`, then cut at `;`) give the same value. */
  lemma ExtractionOrdersAgree(name: string, rest: string)
    requires CookieName(name)
    ensures var line := name + "=" + rest;
            |Split(line, "=")| >= 2 && |Split(Split(line, ";")[0], "=")| >= 2
            && Split(Split(line, "=")[1], ";")[0] == Split(Split(line, ";")[0], "=")[1]
  {
    var line := name + "=" + rest;
    AfterName(name, rest);
    FirstPieceKeepsName(name, rest);
    AfterName(name, UpTo(rest, ';'));
    SplitCharFirst(UpTo(rest, '='), ';');
    SplitCharFirst(UpTo(rest, ';'), '=');
    SplitCharFirst(rest, '=');
    UpToCommutes(rest, '=', ';');
  }

  /** Splitting `name=rest` on `=`: the second piece is `rest` up to its first `=`. */
  lemma AfterName(name: string, rest: string)
    requires '=' !in name
    ensures |Split(name + "=" + rest, "=")| >= 2
    ensures Split(name + "=" + rest, "=")[1] == Split(rest, "=")[0]
  {
    var s := name + "=" + rest;
    var n := |name|;
    assert OccursAt(s, "=", n);
    forall j | 0 <= j < n ensures !OccursAt(s, "=", j) {
      assert s[j..j + 1][0] == s[j] == name[j];
    }
    assert Find(s, "=") == Some(n);
    SplitRest(s, "=");
    assert s[n + 1..] == rest;
  }
}

=== FILE: date_format.dfy ===
/**
  `timeToDateString` of `src/features/tasks/components/update-task-form-wrapper.tsx`: the
  due date of a task as the `yyyy-mm-dd` text the edit form starts from. For a
  four-digit year that text is a `full-date` of section 5.6 of RFC 3339.

  Turning a timestamp into its UTC calendar fields is the `Date` object's work and is not
  modelled: the function starts from those fields.
 */
module DateFormat {
  import opened Wrappers
  import opened Strings

  /** The UTC calendar fields of a `Date`: `getUTCFullYear()`, the zero-based
      `getUTCMonth()` and `getUTCDate()`. */
  datatype UtcFields = UtcFields(year: int, month0: nat, day: nat)

  /** The ranges the `Date` getters return within. */
  predicate ValidFields(d: UtcFields) {
    d.month0 < 12 && 1 <= d.day <= 31
  }

  /** `String(n).padStart(2, '0')`. */
  function TwoDigits(n: nat): (r: string)
    requires 1 <= n <= 31
    ensures |r| == 2 && AllDigits(r) && ParseNat(r) == n
  {
    NatToStringLength(n);
    var s := NatToString(n);
    ParseNatToString(n);
    var r := PadStart(s, 2, '0');
    assert n < 10 ==> r == "0" + s && r[..1] == "0" && r[..1][..0] == "";
    r
  }

  /** `${year}-${month}-${day}` with the month shifted to one-based and both month and day
      padded to two digits. */
  function TimeToDateString(d: UtcFields): (r: string)
    requires ValidFields(d)
    ensures |r| == |IntToString(d.year)| + 6
  {
    IntToString(d.year) + "-" + TwoDigits(d.month0 + 1) + "-" + TwoDigits(d.day)
  }

  /** A year of four digits gives the ten characters of `yyyy-mm-dd`, with the dashes at
      positions 4 and 7. */
  lemma FourDigitYearLength(d: UtcFields)
    requires ValidFields(d) && 1000 <= d.year <= 9999
    ensures |TimeToDateString(d)| == 10
    ensures TimeToDateString(d)[4] == '-' && TimeToDateString(d)[7] == '-'
  {
    NatToStringLength(d.year);
    DashPositions(NatToString(d.year), TwoDigits(d.month0 + 1), TwoDigits(d.day));
  }

  lemma DashPositions(y: string, m: string, dd: string)
    requires |y| == 4 && |m| == 2 && |dd| == 2
    ensures var text := y + "-" + m + "-" + dd;
            |text| == 10 && text[4] == '-' && text[7] == '-'
  {
  }

  /** Reading `yyyy-mm-dd` back: three dash-separated runs of digits, the middle one a
      month from 1 to 12 and the last a day from 1 to 31. */
  function ParseDateString(s: string): (r: Option<UtcFields>)
    ensures r.Some? ==> ValidFields(r.value) && r.value.year >= 0
  {
    DateOfParts(Split(s, "-"))
  }

  function DateOfParts(parts: seq<string>): (r: Option<UtcFields>)
    ensures r.Some? ==> ValidFields(r.value) && r.value.year >= 0
  {
    if |parts| != 3 || !AllDigits(parts[0]) || !AllDigits(parts[1]) || !AllDigits(parts[2]) then None
    else
      var month := ParseNat(parts[1]);
      var day := ParseNat(parts[2]);
      if 1 <= month <= 12 && 1 <= day <= 31 then Some(UtcFields(ParseNat(parts[0]), month - 1, day))
      else None
  }

  /** For a year that is not negative, the formatted date reads back as the fields it came
      from: the month is one more than the zero-based month, and nothing is lost to the
      padding. */
  lemma DateStringRoundTrip(d: UtcFields)
    requires ValidFields(d) && d.year >= 0
    ensures ParseDateString(TimeToDateString(d)) == Some(d)
  {
    var y, m, dd := NatToString(d.year), TwoDigits(d.month0 + 1), TwoDigits(d.day);
    var text := TimeToDateString(d);
    assert text == y + "-" + m + "-" + dd;
    SplitDigitRuns(y, m, dd);
    DateOfDigits(d.year, d.month0 + 1, d.day);
    ReadRuns(text, [y, m, dd]);
  }

  lemma ReadRuns(text: string, parts: seq<string>)
    requires Split(text, "-") == parts
    ensures ParseDateString(text) == DateOfParts(parts)
  {
  }

  /** The three fields, written out, read back as themselves. */
  lemma DateOfDigits(year: nat, month: nat, day: nat)
    requires 1 <= month <= 12 && 1 <= day <= 31
    ensures DateOfParts([NatToString(year), TwoDigits(month), TwoDigits(day)]) == Some(UtcFields(year, month - 1, day))
  {
    ParseNatToString(year);
  }

  /** Three runs of digits joined by dashes split back into the three runs. */
  lemma SplitDigitRuns(y: string, m: string, dd: string)
    requires AllDigits(y) && AllDigits(m) && AllDigits(dd)
    ensures Split(y + "-" + m + "-" + dd, "-") == [y, m, dd]
  {
    JoinThree(y, m, dd, "-");
    NoDashInDigits(y);
    NoDashInDigits(m);
    NoDashInDigits(dd);
    SplitJoinChar([y, m, dd], '-');
  }

  lemma NoDashInDigits(s: string)
    requires AllDigits(s)
    ensures '-' !in s
  {
  }
}

=== FILE: float_widget.dfy ===
/**
  The floating chat widget of the workspace pages, `public/chatroom/float.js`: the chat
  button and the close button both toggle the widget's container, and every toggle points
  the widget's iframe at the chat room page for the workspace named in the page's URL.

  The page's URL and origin are parameters; the container's `display` style and the
  iframe's `src` are the widget state the toggle returns.
 */
module FloatWidget {
  import opened Wrappers
  import opened Strings
  import opened Uri
  import opened Seqs
  import Cookies
  import Hub
  import HubRequest
  import ChatClient

  // ---------------------------------------------------------------------------
  // The display toggle
  // ---------------------------------------------------------------------------

  const Shown := "block"
  const Hidden := "none"

  /** `block` becomes `none`; anything else, including the unset style of a fresh page,
      becomes `block`. */
  function Toggle(display: string): (r: string)
    ensures r == Shown || r == Hidden
    ensures r == Hidden <==> display == Shown
  {
    if display == Shown then Hidden else Shown
  }

  /** After the first click the container alternates between shown and hidden. */
  lemma ToggleAlternates(display: string)
    ensures Toggle(Toggle(display)) != Toggle(display)
    ensures Toggle(Toggle(Toggle(display))) == Toggle(display)
  {
    assert Shown != Hidden by { assert Shown[0] != Hidden[0]; }
  }

  // ---------------------------------------------------------------------------
  // The workspace id: `/\/workspaces\/([^/?]+)/`
  // ---------------------------------------------------------------------------

  const Marker := "/workspaces/"

  /** `[^/?]+` taken greedily: the longest prefix of `s` without `/` or `?`. */
  function Segment(s: string): (r: string)
    ensures |r| <= |s| && r == s[..|r|]
    ensures '/' !in r && '?' !in r
    ensures |r| < |s| ==> s[|r|] == '/' || s[|r|] == '?'
  {
    if s == [] || s[0] == '/' || s[0] == '?' then []
    else
      var tail := Segment(s[1..]);
      assert s[1..][..|tail|] == s[1..|tail| + 1];
      [s[0]] + tail
  }

  /** The pattern matches at index `i`: the marker, then at least one character of the
      segment class. */
  predicate MatchAt(url: string, i: int) {
    && OccursAt(url, Marker, i)
    && i + |Marker| < |url|
    && url[i + |Marker|] != '/' && url[i + |Marker|] != '?'
  }

  /** The leftmost index at or after `from` where the pattern matches. */
  function MatchFrom(url: string, from: nat): (r: Option<nat>)
    requires from <= |url|
    ensures r.Some? ==> from <= r.value && MatchAt(url, r.value)
    ensures r.Some? ==> forall j :: from <= j < r.value ==> !MatchAt(url, j)
    ensures r.None? ==> forall j :: from <= j ==> !MatchAt(url, j)
    decreases |url| - from
  {
    if MatchAt(url, from) then Some(from)
    else if from == |url| then None
    else MatchFrom(url, from + 1)
  }

  /** The first capture group of the leftmost match, or `null` when the URL has none. */
  function WorkspaceId(url: string): (r: Option<string>)
    ensures r.None? <==> forall i :: 0 <= i ==> !MatchAt(url, i)
    ensures r.Some? ==> r.value != "" && '/' !in r.value && '?' !in r.value
  {
    match MatchFrom(url, 0)
    case None => None
    case Some(i) => Some(Segment(url[i + |Marker|..]))
  }

  /** The id is read at the leftmost match, and is all of the segment that follows the
      marker there. */
  lemma WorkspaceIdLeftmost(url: string, i: nat)
    requires MatchAt(url, i)
    requires forall j :: 0 <= j < i ==> !MatchAt(url, j)
    ensures WorkspaceId(url) == Some(Segment(url[i + |Marker|..]))
  {
    var k := MatchFrom(url, 0);
    assert k == Some(i);
  }

  /** A segment ends where a `/` or a `?` begins. */
  lemma {:induction false} SegmentOf(id: string, rest: string)
    requires '/' !in id && '?' !in id
    requires rest == "" || rest[0] == '/' || rest[0] == '?'
    ensures Segment(id + rest) == id
    decreases |id|
  {
    if id != [] {
      assert (id + rest)[1..] == id[1..] + rest;
      SegmentOf(id[1..], rest);
    }
  }

  /** On a workspace page `origin/workspaces/<id>` followed by nothing, a further path or a
      query, the widget reads exactly `<id>`, provided the origin itself holds no
      `/workspaces`. */
  lemma WorkspacePageId(origin: string, id: string, rest: string)
    requires !Contains(origin, "/workspaces")
    requires id != "" && '/' !in id && '?' !in id
    requires rest == "" || rest[0] == '/' || rest[0] == '?'
    ensures WorkspaceId(origin + Marker + id + rest) == Some(id)
  {
    var tail := id + rest;
    var url := origin + Marker + tail;
    ConcatAssoc(origin + Marker, id, rest);
    MarkerAt(origin, tail);
    forall j | 0 <= j < |origin| ensures !MatchAt(url, j) {
      NoMatchInOrigin(origin, tail, j);
    }
    WorkspaceIdLeftmost(url, |origin|);
    SegmentOf(id, rest);
  }

  /** The pattern matches where the marker is written, when a segment character follows. */
  lemma MarkerAt(origin: string, tail: string)
    requires tail != "" && tail[0] != '/' && tail[0] != '?'
    ensures MatchAt(origin + Marker + tail, |origin|)
    ensures (origin + Marker + tail)[|origin| + |Marker|..] == tail
  {
    var url := origin + Marker + tail;
    assert url[|origin|..|origin| + |Marker|] == Marker;
    assert url[|origin| + |Marker|] == tail[0];
  }

  /** No match starts inside an origin without `/workspaces`, whatever follows the marker. */
  lemma NoMatchInOrigin(origin: string, tail: string, j: nat)
    requires !Contains(origin, "/workspaces")
    requires j < |origin|
    ensures !MatchAt(origin + Marker + tail, j)
  {
    var url := origin + Marker + tail;
    var i := |origin|;
    if j + 11 <= i {
      assert !OccursAt(origin, "/workspaces", j);
      assert url[j..j + 11] == origin[j..j + 11];
      assert Marker[..11] == "/workspaces";
    } else {
      assert url[i] == '/';
      assert forall k :: 1 <= k <= 10 ==> Marker[k] != '/';
      if j + |Marker| <= |url| {
        assert url[j..j + |Marker|][i - j] == '/';
      }
    }
  }

  // ---------------------------------------------------------------------------
  // The iframe URL
  // ---------------------------------------------------------------------------

  const RoomPath := "/chatroom/room.html"

  /** The workspace id as the template literal writes it: `null` when there is none. */
  function IdText(id: Option<string>): string {
    if id.Some? then id.value else "null"
  }

  /** `${origin}/chatroom/room.html?id=${workspaceId}`, the id written as it is. */
  function IframeUrl(origin: string, id: Option<string>): string {
    origin + RoomPath + "?id=" + IdText(id)
  }

  /** The chat room page in the iframe reads back the workspace id from its own query
      (or the text `null`), provided the id needs no encoding. */
  lemma IframeRoomId(origin: string, id: Option<string>)
    requires '?' !in origin && '#' !in origin
    requires id.Some? ==> PlainName(id.value)
    ensures Get(SearchParams(Search(IframeUrl(origin, id))), "id") == Some(IdText(id))
  {
    var text := IdText(id);
    var base := origin + RoomPath;
    var ps := [("id", text)];
    RoomPathPlain(text);
    assert PlainNames(ps);
    PlainPiece(ps[0]);
    assert IframeUrl(origin, id) == WithQuery(base, ps) by {
      assert Pieces(ps) == [Piece(ps[0])];
      assert Join([Piece(ps[0])], "&") == Piece(ps[0]);
      ConcatAssoc(base, "?", "id" + "=" + text);
    }
    UrlQueryRoundTrip(base, ps);
    GetFirst(ps, "id", 0);
  }

  lemma RoomPathPlain(text: string)
    requires text == "null" || PlainName(text)
    ensures '?' !in RoomPath && '#' !in RoomPath && PlainName("id") && PlainName(text)
    ensures "?id=" + text == "?" + ("id" + "=" + text)
  {
  }

  // ---------------------------------------------------------------------------
  // toggleChatVisibility
  // ---------------------------------------------------------------------------

  /** The container's `display` style and the iframe's `src`. */
  datatype Widget = Widget(display: string, src: string)

  /** One click: the display toggles, the iframe is pointed at the room of the page's
      workspace, and the second component says whether `src` was assigned (it is assigned
      only when it differs, so an unchanged room is not reloaded). */
  function ToggleChatVisibility(w: Widget, origin: string, url: string): (r: (Widget, bool))
    ensures r.0.display == Toggle(w.display)
    ensures r.0.src == IframeUrl(origin, WorkspaceId(url))
    ensures r.1 <==> w.src != r.0.src
    ensures !r.1 ==> r.0 == w.(display := Toggle(w.display))
  {
    var desired := IframeUrl(origin, WorkspaceId(url));
    var display := Toggle(w.display);
    if w.src != desired then (Widget(display, desired), true)
    else (Widget(display, w.src), false)
  }

  /** A second click on the same page hides what the first showed (and the other way
      round) and does not reload the iframe. */
  lemma SecondClickKeepsRoom(w: Widget, origin: string, url: string)
    ensures var first := ToggleChatVisibility(w, origin, url).0;
            var second := ToggleChatVisibility(first, origin, url);
            && !second.1
            && second.0.src == first.src
            && (second.0.display == Shown <==> first.display == Hidden)
  {
    ToggleAlternates(w.display);
  }

  /** The widget on a page whose workspace id needs no encoding opens a chat connection,
      when the user is logged in, to exactly that workspace's room; on a page without a
      workspace it opens the room named `null`. */
  lemma WidgetOpensWorkspaceRoom(origin: string, url: string, cookie: string)
    requires '?' !in origin && '#' !in origin
    requires WorkspaceId(url).Some? ==> PlainName(WorkspaceId(url).value)
    ensures var key := Cookies.GetCookie(cookie, Cookies.SessionCookie);
            var r := ChatClient.ConnectToServer(Search(IframeUrl(origin, WorkspaceId(url))), cookie);
            && (r.Open? <==> Hub.Truthy(key))
            && (r.Open? ==> HubRequest.ParamsOf(r.url).chatroom == Some(IdText(WorkspaceId(url))))
  {
    var id := WorkspaceId(url);
    IframeRoomId(origin, id);
    ConnectOpensRoom(Search(IframeUrl(origin, id)), cookie, IdText(id));
  }

  lemma ConnectOpensRoom(search: string, cookie: string, room: string)
    requires room != ""
    requires Get(SearchParams(search), "id") == Some(room)
    ensures var key := Cookies.GetCookie(cookie, Cookies.SessionCookie);
            var r := ChatClient.ConnectToServer(search, cookie);
            && (r.Open? <==> Hub.Truthy(key))
            && (r.Open? ==> HubRequest.ParamsOf(r.url).chatroom == Some(room))
  {
  }
}

=== FILE: hub.dfy ===
/**
  The real-time hub of `WebSocketServerSingleton`: connection-parameter validation, the
  three channels (notification, chatroom, backend relay), the room table and the
  notification table, and the envelopes sent to peers.

  Each handler body runs as one atomic step: `Step` maps a hub state and one event to the
  next state and the socket actions (`send` and `close` calls) the handler performs.
  Session authentication, workspace membership and `JSON.parse` of relay frames are
  oracle results carried by the events; the peer's readiness is tracked per connection.
 */
module Hub {
  import opened Wrappers
  import opened Seqs

  /** An abstract connection identity (one `ws` socket object). */
  type ConnId = nat

  /** What the identity service returns for a session: the user's `$id` and `name`. */
  datatype User = User(id: string, name: string)

  /** Outbound envelopes. `Chat` is the envelope whose `type` is `'message'`. */
  datatype Envelope =
    | Welcome(message: string)
    | System(message: string)
    | Chat(username: string, message: string)

  /** A socket call made by a handler: `ws.send(JSON.stringify(envelope))` or `ws.close(code, reason)`. */
  datatype Action =
    | Send(to: ConnId, envelope: Envelope)
    | CloseWith(to: ConnId, code: int, reason: string)

  /** The socket's `readyState` as far as the hub can observe it. */
  datatype ReadyState = Open | Closing | Closed

  datatype ChannelKind = NotificationChannel | ChatroomChannel

  /** Which continuation or handlers a connection has: what the next event about it will run. */
  datatype Phase =
    | Authenticating(kind: ChannelKind, room: string)  // awaiting the session lookup
    | CheckingMembership(user: User, room: string)     // awaiting the workspace membership lookup
    | Subscribed(user: User)                           // registered for notifications; no handlers
    | InRoom(user: User, room: string)                 // chatroom message and close handlers installed
    | Relaying                                         // backend relay message handler installed
    | Inert                                            // nothing left to run for this connection

  /** The hub: `chatRooms` (room name to its member set), `notificationClients`, and per-connection bookkeeping. */
  datatype State = State(
    rooms: map<string, seq<ConnId>>,
    notifications: map<string, ConnId>,
    phases: map<ConnId, Phase>,
    ready: map<ConnId, ReadyState>)

  /** The query parameters of the upgrade request; `None` is a parameter that is absent. */
  datatype ConnectParams = ConnectParams(channel: Option<string>, session: Option<string>, chatroom: Option<string>)

  /** A relay frame after `JSON.parse`: the target user and the envelope to forward, or a parse failure. */
  datatype Frame = Frame(userId: string, message: Envelope) | Malformed

  datatype Event =
    | Connect(conn: ConnId, params: ConnectParams)
    | AuthResult(conn: ConnId, user: Option<User>)        // `None`: `authenticate` rejected
    | MembershipResult(conn: ConnId, member: bool)
    | Inbound(conn: ConnId, data: string, frame: Frame)   // `frame`: what `JSON.parse(data)` yields
    | PeerClosing(conn: ConnId)                           // the socket leaves OPEN without the hub closing it
    | Disconnected(conn: ConnId)                          // the socket's `close` event

  datatype Outcome = Outcome(state: State, actions: seq<Action>)

  /** Close codes from the private-use range 4000-4999 of section 7.4.2 of RFC 6455. */
  const MissingParamsCode := 4001
  const PolicyCode := 4003
  const MissingParamsReason := "session key, chatroom, and channel are required."
  const InvalidSessionReason := "Invalid session key."
  const ForbiddenReason := "Forbidden."

  const Empty := State(map[], map[], map[], map[])

  function WelcomeText(room: string, name: string): string {
    "Welcome to chatroom " + room + ", " + name + "!"
  }

  function JoinedText(name: string): string {
    name + " has joined the chatroom."
  }

  function LeftText(name: string): string {
    name + " has left the chatroom."
  }

  // ---------------------------------------------------------------------------
  // Connect-parameter validation
  // ---------------------------------------------------------------------------

  /** JavaScript truthiness of a query parameter: present and non-empty. */
  predicate Truthy(p: Option<string>) {
    p.Some? && p.value != ""
  }

  /** The connection may proceed: a non-empty session and a recognised channel, with a
      non-empty room name when the channel is `chatroom`. */
  predicate ParamsValid(p: ConnectParams) {
    && Truthy(p.session)
    && (|| p.channel == Some("notification")
        || p.channel == Some("backend")
        || (p.channel == Some("chatroom") && Truthy(p.chatroom)))
  }

  // ---------------------------------------------------------------------------
  // Readiness and fan-out
  // ---------------------------------------------------------------------------

  predicate IsOpen(ready: map<ConnId, ReadyState>, c: ConnId) {
    c in ready && ready[c] == Open
  }

  /** `ws.close(...)`: an OPEN socket starts closing; otherwise nothing changes. */
  function BeginClose(ready: map<ConnId, ReadyState>, c: ConnId): map<ConnId, ReadyState> {
    if IsOpen(ready, c) then ready[c := Closing] else ready
  }

  /** `broadcastToChatRoom`: one `send` per member whose socket is OPEN, in member order. */
  function Broadcast(members: seq<ConnId>, ready: map<ConnId, ReadyState>, e: Envelope): (out: seq<Action>)
    ensures forall i :: 0 <= i < |out| ==> out[i].Send? && out[i].envelope == e
    ensures forall i :: 0 <= i < |out| ==> out[i].to in members && IsOpen(ready, out[i].to)
  {
    if |members| == 0 then []
    else
      var rest := Broadcast(members[1..], ready, e);
      (if IsOpen(ready, members[0]) then [Send(members[0], e)] else []) + rest
  }

  /** Each OPEN member of a duplicate-free member list receives exactly one copy of the
      envelope; every other connection receives none. */
  lemma {:induction false} BroadcastExactlyOnce(members: seq<ConnId>, ready: map<ConnId, ReadyState>, e: Envelope, m: ConnId)
    requires NoDup(members)
    ensures multiset(Broadcast(members, ready, e))[Send(m, e)] == if m in members && IsOpen(ready, m) then 1 else 0
    decreases |members|
  {
    if |members| > 0 {
      assert NoDup(members[1..]);
      BroadcastExactlyOnce(members[1..], ready, e, m);
      assert members == [members[0]] + members[1..];
      assert members[0] !in members[1..];
    }
  }

  /** The room's member list, or nothing when the room is absent (`broadcastToChatRoom(undefined)`). */
  function Members(rooms: map<string, seq<ConnId>>, room: string): seq<ConnId> {
    if room in rooms then rooms[room] else []
  }

  /** `sendNotificationToUser`: one `send` to the user's registered socket when it is OPEN. */
  function Notify(st: State, userId: string, e: Envelope): (out: seq<Action>)
    ensures |out| <= 1
    ensures |out| == 1 <==> userId in st.notifications && IsOpen(st.ready, st.notifications[userId])
    ensures |out| == 1 ==> out[0] == Send(st.notifications[userId], e)
  {
    if userId in st.notifications && IsOpen(st.ready, st.notifications[userId]) then
      [Send(st.notifications[userId], e)]
    else []
  }

  // ---------------------------------------------------------------------------
  // Handlers
  // ---------------------------------------------------------------------------

  /** The `connection` handler up to its first `await`. */
  function OnConnect(st: State, c: ConnId, p: ConnectParams, backendKey: Option<string>): Outcome
    requires c !in st.phases
  {
    var ready := st.ready[c := Open];
    if !ParamsValid(p) then
      Outcome(st.(phases := st.phases[c := Inert], ready := BeginClose(ready, c)),
              [CloseWith(c, MissingParamsCode, MissingParamsReason)])
    else if p.channel == Some("backend") then
      var accepted := backendKey.Some? && p.session == Some(backendKey.value);
      Outcome(st.(phases := st.phases[c := if accepted then Relaying else Inert], ready := ready), [])
    else
      var kind := if p.channel == Some("notification") then NotificationChannel else ChatroomChannel;
      var room := if kind == ChatroomChannel then p.chatroom.value else "";
      Outcome(st.(phases := st.phases[c := Authenticating(kind, room)], ready := ready), [])
  }

  /** The continuation after `await this.authenticate(session)`. */
  function OnAuthResult(st: State, c: ConnId, user: Option<User>): Outcome {
    if c !in st.phases || !st.phases[c].Authenticating? then Outcome(st, [])
    else
      var ph := st.phases[c];
      match user
      case None =>
        Outcome(st.(phases := st.phases[c := Inert], ready := BeginClose(st.ready, c)),
                [CloseWith(c, PolicyCode, InvalidSessionReason)])
      case Some(u) =>
        if ph.kind == NotificationChannel then
          Outcome(st.(notifications := st.notifications[u.id := c], phases := st.phases[c := Subscribed(u)]), [])
        else
          Outcome(st.(phases := st.phases[c := CheckingMembership(u, ph.room)]), [])
  }

  /** The continuation after `await this.hasAccessToWorkspace(room, user.$id)`: refuse, or
      join the room, welcome the joiner and announce the join to the room. */
  function OnMembershipResult(st: State, c: ConnId, member: bool): Outcome
    requires forall r :: r in st.rooms ==> NoDup(st.rooms[r])
  {
    if c !in st.phases || !st.phases[c].CheckingMembership? then Outcome(st, [])
    else
      var u := st.phases[c].user;
      var room := st.phases[c].room;
      if !member then
        Outcome(st.(phases := st.phases[c := Inert], ready := BeginClose(st.ready, c)),
                [CloseWith(c, PolicyCode, ForbiddenReason)])
      else
        var members := Add(Members(st.rooms, room), c);
        Outcome(st.(rooms := st.rooms[room := members], phases := st.phases[c := InRoom(u, room)]),
                [Send(c, Welcome(WelcomeText(room, u.name)))] + Broadcast(members, st.ready, System(JoinedText(u.name))))
  }

  /** The `message` handlers: chat text is echoed to the whole room; relay frames are forwarded. */
  function OnInbound(st: State, c: ConnId, data: string, frame: Frame): Outcome {
    if c !in st.phases then Outcome(st, [])
    else match st.phases[c]
      case InRoom(u, room) =>
        Outcome(st, Broadcast(Members(st.rooms, room), st.ready, Chat(u.name, data)))
      case Relaying =>
        (match frame
         case Malformed => Outcome(st, [])
         case Frame(userId, message) => Outcome(st, Notify(st, userId, message)))
      case _ => Outcome(st, [])
  }

  /** The `close` handler, which only chatroom connections have: leave the room, tell the
      remaining members, and delete the room once it is empty. `close` fires once. */
  function OnDisconnected(st: State, c: ConnId): Outcome
    requires forall r :: r in st.rooms ==> NoDup(st.rooms[r])
  {
    if c !in st.ready || st.ready[c] == Closed then Outcome(st, [])
    else
      var ready := st.ready[c := Closed];
      if c in st.phases && st.phases[c].InRoom? then
        var u := st.phases[c].user;
        var room := st.phases[c].room;
        var remaining := Remove(Members(st.rooms, room), c);
        var rooms := if |remaining| == 0 then st.rooms - {room} else st.rooms[room := remaining];
        Outcome(st.(rooms := rooms, phases := st.phases[c := Inert], ready := ready),
                Broadcast(remaining, ready, System(LeftText(u.name))))
      else
        Outcome(st.(ready := ready), [])
  }

  /** The peer (or the network) moves an OPEN socket to CLOSING; no handler runs. */
  function OnPeerClosing(st: State, c: ConnId): Outcome {
    Outcome(st.(ready := BeginClose(st.ready, c)), [])
  }

  /** A connect event always names a fresh socket. */
  predicate Fresh(st: State, e: Event) {
    e.Connect? ==> e.conn !in st.phases
  }

  /** One atomic step of the hub. `backendKey` is the `BACKENDKEY` environment value. */
  function Step(st: State, e: Event, backendKey: Option<string>): Outcome
    requires Fresh(st, e)
    requires forall r :: r in st.rooms ==> NoDup(st.rooms[r])
  {
    match e
    case Connect(c, p) => OnConnect(st, c, p, backendKey)
    case AuthResult(c, u) => OnAuthResult(st, c, u)
    case MembershipResult(c, m) => OnMembershipResult(st, c, m)
    case Inbound(c, data, frame) => OnInbound(st, c, data, frame)
    case PeerClosing(c) => OnPeerClosing(st, c)
    case Disconnected(c) => OnDisconnected(st, c)
  }

  // ---------------------------------------------------------------------------
  // Invariant
  // ---------------------------------------------------------------------------

  /** Every room in the table is non-empty and duplicate-free, and holds exactly the
      connections whose phase says they are in that room. */
  ghost predicate RoomsConsistent(st: State) {
    && (forall r :: r in st.rooms ==> |st.rooms[r]| > 0 && NoDup(st.rooms[r]))
    && (forall r, m :: r in st.rooms && m in st.rooms[r] ==>
          m in st.phases && st.phases[m].InRoom? && st.phases[m].room == r)
    && (forall c :: c in st.phases && st.phases[c].InRoom? ==>
          st.phases[c].room in st.rooms && c in st.rooms[st.phases[c].room])
  }

  /** Every notification entry names a connection subscribed for that very user. */
  ghost predicate NotificationsConsistent(st: State) {
    forall uid :: uid in st.notifications ==>
      && st.notifications[uid] in st.phases
      && st.phases[st.notifications[uid]].Subscribed?
      && st.phases[st.notifications[uid]].user.id == uid
  }

  ghost predicate Inv(st: State) {
    && st.phases.Keys == st.ready.Keys
    && RoomsConsistent(st)
    && NotificationsConsistent(st)
  }

  lemma EmptyInv()
    ensures Inv(Empty)
  {
  }
}

=== FILE: hub_proofs.dfy ===
/**
  Properties of the hub: every step keeps the room table and the notification table
  consistent, and each handler sends exactly what the source promises to exactly whom.
 */
module HubProofs {
  import opened Wrappers
  import opened Seqs
  import opened Hub

  // ---------------------------------------------------------------------------
  // The invariant is kept by every step
  // ---------------------------------------------------------------------------

  lemma ConnectKeepsInv(st: State, c: ConnId, p: ConnectParams, key: Option<string>)
    requires Inv(st) && c !in st.phases
    ensures Inv(OnConnect(st, c, p, key).state)
  {
    var st' := OnConnect(st, c, p, key).state;
    OutsideOf(st, c);
    OtherPhaseKeepsInv(st, st', c);
  }

  /** A connection without a phase is in no room and is no notification target. */
  lemma OutsideOf(st: State, c: ConnId)
    requires Inv(st) && c !in st.phases
    ensures forall r, m :: r in st.rooms && m in st.rooms[r] ==> m != c
    ensures forall uid :: uid in st.notifications ==> st.notifications[uid] != c
  {
  }

  /** Giving one connection that is in no room and no notification entry a phase other than
      `InRoom` and `Subscribed`, and any ready-state, keeps the invariant. */
  lemma OtherPhaseKeepsInv(st: State, st': State, c: ConnId)
    requires Inv(st)
    requires forall r, m :: r in st.rooms && m in st.rooms[r] ==> m != c
    requires forall uid :: uid in st.notifications ==> st.notifications[uid] != c
    requires st'.rooms == st.rooms && st'.notifications == st.notifications
    requires c in st'.phases && !st'.phases[c].InRoom? && !st'.phases[c].Subscribed?
    requires st'.phases == st.phases[c := st'.phases[c]]
    requires st'.ready.Keys == st.ready.Keys + {c}
    ensures Inv(st')
  {
    forall r, m | r in st'.rooms && m in st'.rooms[r]
      ensures m in st'.phases && st'.phases[m].InRoom? && st'.phases[m].room == r
    {
      assert m != c;
    }
  }

  lemma AuthResultKeepsInv(st: State, c: ConnId, u: Option<User>)
    requires Inv(st)
    ensures Inv(OnAuthResult(st, c, u).state)
  {
    if c in st.phases && st.phases[c].Authenticating? {
      var st' := OnAuthResult(st, c, u).state;
      assert forall r, m :: r in st.rooms && m in st.rooms[r] ==> m != c;
      assert forall uid :: uid in st.notifications ==> st.notifications[uid] != c;
      assert st'.rooms == st.rooms;
    }
  }

  lemma MembershipResultKeepsInv(st: State, c: ConnId, member: bool)
    requires Inv(st)
    ensures Inv(OnMembershipResult(st, c, member).state)
  {
    if c in st.phases && st.phases[c].CheckingMembership? {
      var st' := OnMembershipResult(st, c, member).state;
      assert forall r, m :: r in st.rooms && m in st.rooms[r] ==> m != c;
      assert forall uid :: uid in st.notifications ==> st.notifications[uid] != c;
      if member {
        JoinKeepsInv(st, c);
      } else {
        OtherPhaseKeepsInv(st, st', c);
      }
    }
  }

  /** Joining adds the connection to its room and puts it in the `InRoom` phase together. */
  lemma JoinKeepsInv(st: State, c: ConnId)
    requires Inv(st)
    requires c in st.phases && st.phases[c].CheckingMembership?
    requires forall r, m :: r in st.rooms && m in st.rooms[r] ==> m != c
    requires forall uid :: uid in st.notifications ==> st.notifications[uid] != c
    ensures Inv(OnMembershipResult(st, c, true).state)
  {
    var st' := OnMembershipResult(st, c, true).state;
    var room := st.phases[c].room;
    var members := Add(Members(st.rooms, room), c);
    assert st'.rooms == st.rooms[room := members];
    forall r, m | r in st'.rooms && m in st'.rooms[r]
      ensures m in st'.phases && st'.phases[m].InRoom? && st'.phases[m].room == r
    {
      if m != c {
        assert r in st.rooms && m in st.rooms[r];
      }
    }
    forall d | d in st'.phases && st'.phases[d].InRoom?
      ensures st'.phases[d].room in st'.rooms && d in st'.rooms[st'.phases[d].room]
    {
      if d != c {
        assert st.phases[d].InRoom?;
      }
    }
  }

  lemma InboundKeepsInv(st: State, c: ConnId, data: string, frame: Frame)
    requires Inv(st)
    ensures Inv(OnInbound(st, c, data, frame).state)
  {
  }

  lemma PeerClosingKeepsInv(st: State, c: ConnId)
    requires Inv(st)
    ensures Inv(OnPeerClosing(st, c).state)
  {
  }

  lemma DisconnectedKeepsInv(st: State, c: ConnId)
    requires Inv(st)
    ensures Inv(OnDisconnected(st, c).state)
  {
    if c in st.ready && st.ready[c] != Closed && c in st.phases && st.phases[c].InRoom? {
      var st' := OnDisconnected(st, c).state;
      var room := st.phases[c].room;
      var remaining := Remove(Members(st.rooms, room), c);
      assert forall uid :: uid in st.notifications ==> st.notifications[uid] != c;
      forall r, m | r in st'.rooms && m in st'.rooms[r]
        ensures m in st'.phases && st'.phases[m].InRoom? && st'.phases[m].room == r
      {
        assert m != c;
        assert r in st.rooms && m in st.rooms[r];
      }
      forall d | d in st'.phases && st'.phases[d].InRoom?
        ensures st'.phases[d].room in st'.rooms && d in st'.rooms[st'.phases[d].room]
      {
        assert d != c && st.phases[d].InRoom?;
        var r := st.phases[d].room;
        if r == room {
          assert d in remaining;
        }
      }
    }
  }

  /** Every step keeps the invariant: rooms are never empty, room members and notification
      targets are exactly the connections in the matching phase. */
  lemma StepKeepsInv(st: State, e: Event, key: Option<string>)
    requires Inv(st) && Fresh(st, e)
    ensures Inv(Step(st, e, key).state)
  {
    match e
    case Connect(c, p) => ConnectKeepsInv(st, c, p, key);
    case AuthResult(c, u) => AuthResultKeepsInv(st, c, u);
    case MembershipResult(c, m) => MembershipResultKeepsInv(st, c, m);
    case Inbound(c, data, frame) => InboundKeepsInv(st, c, data, frame);
    case PeerClosing(c) => PeerClosingKeepsInv(st, c);
    case Disconnected(c) => DisconnectedKeepsInv(st, c);
  }

  // ---------------------------------------------------------------------------
  // Connect validation
  // ---------------------------------------------------------------------------

  /** A connection is closed with 4001 exactly when its parameters are invalid; no other
      action happens at connect time, and neither registry changes. */
  lemma ConnectValidation(st: State, c: ConnId, p: ConnectParams, key: Option<string>)
    requires c !in st.phases
    ensures var o := OnConnect(st, c, p, key);
      && o.state.rooms == st.rooms
      && o.state.notifications == st.notifications
      && (!ParamsValid(p) <==> o.actions == [CloseWith(c, MissingParamsCode, MissingParamsReason)])
      && (ParamsValid(p) <==> o.actions == [])
  {
  }

  /** A valid chatroom or notification connection waits for authentication; a backend
      connection with the right key becomes a relay, and with any other key it is left
      without handlers but is not closed. */
  lemma ConnectRoutes(st: State, c: ConnId, p: ConnectParams, key: Option<string>)
    requires c !in st.phases && ParamsValid(p)
    ensures var o := OnConnect(st, c, p, key);
      && IsOpen(o.state.ready, c)
      && (p.channel == Some("notification") ==> o.state.phases[c] == Authenticating(NotificationChannel, ""))
      && (p.channel == Some("chatroom") ==> o.state.phases[c] == Authenticating(ChatroomChannel, p.chatroom.value))
      && (p.channel == Some("backend") && key.Some? && p.session == Some(key.value) ==> o.state.phases[c] == Relaying)
      && (p.channel == Some("backend") && (key.None? || p.session != Some(key.value)) ==> o.state.phases[c] == Inert)
  {
  }

  // ---------------------------------------------------------------------------
  // Authentication and authorization failures
  // ---------------------------------------------------------------------------

  /** A rejected session closes the connection with 4003 and leaves both registries alone. */
  lemma AuthFailureCloses(st: State, c: ConnId)
    requires c in st.phases && st.phases[c].Authenticating?
    ensures var o := OnAuthResult(st, c, None);
      && o.actions == [CloseWith(c, PolicyCode, InvalidSessionReason)]
      && o.state.rooms == st.rooms
      && o.state.notifications == st.notifications
      && o.state.phases[c] == Inert
  {
  }

  /** A non-member's join is refused with 4003 "Forbidden." and the room table is unchanged. */
  lemma ForbiddenJoinCloses(st: State, c: ConnId)
    requires forall r :: r in st.rooms ==> NoDup(st.rooms[r])
    requires c in st.phases && st.phases[c].CheckingMembership?
    ensures var o := OnMembershipResult(st, c, false);
      && o.actions == [CloseWith(c, PolicyCode, ForbiddenReason)]
      && o.state.rooms == st.rooms
      && o.state.notifications == st.notifications
  {
  }

  /** The two refusals cannot be told apart by their close code. */
  lemma AuthAndForbiddenShareCode(st: State, a: ConnId, f: ConnId)
    requires forall r :: r in st.rooms ==> NoDup(st.rooms[r])
    requires a in st.phases && st.phases[a].Authenticating?
    requires f in st.phases && st.phases[f].CheckingMembership?
    ensures OnAuthResult(st, a, None).actions[0].code == OnMembershipResult(st, f, false).actions[0].code
  {
  }

  // ---------------------------------------------------------------------------
  // Notification registry
  // ---------------------------------------------------------------------------

  /** Registration is last-writer-wins: the user's entry now names the new connection,
      nothing is sent or closed (an older socket is orphaned), and other users' entries stay. */
  lemma NotificationLastWriterWins(st: State, c: ConnId, u: User)
    requires c in st.phases && st.phases[c].Authenticating? && st.phases[c].kind == NotificationChannel
    ensures var o := OnAuthResult(st, c, Some(u));
      && o.actions == []
      && o.state.notifications[u.id] == c
      && (forall uid :: uid != u.id ==> (uid in o.state.notifications <==> uid in st.notifications))
      && (forall uid :: uid != u.id && uid in st.notifications ==> o.state.notifications[uid] == st.notifications[uid])
      && o.state.ready == st.ready
      && o.state.rooms == st.rooms
  {
  }

  /** Only the newest registration is reachable: a relay delivery for the user goes to it. */
  lemma NotifyReachesNewest(st: State, c: ConnId, u: User, e: Envelope)
    requires c in st.phases && st.phases[c].Authenticating? && st.phases[c].kind == NotificationChannel
    requires IsOpen(st.ready, c)
    ensures Notify(OnAuthResult(st, c, Some(u)).state, u.id, e) == [Send(c, e)]
  {
  }

  /** No close handler removes a notification entry: its socket's `close` leaves the table as it was. */
  lemma NotificationEntrySurvivesClose(st: State, c: ConnId)
    requires forall r :: r in st.rooms ==> NoDup(st.rooms[r])
    requires c in st.phases && st.phases[c].Subscribed?
    ensures OnDisconnected(st, c).state.notifications == st.notifications
    ensures OnDisconnected(st, c).actions == []
  {
  }

  /** A notification connection has no message handler: inbound data does nothing. */
  lemma NotificationInboundIgnored(st: State, c: ConnId, data: string, frame: Frame)
    requires c in st.phases && st.phases[c].Subscribed?
    ensures OnInbound(st, c, data, frame) == Outcome(st, [])
  {
  }

  // ---------------------------------------------------------------------------
  // Chatroom join, chat and leave
  // ---------------------------------------------------------------------------

  /** Nothing but `Send` actions carrying `e` come out of a broadcast, so no other envelope is counted in it. */
  lemma BroadcastOnlyCarries(members: seq<ConnId>, ready: map<ConnId, ReadyState>, e: Envelope, a: Action)
    requires !(a.Send? && a.envelope == e)
    ensures multiset(Broadcast(members, ready, e))[a] == 0
  {
    var out := Broadcast(members, ready, e);
    assert a !in out;
  }

  /** An admitted member joins the room: the room is created when absent and the member is
      appended with set semantics otherwise; other rooms are untouched. */
  lemma JoinUpdatesRooms(st: State, c: ConnId)
    requires Inv(st)
    requires c in st.phases && st.phases[c].CheckingMembership?
    ensures var room := st.phases[c].room;
      var o := OnMembershipResult(st, c, true);
      && room in o.state.rooms
      && (room !in st.rooms ==> o.state.rooms[room] == [c])
      && (room in st.rooms ==> o.state.rooms[room] == st.rooms[room] + [c])
      && (forall r :: r != room ==> (r in o.state.rooms <==> r in st.rooms))
      && (forall r :: r != room && r in st.rooms ==> o.state.rooms[r] == st.rooms[r])
      && o.state.notifications == st.notifications
  {
    var room := st.phases[c].room;
    assert c !in Members(st.rooms, room);
  }

  /** The joiner gets exactly one welcome, sent first, and every OPEN member of the room,
      the joiner included, gets exactly one "joined" announcement. */
  lemma JoinDelivers(st: State, c: ConnId)
    requires Inv(st)
    requires c in st.phases && st.phases[c].CheckingMembership?
    ensures var u := st.phases[c].user;
      var room := st.phases[c].room;
      var o := OnMembershipResult(st, c, true);
      && room in o.state.rooms
      && o.actions[0] == Send(c, Welcome(WelcomeText(room, u.name)))
      && multiset(o.actions)[Send(c, Welcome(WelcomeText(room, u.name)))] == 1
      && (forall m :: multiset(o.actions)[Send(m, System(JoinedText(u.name)))] ==
            if m in o.state.rooms[room] && IsOpen(st.ready, m) then 1 else 0)
  {
    var u := st.phases[c].user;
    var room := st.phases[c].room;
    var members := Add(Members(st.rooms, room), c);
    var welcome := Send(c, Welcome(WelcomeText(room, u.name)));
    var joined := System(JoinedText(u.name));
    var b := Broadcast(members, st.ready, joined);
    var o := OnMembershipResult(st, c, true);
    assert o.state.rooms[room] == members;
    assert o.actions == [welcome] + b;
    BroadcastOnlyCarries(members, st.ready, joined, welcome);
    assert multiset(o.actions) == multiset{welcome} + multiset(b);
    forall m
      ensures multiset(o.actions)[Send(m, joined)] == if m in members && IsOpen(st.ready, m) then 1 else 0
    {
      BroadcastExactlyOnce(members, st.ready, joined, m);
    }
  }

  /** A chat message from a room member reaches every OPEN member of the room exactly once,
      the sender included, and changes no state. */
  lemma ChatEchoesToRoom(st: State, c: ConnId, data: string, frame: Frame)
    requires Inv(st)
    requires c in st.phases && st.phases[c].InRoom?
    ensures var u := st.phases[c].user;
      var room := st.phases[c].room;
      var o := OnInbound(st, c, data, frame);
      && o.state == st
      && c in st.rooms[room]
      && (forall m :: multiset(o.actions)[Send(m, Chat(u.name, data))] ==
            if m in st.rooms[room] && IsOpen(st.ready, m) then 1 else 0)
      && (forall i :: 0 <= i < |o.actions| ==> o.actions[i].Send? && o.actions[i].envelope == Chat(u.name, data))
  {
    var u := st.phases[c].user;
    var room := st.phases[c].room;
    var e := Chat(u.name, data);
    assert room in st.rooms && c in st.rooms[room];
    var members := st.rooms[room];
    assert NoDup(members);
    var o := OnInbound(st, c, data, frame);
    assert o == Outcome(st, Broadcast(members, st.ready, e));
    forall m
      ensures multiset(o.actions)[Send(m, e)] == if m in members && IsOpen(st.ready, m) then 1 else 0
    {
      BroadcastExactlyOnce(members, st.ready, e, m);
    }
  }

  /** Broadcasting to a room that is not in the table sends nothing. */
  lemma BroadcastToAbsentRoom(rooms: map<string, seq<ConnId>>, room: string, ready: map<ConnId, ReadyState>, e: Envelope)
    requires room !in rooms
    ensures Broadcast(Members(rooms, room), ready, e) == []
  {
  }

  /** A chatroom connection's `close`: it leaves the room, every remaining OPEN member gets
      exactly one "left" announcement, and the room is deleted exactly when it becomes empty. */
  lemma LeaveAnnounces(st: State, c: ConnId)
    requires Inv(st)
    requires c in st.ready && st.ready[c] != Closed
    requires c in st.phases && st.phases[c].InRoom?
    ensures var u := st.phases[c].user;
      var room := st.phases[c].room;
      var o := OnDisconnected(st, c);
      && c !in Members(o.state.rooms, room)
      && (room in o.state.rooms <==> |st.rooms[room]| > 1)
      && (room in o.state.rooms ==> o.state.rooms[room] == Remove(st.rooms[room], c))
      && (forall r :: r != room ==> (r in o.state.rooms <==> r in st.rooms))
      && (forall r :: r != room && r in st.rooms ==> o.state.rooms[r] == st.rooms[r])
      && o.state.notifications == st.notifications
      && (forall m :: multiset(o.actions)[Send(m, System(LeftText(u.name)))] ==
            if m in st.rooms[room] && m != c && IsOpen(st.ready, m) then 1 else 0)
      && (|st.rooms[room]| == 1 ==> o.actions == [])
  {
    var u := st.phases[c].user;
    var room := st.phases[c].room;
    var o := OnDisconnected(st, c);
    var remaining := Remove(st.rooms[room], c);
    var ready := st.ready[c := Closed];
    var left := System(LeftText(u.name));
    assert o.actions == Broadcast(remaining, ready, left);
    forall m
      ensures multiset(o.actions)[Send(m, left)] == if m in st.rooms[room] && m != c && IsOpen(st.ready, m) then 1 else 0
    {
      BroadcastExactlyOnce(remaining, ready, left, m);
    }
  }

  /** `close` fires once: a second one, or one for a socket that joined after it had already
      closed, changes nothing, so such a member is never removed from its room. */
  lemma ClosedSocketCloseIsNoOp(st: State, c: ConnId)
    requires forall r :: r in st.rooms ==> NoDup(st.rooms[r])
    requires c in st.ready && st.ready[c] == Closed
    ensures OnDisconnected(st, c) == Outcome(st, [])
  {
  }

  /** A socket that closes while its workspace membership is being looked up still joins
      once admitted: the continuation runs regardless, and the member is never OPEN again. */
  lemma JoinAfterCloseStays(st: State, c: ConnId)
    requires Inv(st)
    requires c in st.phases && st.phases[c].CheckingMembership?
    requires st.ready[c] == Closed
    ensures var o := OnMembershipResult(st, c, true);
      && c in o.state.rooms[st.phases[c].room]
      && o.state.ready[c] == Closed
      && OnDisconnected(o.state, c) == Outcome(o.state, [])
  {
  }

  // ---------------------------------------------------------------------------
  // Backend relay
  // ---------------------------------------------------------------------------

  /** A relay frame for user U is delivered once, to U's registered socket, when that socket is
      OPEN; otherwise nothing is sent. A malformed frame is dropped. The relay stays as it was. */
  lemma RelayForwards(st: State, c: ConnId, data: string, frame: Frame)
    requires c in st.phases && st.phases[c] == Relaying
    ensures var o := OnInbound(st, c, data, frame);
      && o.state == st
      && (frame.Malformed? ==> o.actions == [])
      && (frame.Frame? && frame.userId in st.notifications && IsOpen(st.ready, st.notifications[frame.userId]) ==>
            o.actions == [Send(st.notifications[frame.userId], frame.message)])
      && (frame.Frame? && !(frame.userId in st.notifications && IsOpen(st.ready, st.notifications[frame.userId])) ==>
            o.actions == [])
  {
  }

  /** A backend connection with a wrong key is neither closed nor given a handler: its frames are ignored. */
  lemma RelayKeyMismatchIgnored(st: State, c: ConnId, p: ConnectParams, key: Option<string>, data: string, frame: Frame)
    requires c !in st.phases && ParamsValid(p) && p.channel == Some("backend")
    requires key.None? || p.session != Some(key.value)
    ensures var o := OnConnect(st, c, p, key);
      && o.actions == []
      && IsOpen(o.state.ready, c)
      && OnInbound(o.state, c, data, frame) == Outcome(o.state, [])
  {
  }
}

=== FILE: hub_request.dfy ===
/**
  How the hub reads the parameters of a new connection (`src/lib/websocketServer.ts`, the
  start of the `connection` handler): the request target is parsed as a URL and
  `chatroom`, `session` and `channel` are taken from its query with
  `url.searchParams.get`, each `null` when absent.

  A browser opening `ws://host?query` sends the path and the query as the request target,
  so the query the hub reads is the query of the URL the client built.
 */
module HubRequest {
  import opened Wrappers
  import opened Strings
  import opened Uri
  import Hub

  /** The connect parameters the handler extracts from a request target. */
  function ParamsOf(target: string): (p: Hub.ConnectParams)
    ensures '?' !in target ==> p == Hub.ConnectParams(None, None, None) && !Hub.ParamsValid(p)
  {
    var ps := ParseQuery(QueryOf(target));
    assert '?' !in target ==> ps == [] by {
      if '?' !in target {
        assert QueryOf(target) == "";
        assert Split("", "&") == [""];
      }
    }
    Hub.ConnectParams(Get(ps, "channel"), Get(ps, "session"), Get(ps, "chatroom"))
  }

  /** A URL written with plain names and encoded values hands the hub, for each of its
      three parameters, the value of the first pair with that name. */
  lemma WrittenParams(base: string, ps: seq<(string, string)>)
    requires '?' !in base && '#' !in base
    requires |ps| >= 1 && PlainNames(ps)
    ensures ParamsOf(WithQuery(base, ps)) == Hub.ConnectParams(Get(ps, "channel"), Get(ps, "session"), Get(ps, "chatroom"))
  {
    UrlQueryRoundTrip(base, ps);
  }
}

=== FILE: kanban.dfy ===
/**
  The Kanban board of `src/features/tasks/components/kanban-view.tsx`: tasks are given a
  display id, grouped into one column per status, and a drag moves one card between (or
  within) columns and asks the server to set the card's new status.

  Statuses arrive from the server as strings, so a card's status may be empty or a
  string that is no status at all; the board's columns are keyed by `TaskStatus`.
 */
module Kanban {
  import opened Wrappers
  import opened Seqs
  import opened Strings
  import opened TaskTypes

  /** A task as the view receives it: its document `$id`, an `id`, the raw status and the name. */
  datatype Card = Card(docId: string, id: string, status: string, name: string)

  /** A board holds one column per status. */
  type Board = map<TaskStatus, seq<Card>>

  predicate WellFormed(b: Board) {
    forall s: TaskStatus :: s in b
  }

  // ---------------------------------------------------------------------------
  // Display ids
  // ---------------------------------------------------------------------------

  /** `{...task, id: task.$id || task.id}`. */
  function WithDisplayId(c: Card): (r: Card)
    ensures c.docId != "" ==> r.id == c.docId
    ensures c.docId == "" ==> r.id == c.id
    ensures r.docId == c.docId && r.status == c.status && r.name == c.name
  {
    c.(id := Or(c.docId, c.id))
  }

  /** Giving display ids twice changes nothing more. */
  lemma WithDisplayIdIdempotent(c: Card)
    ensures WithDisplayId(WithDisplayId(c)) == WithDisplayId(c)
  {
  }

  // ---------------------------------------------------------------------------
  // Grouping
  // ---------------------------------------------------------------------------

  /** The column a card goes to: an empty status counts as BACKLOG, a string that names no
      status puts the card in no column. */
  function ColumnOf(c: Card): (r: Option<TaskStatus>)
    ensures c.status == "" ==> r == Some(BACKLOG)
    ensures c.status != "" && r.Some? ==> StatusValue(r.value) == c.status
    ensures c.status != "" && r.None? ==> forall s :: StatusValue(s) != c.status
  {
    if c.status == "" then Some(BACKLOG) else ParseStatus(c.status)
  }

  /** The cards of one column, in input order. */
  function Column(cards: seq<Card>, s: TaskStatus): (r: seq<Card>)
    ensures |r| <= |cards|
  {
    if |cards| == 0 then []
    else (if ColumnOf(cards[0]) == Some(s) then [cards[0]] else []) + Column(cards[1..], s)
  }

  /** A column holds exactly the cards whose status leads to it. */
  lemma {:induction false} ColumnMembers(cards: seq<Card>, s: TaskStatus, c: Card)
    ensures c in Column(cards, s) <==> c in cards && ColumnOf(c) == Some(s)
    decreases |cards|
  {
    if |cards| > 0 {
      ColumnMembers(cards[1..], s, c);
      assert cards == [cards[0]] + cards[1..];
    }
  }

  /** Grouping keeps input order: the column of a concatenation is the concatenation of the
      columns. */
  lemma {:induction false} ColumnConcat(a: seq<Card>, b: seq<Card>, s: TaskStatus)
    ensures Column(a + b, s) == Column(a, s) + Column(b, s)
    decreases |a|
  {
    if |a| == 0 {
      assert a + b == b;
      assert Column(a, s) + Column(b, s) == Column(b, s);
    } else {
      var head := if ColumnOf(a[0]) == Some(s) then [a[0]] else [];
      calc {
        Column(a + b, s);
        { assert (a + b)[0] == a[0] && (a + b)[1..] == a[1..] + b; }
        head + Column(a[1..] + b, s);
        { ColumnConcat(a[1..], b, s); }
        head + (Column(a[1..], s) + Column(b, s));
        (head + Column(a[1..], s)) + Column(b, s);
        Column(a, s) + Column(b, s);
      }
    }
  }

  /** Every status is a key of a board built from the five-entry display. */
  lemma EveryStatus(s: TaskStatus)
    ensures s == BACKLOG || s == IN_PROGRESS || s == IN_REVIEW || s == TODO || s == DONE
  {
  }

  /** One step of `groupedTasks`: the card is pushed onto its column when it has one. */
  function Push(board: Board, c: Card): (r: Board)
    requires WellFormed(board)
    ensures WellFormed(r)
  {
    var column := ColumnOf(c);
    if column.Some? then board[column.value := board[column.value] + [c]] else board
  }

  /** Pushing the cards one by one builds exactly their columns. */
  lemma PushBuildsColumns(board: Board, cards: seq<Card>, c: Card)
    requires WellFormed(board)
    requires forall s: TaskStatus :: board[s] == Column(cards, s)
    ensures forall s: TaskStatus :: Push(board, c)[s] == Column(cards + [c], s)
  {
    forall s: TaskStatus ensures Push(board, c)[s] == Column(cards + [c], s) {
      ColumnConcat(cards, [c], s);
      assert Column([c], s) == (if ColumnOf(c) == Some(s) then [c] else []) + Column([], s);
    }
  }

  /** `groupedTasks`: five empty columns, then each card, after receiving its display id, is
      pushed onto its column. */
  method GroupTasks(tasks: seq<Card>) returns (board: Board)
    ensures WellFormed(board)
    ensures forall s: TaskStatus :: board[s] == Column(Map(tasks, WithDisplayId), s)
  {
    var cards := Map(tasks, WithDisplayId);
    board := map[BACKLOG := [], IN_PROGRESS := [], IN_REVIEW := [], TODO := [], DONE := []];
    assert WellFormed(board) by {
      forall s: TaskStatus ensures s in board { EveryStatus(s); }
    }
    var i := 0;
    while i < |cards|
      invariant 0 <= i <= |cards|
      invariant WellFormed(board)
      invariant forall s: TaskStatus :: board[s] == Column(cards[..i], s)
    {
      PushBuildsColumns(board, cards[..i], cards[i]);
      assert cards[..i + 1] == cards[..i] + [cards[i]];
      board := Push(board, cards[i]);
      i := i + 1;
    }
    assert cards[..|cards|] == cards;
  }

  /** A card is in at most one column; a card with an empty status is in BACKLOG, and a card
      whose status names no status is in none. */
  lemma ColumnsDisjoint(cards: seq<Card>, c: Card, s: TaskStatus, t: TaskStatus)
    ensures c in Column(cards, s) && c in Column(cards, t) ==> s == t
    ensures c in cards && c.status == "" ==> c in Column(cards, BACKLOG)
    ensures c.status != "" && ParseStatus(c.status).None? ==> c !in Column(cards, s)
  {
    ColumnMembers(cards, s, c);
    ColumnMembers(cards, t, c);
    ColumnMembers(cards, BACKLOG, c);
  }

  // ---------------------------------------------------------------------------
  // Drag and drop
  // ---------------------------------------------------------------------------

  /** A place on the board as the drag library reports it: a column and an index in it. */
  datatype Place = Place(column: TaskStatus, index: nat)

  datatype DragResult = DragResult(source: Place, destination: Option<Place>)

  /** `updateTask.mutate({taskId, updates: {status}})`. */
  datatype StatusUpdate = StatusUpdate(taskId: string, status: TaskStatus)

  datatype DragOutcome = DragOutcome(board: Board, request: Option<StatusUpdate>)

  /** `splice(i, 1)`: the sequence without its `i`-th element. */
  function RemoveAt<T>(s: seq<T>, i: nat): (r: seq<T>)
    requires i < |s|
    ensures |r| == |s| - 1
    ensures multiset(r) + multiset{s[i]} == multiset(s)
  {
    assert s == s[..i] + [s[i]] + s[i + 1..];
    s[..i] + s[i + 1..]
  }

  /** `splice(i, 0, x)`: `x` inserted before the `i`-th element, or at the end when `i` is
      past it. */
  function InsertAt<T>(s: seq<T>, i: nat, x: T): (r: seq<T>)
    ensures |r| == |s| + 1
    ensures r[if i <= |s| then i else |s|] == x
    ensures multiset(r) == multiset(s) + multiset{x}
  {
    var k := if i <= |s| then i else |s|;
    assert s == s[..k] + s[k..];
    s[..k] + [x] + s[k..]
  }

  /** `onDragEnd`. The library only reports a source index of a card it rendered, hence the
      precondition. A drop outside every column, or onto the place it started from, does
      nothing; otherwise the card leaves its column, enters the destination column at the
      destination index, and its new status is sent to the server. */
  function OnDragEnd(b: Board, r: DragResult): (o: DragOutcome)
    requires WellFormed(b)
    requires r.source.index < |b[r.source.column]|
    ensures WellFormed(o.board)
    ensures r.destination.None? || r.destination.value == r.source ==> o == DragOutcome(b, None)
  {
    if r.destination.None? || r.destination.value == r.source then DragOutcome(b, None)
    else
      var src := r.source;
      var dst := r.destination.value;
      var card := b[src.column][src.index];
      var b1 := b[src.column := RemoveAt(b[src.column], src.index)];
      var b2 := b1[dst.column := InsertAt(b1[dst.column], dst.index, card)];
      DragOutcome(b2, Some(StatusUpdate(card.id, dst.column)))
  }

  /** All cards on the board, column by column. */
  function AllCards(b: Board): seq<Card>
    requires WellFormed(b)
  {
    b[BACKLOG] + b[IN_PROGRESS] + b[IN_REVIEW] + b[TODO] + b[DONE]
  }

  function CardBag(b: Board): multiset<Card>
    requires WellFormed(b)
  {
    multiset(b[BACKLOG]) + multiset(b[IN_PROGRESS]) + multiset(b[IN_REVIEW]) + multiset(b[TODO]) + multiset(b[DONE])
  }

  lemma CardBagOfAll(b: Board)
    requires WellFormed(b)
    ensures multiset(AllCards(b)) == CardBag(b)
  {
  }

  /** Replacing one column changes the board's bag of cards by exactly that column's change. */
  lemma CardBagUpdate(b: Board, s: TaskStatus, col: seq<Card>)
    requires WellFormed(b)
    ensures CardBag(b[s := col]) + multiset(b[s]) == CardBag(b) + multiset(col)
  {
  }

  /** Moving one element out of a part of a whole and into another part keeps the whole:
      the bag arithmetic behind a move. */
  lemma MoveArithmetic<T>(whole: multiset<T>, between: multiset<T>, after: multiset<T>,
                          from: multiset<T>, fromLess: multiset<T>, to: multiset<T>, toMore: multiset<T>, x: T)
    requires between + from == whole + fromLess && fromLess + multiset{x} == from
    requires after + to == between + toMore && toMore == to + multiset{x}
    ensures after == whole
  {
    forall y ensures after[y] == whole[y] {
      assert (between + from)[y] == (whole + fromLess)[y];
      assert (fromLess + multiset{x})[y] == from[y];
      assert (after + to)[y] == (between + toMore)[y];
      assert (to + multiset{x})[y] == toMore[y];
    }
  }

  /** A move keeps every card on the board, each as often as before. */
  lemma DragKeepsCards(b: Board, r: DragResult)
    requires WellFormed(b)
    requires r.source.index < |b[r.source.column]|
    ensures multiset(AllCards(OnDragEnd(b, r).board)) == multiset(AllCards(b))
  {
    var after := OnDragEnd(b, r).board;
    if r.destination.Some? && r.destination.value != r.source {
      var src := r.source;
      var dst := r.destination.value;
      var card := b[src.column][src.index];
      var removed := RemoveAt(b[src.column], src.index);
      var b1 := b[src.column := removed];
      var inserted := InsertAt(b1[dst.column], dst.index, card);
      assert after == b1[dst.column := inserted];
      CardBagUpdate(b, src.column, removed);
      CardBagUpdate(b1, dst.column, inserted);
      MoveArithmetic(CardBag(b), CardBag(b1), CardBag(after), multiset(b[src.column]), multiset(removed),
                     multiset(b1[dst.column]), multiset(inserted), card);
    }
    CardBagOfAll(b);
    CardBagOfAll(after);
  }

  /** A move puts the dragged card at the destination index (or at the end of a shorter
      column), asks for that card's id to get the destination status, and leaves every
      column other than the two involved untouched. */
  lemma DragPlacesCard(b: Board, r: DragResult)
    requires WellFormed(b)
    requires r.source.index < |b[r.source.column]|
    requires r.destination.Some? && r.destination.value != r.source
    ensures var o := OnDragEnd(b, r);
            var card := b[r.source.column][r.source.index];
            var dst := r.destination.value;
            var k := if dst.index < |o.board[dst.column]| then dst.index else |o.board[dst.column]| - 1;
            && o.request == Some(StatusUpdate(card.id, dst.column))
            && 0 <= k < |o.board[dst.column]| && o.board[dst.column][k] == card
            && forall s: TaskStatus :: s != r.source.column && s != dst.column ==> o.board[s] == b[s]
  {
  }
}

=== FILE: member_routes.dfy ===
/**
  The member HTTP handlers of `src/features/members/server/route.ts`: listing the members
  of a workspace with their display names, and deleting a member.

  The members collection is a sequence of documents; `listDocuments` with equality
  queries is a filter over it, `getDocument` by id finds the document with that `$id`
  (and throws when there is none), and `users.get` is a lookup in a user directory that
  fails for an unknown user id.
 */
module MemberRoutes {
  import opened Wrappers
  import opened Seqs
  import opened Strings

  datatype MemberRole = ADMIN | MEMBER

  /** A membership document: its `$id`, the user it belongs to, the workspace, an optional
      display name (`""` when unset) and the role. */
  datatype Member = Member(id: string, userId: string, workspaceId: string, name: string, role: MemberRole)

  /** What `users.get` returns for a user. */
  datatype UserInfo = UserInfo(name: string, email: string)

  const UnknownEmail := "unknown@example.com"
  const UnknownUser := "Unknown User"

  const Unauthorized := 401
  const NotFound := 404
  const ServerError := 500

  /** The membership documents of a user in a workspace, in store order. */
  function Memberships(store: seq<Member>, workspaceId: string, userId: string): (r: seq<Member>)
    ensures forall i :: 0 <= i < |r| ==> r[i] in store && r[i].workspaceId == workspaceId && r[i].userId == userId
  {
    Filter(store, (m: Member) => m.workspaceId == workspaceId && m.userId == userId)
  }

  /** `getDocument(MEMBERS_ID, id)`: the document with that `$id`, `None` where the call throws. */
  function MemberById(store: seq<Member>, id: string): (r: Option<Member>)
    ensures r.Some? ==> r.value in store && r.value.id == id
    ensures r.None? <==> forall j :: 0 <= j < |store| ==> store[j].id != id
  {
    FindFirst(store, (m: Member) => m.id == id)
  }

  // ---------------------------------------------------------------------------
  // GET /
  // ---------------------------------------------------------------------------

  /** A listed member: the document with its display `name` and `email` replaced. */
  datatype Listed = Listed(member: Member, name: string, email: string)

  /** The display entry for one member: the member's own name wins over the user's name;
      when the user lookup fails, the email is the placeholder and the name falls back to
      "Unknown User". */
  function ListedMember(m: Member, users: map<string, UserInfo>): (l: Listed)
    ensures l.member == m
    ensures m.name != "" ==> l.name == m.name
    ensures m.userId in users ==> l.email == users[m.userId].email
    ensures m.userId in users && m.name == "" ==> l.name == users[m.userId].name
    ensures m.userId !in users ==> l.email == UnknownEmail && l.name != ""
    ensures m.userId !in users && m.name == "" ==> l.name == UnknownUser
  {
    if m.userId in users then Listed(m, Or(m.name, users[m.userId].name), users[m.userId].email)
    else Listed(m, Or(m.name, UnknownUser), UnknownEmail)
  }

  /** The GET handler: 401 unless the requester has a membership document in the
      workspace, otherwise every member of the workspace with its display entry. */
  function ListMembers(workspaceId: string, userId: string, store: seq<Member>, users: map<string, UserInfo>)
    : (r: Result<seq<Listed>, int>)
    ensures r.Err? ==> r.error == Unauthorized
  {
    if |Memberships(store, workspaceId, userId)| == 0 then Err(Unauthorized)
    else
      var members := Filter(store, (m: Member) => m.workspaceId == workspaceId);
      Ok(Map(members, (m: Member) => ListedMember(m, users)))
  }

  /** The requester has a membership document in the workspace. */
  predicate IsMember(store: seq<Member>, workspaceId: string, userId: string) {
    exists i :: 0 <= i < |store| && store[i].workspaceId == workspaceId && store[i].userId == userId
  }

  lemma MembershipsMeaning(store: seq<Member>, workspaceId: string, userId: string)
    ensures |Memberships(store, workspaceId, userId)| > 0 <==> IsMember(store, workspaceId, userId)
  {
    var r := Memberships(store, workspaceId, userId);
    if IsMember(store, workspaceId, userId) {
      var i :| 0 <= i < |store| && store[i].workspaceId == workspaceId && store[i].userId == userId;
      assert store[i] in r;
    }
    if |r| > 0 {
      assert r[0] in store;
      var i :| 0 <= i < |store| && store[i] == r[0];
    }
  }

  /** Members are listed exactly when the requester belongs to the workspace, and then the
      list holds every member of the workspace and nothing else. */
  lemma ListMembersMeaning(workspaceId: string, userId: string, store: seq<Member>, users: map<string, UserInfo>, m: Member)
    ensures ListMembers(workspaceId, userId, store, users).Ok? <==> IsMember(store, workspaceId, userId)
    ensures var r := ListMembers(workspaceId, userId, store, users);
            r.Ok? ==> (m in store && m.workspaceId == workspaceId <==> ListedMember(m, users) in r.value)
  {
    MembershipsMeaning(store, workspaceId, userId);
    var r := ListMembers(workspaceId, userId, store, users);
    if r.Ok? {
      var members := Filter(store, (x: Member) => x.workspaceId == workspaceId);
      if m in members {
        var k :| 0 <= k < |members| && members[k] == m;
        assert r.value[k] == ListedMember(m, users);
      }
      if ListedMember(m, users) in r.value {
        var k :| 0 <= k < |r.value| && r.value[k] == ListedMember(m, users);
        assert members[k] == m;
      }
    }
  }

  // ---------------------------------------------------------------------------
  // DELETE /
  // ---------------------------------------------------------------------------

  datatype DeleteOutcome = MemberDeleted(memberId: string) | DeleteRefused(status: int)

  /** The DELETE handler. A missing session user is refused first. A target id with no
      document makes `getDocument` throw, which the handler's `catch` turns into 500; a
      target in another workspace is 404, checked before the requester's own membership;
      a requester without a membership document is 401. The role is never consulted. */
  function DeleteMember(user: Option<string>, workspaceId: string, memberId: string, store: seq<Member>)
    : (r: DeleteOutcome)
    ensures r.MemberDeleted? ==> r.memberId == memberId
  {
    if user.None? then DeleteRefused(Unauthorized)
    else
      var target := MemberById(store, memberId);
      if target.None? then DeleteRefused(ServerError)
      else if target.value.workspaceId != workspaceId then DeleteRefused(NotFound)
      else if |Memberships(store, workspaceId, user.value)| == 0 then DeleteRefused(Unauthorized)
      else MemberDeleted(memberId)
  }

  /** A member is deleted exactly when there is a session user, the target exists in the
      named workspace, and the requester is a member of that workspace, whatever its role. */
  lemma DeleteMemberMeaning(user: Option<string>, workspaceId: string, memberId: string, store: seq<Member>)
    ensures DeleteMember(user, workspaceId, memberId, store).MemberDeleted? <==>
            && user.Some?
            && MemberById(store, memberId).Some?
            && MemberById(store, memberId).value.workspaceId == workspaceId
            && IsMember(store, workspaceId, user.value)
  {
    if user.Some? {
      MembershipsMeaning(store, workspaceId, user.value);
    }
  }

  /** The refusals and their statuses: no session user is 401; a target id with no
      document is 500; a target in this workspace with a requester who is not a member is
      401. */
  lemma DeleteMemberRefusals(user: Option<string>, workspaceId: string, memberId: string, store: seq<Member>)
    ensures user.None? ==> DeleteMember(user, workspaceId, memberId, store) == DeleteRefused(Unauthorized)
    ensures user.Some? && MemberById(store, memberId).None? ==>
              DeleteMember(user, workspaceId, memberId, store) == DeleteRefused(ServerError)
    ensures user.Some? && MemberById(store, memberId).Some? && MemberById(store, memberId).value.workspaceId == workspaceId
            && !IsMember(store, workspaceId, user.value) ==>
              DeleteMember(user, workspaceId, memberId, store) == DeleteRefused(Unauthorized)
  {
    if user.Some? {
      MembershipsMeaning(store, workspaceId, user.value);
    }
  }

  /** A target in another workspace is refused with 404 even when the requester is not a
      member: the workspace check comes first. */
  lemma ForeignTargetBeforeMembership(user: string, workspaceId: string, memberId: string, store: seq<Member>)
    requires MemberById(store, memberId).Some?
    requires MemberById(store, memberId).value.workspaceId != workspaceId
    ensures DeleteMember(Some(user), workspaceId, memberId, store) == DeleteRefused(NotFound)
  {
  }

  /** The store with every document given the same role. */
  function Relabel(store: seq<Member>, role: MemberRole): (r: seq<Member>)
    ensures |r| == |store|
    ensures forall i :: 0 <= i < |store| ==> r[i] == store[i].(role := role)
  {
    if |store| == 0 then [] else [store[0].(role := role)] + Relabel(store[1..], role)
  }

  lemma {:induction false} MemberByIdRelabel(store: seq<Member>, id: string, role: MemberRole)
    ensures var found := MemberById(Relabel(store, role), id);
            found.Some? == MemberById(store, id).Some?
            && (found.Some? ==> found.value == MemberById(store, id).value.(role := role))
    decreases |store|
  {
    if |store| > 0 {
      MemberByIdRelabel(store[1..], id, role);
      assert Relabel(store, role)[1..] == Relabel(store[1..], role);
    }
  }

  /** Roles play no part in deletion: giving every document the same role, whichever,
      leaves the outcome unchanged. */
  lemma DeleteIgnoresRoles(user: Option<string>, workspaceId: string, memberId: string, store: seq<Member>, role: MemberRole)
    ensures DeleteMember(user, workspaceId, memberId, Relabel(store, role)) == DeleteMember(user, workspaceId, memberId, store)
  {
    var relabelled := Relabel(store, role);
    MemberByIdRelabel(store, memberId, role);
    if user.Some? {
      MembershipsMeaning(store, workspaceId, user.value);
      MembershipsMeaning(relabelled, workspaceId, user.value);
      if IsMember(store, workspaceId, user.value) {
        var i :| 0 <= i < |store| && store[i].workspaceId == workspaceId && store[i].userId == user.value;
        assert relabelled[i].workspaceId == workspaceId && relabelled[i].userId == user.value;
      }
      if IsMember(relabelled, workspaceId, user.value) {
        var i :| 0 <= i < |relabelled| && relabelled[i].workspaceId == workspaceId && relabelled[i].userId == user.value;
        assert store[i].workspaceId == workspaceId && store[i].userId == user.value;
      }
    }
  }
}

=== FILE: notification_client.dfy ===
/**
  The notification listener of every page, `public/notificationChannel.js`: once the page
  has loaded it reads the session cookie and opens a notification connection to the hub.
  Showing the notifications is DOM work and is left out.
 */
module NotificationClient {
  import opened Wrappers
  import opened Uri
  import Cookies
  import Hub
  import HubRequest

  const ServerBase := "ws://localhost:8080"

  /** The notification connection URL, with the session key URI-encoded. */
  function NotificationUrl(key: string): string {
    "ws://localhost:8080?session=" + EncodeURIComponent(key) + "&channel=notification"
  }

  function NotificationPairs(key: string): seq<(string, string)> {
    [("session", key), ("channel", "notification")]
  }

  /** The URL of the socket the page opens, or nothing when the session cookie is missing
      or empty (the page shows an alert instead). */
  function Connect(cookie: string): (url: Option<string>)
    ensures var key := Cookies.GetCookie(cookie, Cookies.SessionCookie);
            && (url.Some? <==> Hub.Truthy(key))
            && (url.Some? ==> HubRequest.ParamsOf(url.value) == Hub.ConnectParams(Some("notification"), key, None))
            && (url.Some? ==> Hub.ParamsValid(HubRequest.ParamsOf(url.value)))
  {
    var key := Cookies.GetCookie(cookie, Cookies.SessionCookie);
    if !Hub.Truthy(key) then None
    else
      NotificationUrlReachesHub(key.value);
      Some(NotificationUrl(key.value))
  }

  lemma NotificationUrlWritten(key: string)
    ensures NotificationUrl(key) == WithQuery(ServerBase, NotificationPairs(key))
  {
    var ps := NotificationPairs(key);
    var e := EncodeURIComponent(key);
    assert Piece(ps[0]) == "session" + "=" + e;
    PlainPiece(ps[1]);
    WithTwoPieces(ServerBase, ps);
    NotificationTemplate(e);
  }

  lemma NotificationTemplate(e: string)
    ensures "ws://localhost:8080?session=" + e + "&channel=notification"
         == ServerBase + "?" + ("session" + "=" + e) + "&" + ("channel" + "=" + "notification")
  {
  }

  /** Whatever the key, the hub reads back exactly the key and the notification channel,
      and no room; the connection passes the parameter check exactly when the key is not
      empty. */
  lemma NotificationUrlReachesHub(key: string)
    ensures HubRequest.ParamsOf(NotificationUrl(key)) == Hub.ConnectParams(Some("notification"), Some(key), None)
    ensures Hub.ParamsValid(HubRequest.ParamsOf(NotificationUrl(key))) <==> key != ""
  {
    NotificationUrlWritten(key);
    NotificationPairsPlain(key);
    HubRequest.WrittenParams(ServerBase, NotificationPairs(key));
    NotificationGets(key);
  }

  lemma NotificationPairsPlain(key: string)
    ensures '?' !in ServerBase && '#' !in ServerBase && PlainNames(NotificationPairs(key))
  {
  }

  lemma NotificationGets(key: string)
    ensures var ps := NotificationPairs(key);
            Get(ps, "channel") == Some("notification") && Get(ps, "session") == Some(key) && Get(ps, "chatroom") == None
  {
    var ps := NotificationPairs(key);
    assert "session" != "channel" && "session" != "chatroom" && "channel" != "chatroom" by {
      assert "session"[0] != "channel"[0];
    }
    GetFirst(ps, "session", 0);
    GetFirst(ps, "channel", 1);
  }
}

=== FILE: progress_metrics.dfy ===
/**
  The progress charts of `src/features/tasks/components/task-progress-metrics.tsx`: tasks
  with a due date are sorted into overdue and upcoming, upcoming tasks are split at seven
  days, and each of the three groups is counted as completed or incomplete.

  The current time is a parameter (`now`, in milliseconds), and so is `differenceInDays`
  from date-fns (`daysUntil`, from a due time to a whole number of days after `now`): the
  properties below hold whatever that function computes.
 */
module ProgressMetrics {
  import opened Seqs

  /** What `new Date(task.dueDate)` makes of the stored due date: no due date at all (an
      empty or missing string, which the filters skip), a string that is no date (an
      invalid `Date`, which compares false with everything), or a point in time. */
  datatype Due = NoDue | InvalidDate | At(ms: int)

  datatype MetricTask = MetricTask(id: string, status: string, due: Due)

  const Done := "DONE"

  /** `dueDate < today`; false for a missing or invalid date. */
  predicate IsOverdue(now: int, t: MetricTask) {
    t.due.At? && t.due.ms < now
  }

  /** `dueDate > today`; false for a missing or invalid date. */
  predicate IsUpcoming(now: int, t: MetricTask) {
    t.due.At? && t.due.ms > now
  }

  function Overdue(tasks: seq<MetricTask>, now: int): (r: seq<MetricTask>)
    ensures forall i :: 0 <= i < |r| ==> r[i] in tasks && IsOverdue(now, r[i])
    ensures forall i :: 0 <= i < |tasks| && IsOverdue(now, tasks[i]) ==> tasks[i] in r
  {
    Filter(tasks, (t: MetricTask) => IsOverdue(now, t))
  }

  function Upcoming(tasks: seq<MetricTask>, now: int): (r: seq<MetricTask>)
    ensures forall i :: 0 <= i < |r| ==> r[i] in tasks && IsUpcoming(now, r[i])
    ensures forall i :: 0 <= i < |tasks| && IsUpcoming(now, tasks[i]) ==> tasks[i] in r
  {
    Filter(tasks, (t: MetricTask) => IsUpcoming(now, t))
  }

  /** `differenceInDays(dueDate, today) <= 7`; as with `NaN`, false without a valid date. */
  function WithinWeekTest(daysUntil: int -> int): MetricTask -> bool {
    (t: MetricTask) => t.due.At? && daysUntil(t.due.ms) <= 7
  }

  /** `differenceInDays(dueDate, today) > 7`; false without a valid date. */
  function AfterWeekTest(daysUntil: int -> int): MetricTask -> bool {
    (t: MetricTask) => t.due.At? && daysUntil(t.due.ms) > 7
  }

  function IsDone(t: MetricTask): bool {
    t.status == Done
  }

  function IsNotDone(t: MetricTask): bool {
    t.status != Done
  }

  /** The six numbers the three pie charts show. */
  datatype Metrics = Metrics(
    completedOverdue: nat, incompleteOverdue: nat,
    completedWithinWeek: nat, incompleteWithinWeek: nat,
    completedAfterWeek: nat, incompleteAfterWeek: nat)

  /** The component's computation, from the task list to the chart numbers. */
  function ComputeMetrics(tasks: seq<MetricTask>, now: int, daysUntil: int -> int): (m: Metrics)
    ensures m.completedOverdue + m.incompleteOverdue == |Overdue(tasks, now)|
    ensures m.completedWithinWeek + m.incompleteWithinWeek + m.completedAfterWeek + m.incompleteAfterWeek
            == |Upcoming(tasks, now)|
  {
    var overdue := Overdue(tasks, now);
    var upcoming := Upcoming(tasks, now);
    var within := Filter(upcoming, WithinWeekTest(daysUntil));
    var after := Filter(upcoming, AfterWeekTest(daysUntil));
    FilterPartitionLength(overdue, IsDone, IsNotDone);
    FilterPartitionLength(within, IsDone, IsNotDone);
    FilterPartitionLength(after, IsDone, IsNotDone);
    UpcomingSplits(tasks, now, daysUntil);
    Metrics(
      |Filter(overdue, IsDone)|, |Filter(overdue, IsNotDone)|,
      |Filter(within, IsDone)|, |Filter(within, IsNotDone)|,
      |Filter(after, IsDone)|, |Filter(after, IsNotDone)|)
  }

  /** A task without a due date, or with one that is no date, is neither overdue nor
      upcoming; a task due exactly now is neither; no task is both. */
  lemma OverdueUpcomingDisjoint(tasks: seq<MetricTask>, now: int, t: MetricTask)
    ensures !t.due.At? ==> t !in Overdue(tasks, now) && t !in Upcoming(tasks, now)
    ensures t.due == At(now) ==> t !in Overdue(tasks, now) && t !in Upcoming(tasks, now)
    ensures !(t in Overdue(tasks, now) && t in Upcoming(tasks, now))
  {
    if t in Overdue(tasks, now) {
      var i :| 0 <= i < |Overdue(tasks, now)| && Overdue(tasks, now)[i] == t;
    }
    if t in Upcoming(tasks, now) {
      var i :| 0 <= i < |Upcoming(tasks, now)| && Upcoming(tasks, now)[i] == t;
    }
  }

  /** Every task with a valid due date other than now is overdue or upcoming. */
  lemma DatedTaskClassified(tasks: seq<MetricTask>, now: int, i: nat)
    requires i < |tasks| && tasks[i].due.At? && tasks[i].due.ms != now
    ensures tasks[i] in Overdue(tasks, now) || tasks[i] in Upcoming(tasks, now)
  {
  }

  /** The upcoming tasks split exactly into those due within seven days and those due
      later: together the two groups are the upcoming tasks, each once. */
  lemma UpcomingSplits(tasks: seq<MetricTask>, now: int, daysUntil: int -> int)
    ensures var upcoming := Upcoming(tasks, now);
            && multiset(Filter(upcoming, WithinWeekTest(daysUntil))) + multiset(Filter(upcoming, AfterWeekTest(daysUntil)))
               == multiset(upcoming)
            && |Filter(upcoming, WithinWeekTest(daysUntil))| + |Filter(upcoming, AfterWeekTest(daysUntil))| == |upcoming|
  {
    var upcoming := Upcoming(tasks, now);
    forall i | 0 <= i < |upcoming|
      ensures AfterWeekTest(daysUntil)(upcoming[i]) == !WithinWeekTest(daysUntil)(upcoming[i])
    {
      assert upcoming[i].due.At?;
    }
    FilterPartition(upcoming, WithinWeekTest(daysUntil), AfterWeekTest(daysUntil));
    FilterPartitionLength(upcoming, WithinWeekTest(daysUntil), AfterWeekTest(daysUntil));
  }

  /** In each chart, completed and incomplete are the whole group, each task once. */
  lemma CompletedIncompletePartition(group: seq<MetricTask>)
    ensures multiset(Filter(group, IsDone)) + multiset(Filter(group, IsNotDone)) == multiset(group)
    ensures |Filter(group, IsDone)| + |Filter(group, IsNotDone)| == |group|
  {
    FilterPartition(group, IsDone, IsNotDone);
    FilterPartitionLength(group, IsDone, IsNotDone);
  }
}

=== FILE: seqs.dfy ===
/**
  Sequence helpers: `Array.prototype.filter`, `find` and `map`, and a duplicate-free
  sequence used as an insertion-ordered set (the behaviour of a JavaScript `Set`).
 */
module Seqs {
  import opened Wrappers

  // ---------------------------------------------------------------------------
  // filter
  // ---------------------------------------------------------------------------

  /** `Array.prototype.filter`: the elements satisfying `p`, in their original order. */
  function Filter<T>(s: seq<T>, p: T -> bool): (r: seq<T>)
    ensures |r| <= |s|
    ensures forall i :: 0 <= i < |r| ==> p(r[i]) && r[i] in s
    ensures forall i :: 0 <= i < |s| && p(s[i]) ==> s[i] in r
  {
    if |s| == 0 then []
    else
      var rest := Filter(s[1..], p);
      assert s == [s[0]] + s[1..];
      (if p(s[0]) then [s[0]] else []) + rest
  }

  /** Filtering distributes over concatenation, so relative order is kept. */
  lemma {:induction false} FilterConcat<T>(a: seq<T>, b: seq<T>, p: T -> bool)
    ensures Filter(a + b, p) == Filter(a, p) + Filter(b, p)
    decreases |a|
  {
    if |a| > 0 {
      var head := if p(a[0]) then [a[0]] else [];
      calc {
        Filter(a + b, p);
        { assert (a + b)[0] == a[0] && (a + b)[1..] == a[1..] + b; }
        head + Filter(a[1..] + b, p);
        { FilterConcat(a[1..], b, p); }
        head + (Filter(a[1..], p) + Filter(b, p));
        (head + Filter(a[1..], p)) + Filter(b, p);
      }
    } else {
      assert a + b == b;
      assert Filter(a, p) + Filter(b, p) == Filter(b, p);
    }
  }

  /** Filtering by `p` and by its negation splits the input: the two results together are
      a rearrangement of the input. */
  lemma {:induction false} FilterPartition<T>(s: seq<T>, p: T -> bool, q: T -> bool)
    requires forall i :: 0 <= i < |s| ==> q(s[i]) == !p(s[i])
    ensures multiset(Filter(s, p)) + multiset(Filter(s, q)) == multiset(s)
    decreases |s|
  {
    if |s| > 0 {
      var rest := s[1..];
      FilterPartition(rest, p, q);
      assert s == [s[0]] + rest;
      var kept, dropped := Filter(rest, p), Filter(rest, q);
      if p(s[0]) {
        assert Filter(s, p) == [s[0]] + kept && Filter(s, q) == dropped;
        calc {
          multiset(Filter(s, p)) + multiset(Filter(s, q));
          multiset{s[0]} + multiset(kept) + multiset(dropped);
          multiset{s[0]} + multiset(rest);
        }
      } else {
        assert Filter(s, p) == kept && Filter(s, q) == [s[0]] + dropped;
        calc {
          multiset(Filter(s, p)) + multiset(Filter(s, q));
          multiset(kept) + (multiset{s[0]} + multiset(dropped));
          multiset{s[0]} + (multiset(kept) + multiset(dropped));
          multiset{s[0]} + multiset(rest);
        }
      }
    }
  }

  /** The two sides of a partition have lengths adding up to the input's. */
  lemma FilterPartitionLength<T>(s: seq<T>, p: T -> bool, q: T -> bool)
    requires forall i :: 0 <= i < |s| ==> q(s[i]) == !p(s[i])
    ensures |Filter(s, p)| + |Filter(s, q)| == |s|
  {
    FilterPartition(s, p, q);
    assert |multiset(Filter(s, p)) + multiset(Filter(s, q))| == |multiset(s)|;
  }

  // ---------------------------------------------------------------------------
  // duplicate-free sequences as insertion-ordered sets
  // ---------------------------------------------------------------------------

  predicate NoDup<T(==)>(s: seq<T>) {
    forall i, j :: 0 <= i < j < |s| ==> s[i] != s[j]
  }

  /** `Set.prototype.add`: appends `x` unless it is already present. */
  function Add<T(==, !new)>(s: seq<T>, x: T): (r: seq<T>)
    requires NoDup(s)
    ensures NoDup(r) && x in r
    ensures forall y :: y in r <==> y in s || y == x
    ensures x in s ==> r == s
    ensures x !in s ==> r == s + [x]
  {
    if x in s then s else s + [x]
  }

  /** `Set.prototype.delete`: removes `x`, keeping the order of the others. */
  function Remove<T(==, !new)>(s: seq<T>, x: T): (r: seq<T>)
    requires NoDup(s)
    ensures NoDup(r) && x !in r
    ensures forall y :: y in r <==> y in s && y != x
    ensures x in s ==> |r| == |s| - 1
    ensures x !in s ==> r == s
  {
    if |s| == 0 then []
    else if s[0] == x then
      assert x !in s[1..];
      s[1..]
    else
      assert NoDup(s[1..]);
      var rest := Remove(s[1..], x);
      assert s[0] !in s[1..];
      assert s[0] !in rest;
      var r := [s[0]] + rest;
      assert forall i :: 1 <= i < |r| ==> r[i] == rest[i - 1];
      r
  }

  // ---------------------------------------------------------------------------
  // find
  // ---------------------------------------------------------------------------

  /** `Array.prototype.find`: the first element satisfying `p`, if any. */
  function FindFirst<T>(s: seq<T>, p: T -> bool): (r: Option<T>)
    ensures r.Some? ==> r.value in s && p(r.value)
    ensures r.None? <==> forall j :: 0 <= j < |s| ==> !p(s[j])
  {
    if |s| == 0 then None
    else if p(s[0]) then Some(s[0])
    else
      assert forall j :: 1 <= j < |s| ==> s[j] == s[1..][j - 1];
      FindFirst(s[1..], p)
  }

  /** `Array.prototype.map`. */
  function Map<T, U>(s: seq<T>, f: T -> U): (r: seq<U>)
    ensures |r| == |s| && forall i :: 0 <= i < |s| ==> r[i] == f(s[i])
  {
    if |s| == 0 then [] else [f(s[0])] + Map(s[1..], f)
  }

  /** Concatenation is associative; stated on its own so that callers need not prove it
      among their own facts. */
  lemma ConcatAssoc<T>(a: seq<T>, b: seq<T>, c: seq<T>)
    ensures (a + b) + c == a + (b + c)
  {
  }
}

=== FILE: strings.dfy ===
/**
  The JavaScript string primitives the source leans on, over `string` (a sequence of
  Unicode scalar values): `String.prototype.trim`, `startsWith`, `split` with a
  non-empty separator, `padStart`, and `String(n)` for integers.
 */
module Strings {
  import opened Wrappers

  // ---------------------------------------------------------------------------
  // Whitespace and trim
  // ---------------------------------------------------------------------------

  /** The characters `String.prototype.trim` strips: ECMAScript WhiteSpace and LineTerminator. */
  predicate IsWhitespace(c: char) {
    c in {'\t', '\n', '\U{000B}', '\U{000C}', '\r', ' ', '\U{00A0}', '\U{1680}',
          '\U{2000}', '\U{2001}', '\U{2002}', '\U{2003}', '\U{2004}', '\U{2005}',
          '\U{2006}', '\U{2007}', '\U{2008}', '\U{2009}', '\U{200A}', '\U{2028}',
          '\U{2029}', '\U{202F}', '\U{205F}', '\U{3000}', '\U{FEFF}'}
  }

  predicate AllWhitespace(s: string) {
    forall i :: 0 <= i < |s| ==> IsWhitespace(s[i])
  }

  /** Drops leading whitespace: the result is the longest suffix that does not start with whitespace. */
  function TrimStart(s: string): (r: string)
    ensures |r| <= |s| && r == s[|s| - |r|..]
    ensures |r| > 0 ==> !IsWhitespace(r[0])
    ensures forall i :: 0 <= i < |s| - |r| ==> IsWhitespace(s[i])
  {
    if |s| > 0 && IsWhitespace(s[0]) then
      var r := TrimStart(s[1..]);
      assert forall i :: 1 <= i < |s| - |r| ==> s[i] == s[1..][i - 1];
      r
    else s
  }

  /** Drops trailing whitespace: the result is the longest prefix that does not end with whitespace. */
  function TrimEnd(s: string): (r: string)
    ensures |r| <= |s| && r == s[..|r|]
    ensures |r| > 0 ==> !IsWhitespace(r[|r| - 1])
    ensures forall i :: |r| <= i < |s| ==> IsWhitespace(s[i])
  {
    if |s| > 0 && IsWhitespace(s[|s| - 1]) then
      var r := TrimEnd(s[..|s| - 1]);
      assert forall i :: |r| <= i < |s| - 1 ==> s[i] == s[..|s| - 1][i];
      r
    else s
  }

  /** `String.prototype.trim`: whitespace is removed from both ends, so the result
      neither starts nor ends with whitespace. */
  function Trim(s: string): (r: string)
    ensures |r| <= |s|
    ensures Trimmed(r)
  {
    var a := TrimStart(s);
    var r := TrimEnd(a);
    assert |r| > 0 ==> r[0] == a[0];
    r
  }

  /** Neither the first nor the last character is whitespace. */
  predicate Trimmed(s: string) {
    |s| == 0 || (!IsWhitespace(s[0]) && !IsWhitespace(s[|s| - 1]))
  }

  /** Trimming leaves a string unchanged exactly when it has no whitespace at either end. */
  lemma TrimmedFixed(s: string)
    ensures Trimmed(s) <==> Trim(s) == s
  {
    if Trimmed(s) && |s| > 0 {
      assert TrimStart(s) == s;
    }
  }

  /** The trimmed string is the slice of `s` at `i`, and everything cut away on either side is whitespace. */
  lemma TrimSlice(s: string) returns (i: nat)
    ensures i + |Trim(s)| <= |s| && Trim(s) == s[i..i + |Trim(s)|]
    ensures AllWhitespace(s[..i]) && AllWhitespace(s[i + |Trim(s)|..])
  {
    var a := TrimStart(s);
    var r := TrimEnd(a);
    assert Trim(s) == r;
    i := |s| - |a|;
    LeadingCut(s);
    TrailingCut(a);
    SliceOfSuffix(s, a, r);
  }

  lemma SliceOfSuffix(s: string, a: string, r: string)
    requires |a| <= |s| && a == s[|s| - |a|..]
    requires |r| <= |a| && r == a[..|r|]
    ensures s[|s| - |a|..|s| - |a| + |r|] == r && s[|s| - |a| + |r|..] == a[|r|..]
  {
  }

  lemma LeadingCut(s: string)
    ensures AllWhitespace(s[..|s| - |TrimStart(s)|])
  {
    var head := s[..|s| - |TrimStart(s)|];
    forall k | 0 <= k < |head|
      ensures IsWhitespace(head[k])
    {
      assert head[k] == s[k];
    }
  }

  lemma TrailingCut(a: string)
    ensures AllWhitespace(a[|TrimEnd(a)|..])
  {
    var tail := a[|TrimEnd(a)|..];
    forall k | 0 <= k < |tail|
      ensures IsWhitespace(tail[k])
    {
      assert tail[k] == a[|TrimEnd(a)| + k];
    }
  }

  /** A string trims to the empty string exactly when every character is whitespace. */
  lemma TrimEmptyIff(s: string)
    ensures Trim(s) == "" <==> AllWhitespace(s)
  {
    var a := TrimStart(s);
    if |a| > 0 {
      assert s[|s| - |a|] == a[0];
    }
  }

  /** A trimmed string is unchanged by trimming again. */
  lemma TrimIdempotent(s: string)
    ensures Trim(Trim(s)) == Trim(s)
  {
    var t := Trim(s);
    if |t| > 0 {
      assert !IsWhitespace(t[0]);
      assert TrimStart(t) == t;
      assert TrimEnd(t) == t;
    }
  }

  // ---------------------------------------------------------------------------
  // Prefixes and substring search
  // ---------------------------------------------------------------------------

  predicate StartsWith(s: string, prefix: string) {
    |prefix| <= |s| && s[..|prefix|] == prefix
  }

  /** `sep` occurs in `s` starting at index `i`. */
  predicate OccursAt(s: string, sep: string, i: int) {
    0 <= i && i + |sep| <= |s| && s[i..i + |sep|] == sep
  }

  predicate Contains(s: string, sep: string) {
    exists i :: 0 <= i <= |s| && OccursAt(s, sep, i)
  }

  /** The leftmost occurrence of `sep` at or after `from`. */
  function FindFrom(s: string, sep: string, from: nat): (r: Option<nat>)
    requires from <= |s|
    ensures r.Some? ==> from <= r.value && OccursAt(s, sep, r.value)
    ensures r.Some? ==> forall j :: from <= j < r.value ==> !OccursAt(s, sep, j)
    ensures r.None? ==> forall j :: from <= j ==> !OccursAt(s, sep, j)
    decreases |s| - from
  {
    if from + |sep| > |s| then None
    else if s[from..from + |sep|] == sep then Some(from)
    else FindFrom(s, sep, from + 1)
  }

  /** The leftmost occurrence of `sep` in `s`, as `String.prototype.indexOf` finds it. */
  function Find(s: string, sep: string): (r: Option<nat>)
    ensures r.Some? ==> OccursAt(s, sep, r.value) && forall j :: 0 <= j < r.value ==> !OccursAt(s, sep, j)
    ensures r.None? <==> !Contains(s, sep)
  {
    FindFrom(s, sep, 0)
  }

  /** A single character occurs as a one-character separator exactly when it is in the string. */
  lemma ContainsChar(s: string, c: char)
    ensures Contains(s, [c]) <==> c in s
  {
    if c in s {
      var i :| 0 <= i < |s| && s[i] == c;
      assert OccursAt(s, [c], i);
    }
    if Contains(s, [c]) {
      var i :| 0 <= i <= |s| && OccursAt(s, [c], i);
      assert s[i..i + 1][0] == s[i];
    }
  }

  /** An occurrence inside a prefix or a suffix of `s` is an occurrence in `s`. */
  lemma OccursInSlice(s: string, sep: string, lo: nat, hi: nat, j: int)
    requires lo <= hi <= |s|
    requires OccursAt(s[lo..hi], sep, j)
    ensures OccursAt(s, sep, lo + j)
  {
    var t := s[lo..hi];
    assert forall k :: 0 <= k < |sep| ==> s[lo + j + k] == t[j + k] == sep[k];
    assert s[lo + j..lo + j + |sep|] == sep;
  }

  // ---------------------------------------------------------------------------
  // split / join
  // ---------------------------------------------------------------------------

  /** `String.prototype.split(sep)` for a non-empty separator: the pieces between the
      leftmost non-overlapping occurrences of `sep`. */
  function Split(s: string, sep: string): (parts: seq<string>)
    requires |sep| > 0
    ensures |parts| >= 1
    ensures |parts| == 1 <==> !Contains(s, sep)
    ensures forall k :: 0 <= k < |parts| ==> !Contains(parts[k], sep)
    decreases |s|
  {
    match Find(s, sep)
    case None => [s]
    case Some(i) =>
      var rest := Split(s[i + |sep|..], sep);
      var parts := [s[..i]] + rest;
      assert !Contains(s[..i], sep) by {
        if Contains(s[..i], sep) {
          var j :| 0 <= j <= i && OccursAt(s[..i], sep, j);
          OccursInSlice(s, sep, 0, i, j);
        }
      }
      assert forall k :: 1 <= k < |parts| ==> parts[k] == rest[k - 1];
      parts
  }

  /** `Array.prototype.join(sep)`. */
  function Join(parts: seq<string>, sep: string): string
  {
    if |parts| == 0 then ""
    else if |parts| == 1 then parts[0]
    else parts[0] + sep + Join(parts[1..], sep)
  }

  /** A string is the concatenation of its three slices around two cut points. */
  lemma SliceThree(s: string, i: nat, j: nat)
    requires i <= j <= |s|
    ensures s == s[..i] + s[i..j] + s[j..]
  {
    assert s[..j] == s[..i] + s[i..j];
  }

  /** Joining the pieces of a split with the same separator gives back the string. */
  lemma {:induction false} JoinSplit(s: string, sep: string)
    requires |sep| > 0
    ensures Join(Split(s, sep), sep) == s
    decreases |s|
  {
    var f := Find(s, sep);
    if f.Some? {
      var i := f.value;
      var rest := s[i + |sep|..];
      JoinSplit(rest, sep);
      SplitFirst(s, sep);
      SplitRest(s, sep);
      var parts := Split(s, sep);
      assert |parts| >= 2;
      assert Join(parts, sep) == parts[0] + sep + Join(parts[1..], sep);
      SliceThree(s, i, i + |sep|);
    }
  }

  /** The first piece of a split is the text before the leftmost separator (all of `s` if none). */
  lemma SplitFirst(s: string, sep: string)
    requires |sep| > 0
    ensures Find(s, sep).None? ==> Split(s, sep)[0] == s
    ensures Find(s, sep).Some? ==> Split(s, sep)[0] == s[..Find(s, sep).value]
  {
  }

  /** After the first separator, the remaining pieces are the split of the rest. */
  lemma SplitRest(s: string, sep: string)
    requires |sep| > 0 && Find(s, sep).Some?
    ensures Split(s, sep)[1..] == Split(s[Find(s, sep).value + |sep|..], sep)
  {
  }

  /** Two non-overlapping occurrences of the separator give at least three pieces. */
  lemma TwoOccurrencesThreePieces(s: string, sep: string, i: int, j: int)
    requires |sep| > 0
    requires OccursAt(s, sep, i) && OccursAt(s, sep, j) && i + |sep| <= j
    ensures |Split(s, sep)| >= 3
  {
    var k := Find(s, sep).value;
    assert k <= i;
    var m := k + |sep|;
    OccursInSuffix(s, sep, m, j);
    assert Contains(s[m..], sep);
    SplitRest(s, sep);
    assert |Split(s[m..], sep)| >= 2;
  }

  /** An occurrence at or after `m` is an occurrence in the suffix from `m`. */
  lemma OccursInSuffix(s: string, sep: string, m: nat, j: int)
    requires m <= j && OccursAt(s, sep, j)
    ensures OccursAt(s[m..], sep, j - m)
  {
    assert s[m..][j - m..j - m + |sep|] == s[j..j + |sep|];
  }

  /** In a one-character-separated join of at least two pieces that avoid the separator,
      the first separator sits right after the first piece. */
  lemma FindCharInJoin(parts: seq<string>, c: char)
    requires |parts| >= 2
    requires c !in parts[0]
    ensures Find(Join(parts, [c]), [c]) == Some(|parts[0]|)
    ensures Join(parts, [c])[|parts[0]| + 1..] == Join(parts[1..], [c])
  {
    var s := Join(parts, [c]);
    var i := |parts[0]|;
    assert s == parts[0] + [c] + Join(parts[1..], [c]);
    assert OccursAt(s, [c], i);
    forall j | 0 <= j < i ensures !OccursAt(s, [c], j) {
      assert s[j..j + 1][0] == s[j] == parts[0][j];
    }
  }

  /** Splitting a one-character-separated join whose pieces avoid the separator gives back the pieces. */
  lemma {:induction false} SplitJoinChar(parts: seq<string>, c: char)
    requires |parts| >= 1
    requires forall k :: 0 <= k < |parts| ==> c !in parts[k]
    ensures Split(Join(parts, [c]), [c]) == parts
    decreases |parts|
  {
    var s := Join(parts, [c]);
    if |parts| == 1 {
      ContainsChar(s, c);
    } else {
      FindCharInJoin(parts, c);
      SplitJoinChar(parts[1..], c);
      assert Split(s, [c]) == [s[..|parts[0]|]] + Split(Join(parts[1..], [c]), [c]);
      assert s[..|parts[0]|] == parts[0];
      assert parts == [parts[0]] + parts[1..];
    }
  }

  /** Joining three pieces puts the separator between them. */
  lemma JoinThree(a: string, b: string, c: string, sep: string)
    ensures Join([a, b, c], sep) == a + sep + b + sep + c
  {
    var parts := [a, b, c];
    assert parts[1..] == [b, c];
    assert [b, c][1..] == [c];
    calc {
      Join(parts, sep);
      a + sep + Join([b, c], sep);
      a + sep + (b + sep + c);
      { assert a + sep + (b + sep + c) == a + sep + b + sep + c; }
      a + sep + b + sep + c;
    }
  }

  /** A character found in no piece and not in the separator is not in the join. */
  lemma {:induction false} NoCharInJoin(parts: seq<string>, sep: string, c: char)
    requires c !in sep
    requires forall k :: 0 <= k < |parts| ==> c !in parts[k]
    ensures c !in Join(parts, sep)
    decreases |parts|
  {
    if |parts| >= 2 {
      NoCharInJoin(parts[1..], sep, c);
      assert Join(parts, sep) == parts[0] + sep + Join(parts[1..], sep);
    }
  }

  // ---------------------------------------------------------------------------
  // Decimal rendering: String(n) and padStart
  // ---------------------------------------------------------------------------

  predicate IsDigit(c: char) {
    '0' <= c <= '9'
  }

  predicate AllDigits(s: string) {
    forall i :: 0 <= i < |s| ==> IsDigit(s[i])
  }

  function DigitChar(d: nat): (c: char)
    requires d < 10
    ensures IsDigit(c)
  {
    ('0' as int + d) as char
  }

  function DigitValue(c: char): (d: nat)
    requires IsDigit(c)
    ensures d < 10 && DigitChar(d) == c
  {
    (c as int - '0' as int) as nat
  }

  /** `String(n)` for a non-negative integer: decimal digits, no leading zero. */
  function NatToString(n: nat): (r: string)
    ensures |r| >= 1 && AllDigits(r)
    ensures |r| > 1 ==> r[0] != '0'
  {
    if n < 10 then [DigitChar(n)]
    else
      var r := NatToString(n / 10) + [DigitChar(n % 10)];
      assert r[0] == NatToString(n / 10)[0];
      r
  }

  /** The value of a run of decimal digits. */
  function ParseNat(s: string): nat
    requires AllDigits(s)
  {
    if |s| == 0 then 0
    else ParseNat(s[..|s| - 1]) * 10 + DigitValue(s[|s| - 1])
  }

  /** Reading back the decimal rendering of `n` gives `n`. */
  lemma {:induction false} ParseNatToString(n: nat)
    ensures ParseNat(NatToString(n)) == n
  {
    if n >= 10 {
      var r := NatToString(n);
      assert r[..|r| - 1] == NatToString(n / 10);
      ParseNatToString(n / 10);
    }
  }

  /** The decimal rendering of `n` has exactly `k` digits when 10^(k-1) <= n < 10^k; stated for the widths used here. */
  lemma {:induction false} NatToStringLength(n: nat)
    ensures n < 10 ==> |NatToString(n)| == 1
    ensures 10 <= n < 100 ==> |NatToString(n)| == 2
    ensures 100 <= n < 1000 ==> |NatToString(n)| == 3
    ensures 1000 <= n < 10000 ==> |NatToString(n)| == 4
  {
    if n >= 10 {
      NatToStringLength(n / 10);
    }
  }

  /** `String(n)` for any integer: a minus sign before the digits of a negative number. */
  function IntToString(n: int): (r: string)
    ensures n >= 0 ==> r == NatToString(n)
    ensures n < 0 ==> |r| >= 2 && r[0] == '-' && r[1..] == NatToString(-n)
  {
    if n < 0 then "-" + NatToString(-n) else NatToString(n)
  }

  function Repeat(c: char, n: nat): (r: string)
    ensures |r| == n && forall i :: 0 <= i < n ==> r[i] == c
  {
    if n == 0 then "" else [c] + Repeat(c, n - 1)
  }

  /** `s.padStart(width, c)`: `c` repeated in front until the length reaches `width`. */
  function PadStart(s: string, width: nat, c: char): (r: string)
    ensures |r| == if |s| >= width then |s| else width
    ensures r[|r| - |s|..] == s
    ensures forall i :: 0 <= i < |r| - |s| ==> r[i] == c
  {
    if |s| >= width then s else Repeat(c, width - |s|) + s
  }

  /** `a || b` on strings. */
  function Or(a: string, b: string): (r: string)
    ensures r == a || r == b
    ensures a != "" ==> r == a
    ensures r == "" <==> a == "" && b == ""
  {
    if a != "" then a else b
  }
}

=== FILE: task_routes.dfy ===
/**
  The task HTTP handlers of `src/features/tasks/server/route.ts` after request validation:
  the list query the GET handler builds and how it populates the results, the position a
  created task receives, what a PATCH writes, the lock and role gates, the notification
  fan-out after an update, and the DELETE gates.

  The database and the user directory are parameters: the task, project and member
  collections are sequences of documents, the task collection listed newest first;
  `listDocuments` is a filter over a collection, `getDocument` by id finds the document
  with that `$id` (a missing id throws, and a thrown error becomes a 500 reply), and
  `getMember` is taken to be the requester's first membership document in the workspace.
 */
module TaskRoutes {
  import opened Wrappers
  import opened Seqs
  import opened Strings
  import opened TaskTypes
  import opened TaskSchemas
  import opened MemberRoutes
  import Hub

  const Forbidden := 403

  /** A JavaScript truthiness test on an optional string: present and non-empty. */
  predicate Truthy(v: Option<string>) {
    v.Some? && v.value != ""
  }

  // ---------------------------------------------------------------------------
  // GET: the list query
  // ---------------------------------------------------------------------------

  /** The task attributes a query can name. */
  datatype Attribute =
    | WorkspaceIdAttr | CreatedAtAttr | ProjectIdAttr | StatusAttr | AssigneeIdAttr
    | DueDateAttr | NameAttr | PriorityAttr | AssigneesIdAttr | PositionAttr
    | DescriptionAttr | LockedAttr

  /** The `Query.*` builders the handlers use. */
  datatype Clause =
    | Equal(attribute: Attribute, value: string)
    | ContainsValue(attribute: Attribute, value: string)
    | SearchText(attribute: Attribute, value: string)
    | OrderDesc(attribute: Attribute)
    | OrderAsc(attribute: Attribute)
    | Limit(count: nat)

  /** The `assigneesId` query parameter: an array of ids or one id. */
  datatype AssigneesFilter = IdList(ids: seq<string>) | OneId(id: string)

  /** The validated GET query; `null` and an absent parameter are both `None`, as both are falsy. */
  datatype ListParams = ListParams(
    workspaceId: string,
    projectId: Option<string>,
    assigneeId: Option<string>,
    status: Option<TaskStatus>,
    search: Option<string>,
    dueDate: Option<string>,
    priority: Option<TaskPriority>,
    assigneesId: Option<AssigneesFilter>)

  /** The place of each attribute in the order the GET handler pushes its clauses. */
  function AttributeRank(a: Attribute): nat {
    match a
    case WorkspaceIdAttr => 0
    case CreatedAtAttr => 1
    case ProjectIdAttr => 2
    case StatusAttr => 3
    case AssigneeIdAttr => 4
    case DueDateAttr => 5
    case NameAttr => 6
    case PriorityAttr => 7
    case AssigneesIdAttr => 8
    case PositionAttr => 9
    case DescriptionAttr => 10
    case LockedAttr => 11
  }

  function Rank(c: Clause): nat {
    if c.Limit? then 12 else AttributeRank(c.attribute)
  }

  /** The clauses appear in the handler's fixed attribute order. */
  predicate Ordered(q: seq<Clause>) {
    forall i, j :: 0 <= i < j < |q| ==> Rank(q[i]) <= Rank(q[j])
  }

  /** Every clause of `q` has rank exactly `k`. */
  predicate RankedAt(q: seq<Clause>, k: nat) {
    forall i :: 0 <= i < |q| ==> Rank(q[i]) == k
  }

  /** The last clause of a non-empty query has rank at most `k`. */
  predicate EndsAtMost(q: seq<Clause>, k: nat) {
    |q| > 0 ==> Rank(q[|q| - 1]) <= k
  }

  /** Appending clauses of rank `k` to an ordered query that ends at rank at most `k` keeps it ordered. */
  lemma AppendOrdered(a: seq<Clause>, b: seq<Clause>, k: nat)
    requires Ordered(a) && EndsAtMost(a, k) && RankedAt(b, k)
    ensures Ordered(a + b) && EndsAtMost(a + b, k)
  {
    var q := a + b;
    forall i, j | 0 <= i < j < |q| ensures Rank(q[i]) <= Rank(q[j]) {
      if j < |a| {
        assert q[i] == a[i] && q[j] == a[j];
      } else if i < |a| {
        assert q[i] == a[i] && q[j] == b[j - |a|];
        assert Rank(a[i]) <= Rank(a[|a| - 1]);
      } else {
        assert q[i] == b[i - |a|] && q[j] == b[j - |a|];
      }
    }
    if |b| > 0 {
      assert q[|q| - 1] == b[|b| - 1];
    } else {
      assert q == a;
    }
  }

  /** One `Query.equal` clause when the value is truthy. */
  function OptEqual(a: Attribute, v: Option<string>): (q: seq<Clause>)
    ensures RankedAt(q, AttributeRank(a))
    ensures |q| == Indicator(Truthy(v))
  {
    if Truthy(v) then [Equal(a, v.value)] else []
  }

  function StatusClause(s: Option<TaskStatus>): (q: seq<Clause>)
    ensures RankedAt(q, AttributeRank(StatusAttr))
    ensures |q| == Indicator(s.Some?)
  {
    if s.Some? then [Equal(StatusAttr, StatusValue(s.value))] else []
  }

  function SearchClause(s: Option<string>): (q: seq<Clause>)
    ensures RankedAt(q, AttributeRank(NameAttr))
    ensures |q| == Indicator(Truthy(s))
  {
    if Truthy(s) then [SearchText(NameAttr, s.value)] else []
  }

  function PriorityClause(p: Option<TaskPriority>): (q: seq<Clause>)
    ensures RankedAt(q, AttributeRank(PriorityAttr))
    ensures |q| == Indicator(p.Some?)
  {
    if p.Some? then [Equal(PriorityAttr, PriorityValue(p.value))] else []
  }

  /** An array (even an empty one) is truthy and gives one `contains` clause per element;
      a single id gives one clause when it is non-empty. */
  function AssigneeClauses(f: Option<AssigneesFilter>): (q: seq<Clause>)
    ensures RankedAt(q, AttributeRank(AssigneesIdAttr))
    ensures |q| == AssigneeClauseCount(f)
  {
    match f
    case None => []
    case Some(IdList(ids)) => Map(ids, (id: string) => ContainsValue(AssigneesIdAttr, id))
    case Some(OneId(id)) => if id != "" then [ContainsValue(AssigneesIdAttr, id)] else []
  }

  function AssigneeClauseCount(f: Option<AssigneesFilter>): nat {
    match f
    case None => 0
    case Some(IdList(ids)) => |ids|
    case Some(OneId(id)) => if id != "" then 1 else 0
  }

  function Indicator(b: bool): nat {
    if b then 1 else 0
  }

  /** How many filters of the query are in force. */
  function FilterCount(p: ListParams): nat {
    Indicator(Truthy(p.projectId)) + Indicator(p.status.Some?) + Indicator(Truthy(p.assigneeId))
    + Indicator(Truthy(p.dueDate)) + Indicator(Truthy(p.search)) + Indicator(p.priority.Some?)
    + AssigneeClauseCount(p.assigneesId)
  }

  /** The first part of the GET query: the workspace filter, the newest-first ordering,
      and the equality filters on project, status, assignee and due date. */
  function EqualityClauses(p: ListParams): (q: seq<Clause>)
    ensures |q| >= 2 && q[0] == Equal(WorkspaceIdAttr, p.workspaceId) && q[1] == OrderDesc(CreatedAtAttr)
  {
    [Equal(WorkspaceIdAttr, p.workspaceId), OrderDesc(CreatedAtAttr)]
    + OptEqual(ProjectIdAttr, p.projectId)
    + StatusClause(p.status)
    + OptEqual(AssigneeIdAttr, p.assigneeId)
    + OptEqual(DueDateAttr, p.dueDate)
  }

  /** The query the GET handler sends to `listDocuments`. */
  function ListQuery(p: ListParams): (q: seq<Clause>)
    ensures |q| >= 2 && q[0] == Equal(WorkspaceIdAttr, p.workspaceId) && q[1] == OrderDesc(CreatedAtAttr)
  {
    EqualityClauses(p)
    + SearchClause(p.search)
    + PriorityClause(p.priority)
    + AssigneeClauses(p.assigneesId)
  }

  lemma EqualityClausesOrdered(p: ListParams)
    ensures Ordered(EqualityClauses(p)) && EndsAtMost(EqualityClauses(p), 5)
  {
    var q1 := [Equal(WorkspaceIdAttr, p.workspaceId), OrderDesc(CreatedAtAttr)];
    var q2 := q1 + OptEqual(ProjectIdAttr, p.projectId);
    var q3 := q2 + StatusClause(p.status);
    var q4 := q3 + OptEqual(AssigneeIdAttr, p.assigneeId);
    assert Ordered(q1) && EndsAtMost(q1, 2) by {
      assert q1[1] == OrderDesc(CreatedAtAttr);
    }
    AppendOrdered(q1, OptEqual(ProjectIdAttr, p.projectId), 2);
    AppendOrdered(q2, StatusClause(p.status), 3);
    AppendOrdered(q3, OptEqual(AssigneeIdAttr, p.assigneeId), 4);
    AppendOrdered(q4, OptEqual(DueDateAttr, p.dueDate), 5);
  }

  /** The GET query's clauses follow the handler's fixed attribute order: workspace, the
      newest-first ordering, project, status, assignee, due date, name search, priority,
      then the `assigneesId` clauses. */
  lemma ListQueryOrdered(p: ListParams)
    ensures Ordered(ListQuery(p))
  {
    var q5 := EqualityClauses(p);
    var q6 := q5 + SearchClause(p.search);
    var q7 := q6 + PriorityClause(p.priority);
    EqualityClausesOrdered(p);
    AppendOrdered(q5, SearchClause(p.search), 6);
    AppendOrdered(q6, PriorityClause(p.priority), 7);
    AppendOrdered(q7, AssigneeClauses(p.assigneesId), 8);
    assert ListQuery(p) == q7 + AssigneeClauses(p.assigneesId);
  }

  /** Besides the two fixed clauses, the GET query has one clause per truthy filter and one
      per `assigneesId` entry. */
  lemma ListQueryLength(p: ListParams)
    ensures |ListQuery(p)| == 2 + FilterCount(p)
  {
  }

  // ---------------------------------------------------------------------------
  // GET: what the query selects
  // ---------------------------------------------------------------------------

  /** The string value of a scalar attribute of a task document. */
  function AttrValue(t: Task, a: Attribute): Option<string> {
    match a
    case WorkspaceIdAttr => Some(t.workspaceId)
    case ProjectIdAttr => Some(t.projectId)
    case StatusAttr => Some(StatusValue(t.status))
    case AssigneeIdAttr => Some(t.assigneeId)
    case DueDateAttr => Some(t.dueDate)
    case NameAttr => Some(t.name)
    case PriorityAttr => Some(PriorityValue(t.priority))
    case _ => None
  }

  /** Whether a document passes one clause. `Query.search` is full-text matching, given by
      `hit(text, term)`; ordering and limit clauses select nothing away. */
  predicate Satisfies(t: Task, c: Clause, hit: (string, string) -> bool) {
    match c
    case Equal(a, v) => AttrValue(t, a) == Some(v)
    case ContainsValue(a, v) => a == AssigneesIdAttr && v in t.assigneesId
    case SearchText(a, v) => AttrValue(t, a).Some? && hit(AttrValue(t, a).value, v)
    case _ => true
  }

  predicate MatchesAll(t: Task, q: seq<Clause>, hit: (string, string) -> bool) {
    forall i :: 0 <= i < |q| ==> Satisfies(t, q[i], hit)
  }

  /** The tasks the GET request asks for, stated filter by filter. */
  predicate Wanted(t: Task, p: ListParams, hit: (string, string) -> bool) {
    && t.workspaceId == p.workspaceId
    && (Truthy(p.projectId) ==> t.projectId == p.projectId.value)
    && (p.status.Some? ==> t.status == p.status.value)
    && (Truthy(p.assigneeId) ==> t.assigneeId == p.assigneeId.value)
    && (Truthy(p.dueDate) ==> t.dueDate == p.dueDate.value)
    && (Truthy(p.search) ==> hit(t.name, p.search.value))
    && (p.priority.Some? ==> t.priority == p.priority.value)
    && AssigneesWanted(t, p.assigneesId)
  }

  predicate AssigneesWanted(t: Task, f: Option<AssigneesFilter>) {
    match f
    case None => true
    case Some(IdList(ids)) => forall i :: 0 <= i < |ids| ==> ids[i] in t.assigneesId
    case Some(OneId(id)) => id != "" ==> id in t.assigneesId
  }

  lemma MatchesAllConcat(t: Task, a: seq<Clause>, b: seq<Clause>, hit: (string, string) -> bool)
    ensures MatchesAll(t, a + b, hit) <==> MatchesAll(t, a, hit) && MatchesAll(t, b, hit)
  {
    if MatchesAll(t, a, hit) && MatchesAll(t, b, hit) {
      forall i | 0 <= i < |a + b| ensures Satisfies(t, (a + b)[i], hit) {
        if i >= |a| {
          assert (a + b)[i] == b[i - |a|];
        }
      }
    }
    if MatchesAll(t, a + b, hit) {
      forall i | 0 <= i < |a| ensures Satisfies(t, a[i], hit) {
        assert (a + b)[i] == a[i];
      }
      forall i | 0 <= i < |b| ensures Satisfies(t, b[i], hit) {
        assert (a + b)[|a| + i] == b[i];
      }
    }
  }

  lemma AssigneeClausesMeaning(t: Task, f: Option<AssigneesFilter>, hit: (string, string) -> bool)
    ensures MatchesAll(t, AssigneeClauses(f), hit) <==> AssigneesWanted(t, f)
  {
    match f
    case None =>
    case Some(IdList(ids)) =>
      var q := AssigneeClauses(f);
      assert forall i :: 0 <= i < |ids| ==> q[i] == ContainsValue(AssigneesIdAttr, ids[i]);
    case Some(OneId(id)) =>
      if id != "" {
        assert AssigneeClauses(f)[0] == ContainsValue(AssigneesIdAttr, id);
      }
  }

  lemma OptEqualMeaning(t: Task, a: Attribute, v: Option<string>, hit: (string, string) -> bool)
    ensures MatchesAll(t, OptEqual(a, v), hit) <==> (Truthy(v) ==> AttrValue(t, a) == Some(v.value))
  {
    if Truthy(v) {
      assert OptEqual(a, v)[0] == Equal(a, v.value);
    }
  }

  lemma StatusClauseMeaning(t: Task, s: Option<TaskStatus>, hit: (string, string) -> bool)
    ensures MatchesAll(t, StatusClause(s), hit) <==> (s.Some? ==> t.status == s.value)
  {
    if s.Some? {
      assert StatusClause(s)[0] == Equal(StatusAttr, StatusValue(s.value));
      StatusRoundTrip(t.status, s.value);
    }
  }

  lemma SearchClauseMeaning(t: Task, s: Option<string>, hit: (string, string) -> bool)
    ensures MatchesAll(t, SearchClause(s), hit) <==> (Truthy(s) ==> hit(t.name, s.value))
  {
    if Truthy(s) {
      assert SearchClause(s)[0] == SearchText(NameAttr, s.value);
    }
  }

  lemma PriorityClauseMeaning(t: Task, pr: Option<TaskPriority>, hit: (string, string) -> bool)
    ensures MatchesAll(t, PriorityClause(pr), hit) <==> (pr.Some? ==> t.priority == pr.value)
  {
    if pr.Some? {
      assert PriorityClause(pr)[0] == Equal(PriorityAttr, PriorityValue(pr.value));
      PriorityRoundTrip(t.priority, pr.value);
    }
  }

  lemma HeadMeaning(t: Task, w: string, hit: (string, string) -> bool)
    ensures MatchesAll(t, [Equal(WorkspaceIdAttr, w), OrderDesc(CreatedAtAttr)], hit) <==> t.workspaceId == w
  {
    var head := [Equal(WorkspaceIdAttr, w), OrderDesc(CreatedAtAttr)];
    assert head[0] == Equal(WorkspaceIdAttr, w) && head[1] == OrderDesc(CreatedAtAttr);
  }

  /** A task passes every clause of the GET query exactly when it is one the request asks
      for: in the workspace, and matching each filter that is in force. */
  lemma ListQueryMeaning(p: ListParams, t: Task, hit: (string, string) -> bool)
    ensures MatchesAll(t, ListQuery(p), hit) <==> Wanted(t, p, hit)
  {
    var head := [Equal(WorkspaceIdAttr, p.workspaceId), OrderDesc(CreatedAtAttr)];
    var a := OptEqual(ProjectIdAttr, p.projectId);
    var b := StatusClause(p.status);
    var c := OptEqual(AssigneeIdAttr, p.assigneeId);
    var d := OptEqual(DueDateAttr, p.dueDate);
    var e := SearchClause(p.search);
    var f := PriorityClause(p.priority);
    var g := AssigneeClauses(p.assigneesId);
    assert ListQuery(p) == head + a + b + c + d + e + f + g by {
      assert EqualityClauses(p) == head + a + b + c + d;
    }
    MatchesAllConcat(t, head + a + b + c + d + e + f, g, hit);
    MatchesAllConcat(t, head + a + b + c + d + e, f, hit);
    MatchesAllConcat(t, head + a + b + c + d, e, hit);
    MatchesAllConcat(t, head + a + b + c, d, hit);
    MatchesAllConcat(t, head + a + b, c, hit);
    MatchesAllConcat(t, head + a, b, hit);
    MatchesAllConcat(t, head, a, hit);
    HeadMeaning(t, p.workspaceId, hit);
    OptEqualMeaning(t, ProjectIdAttr, p.projectId, hit);
    StatusClauseMeaning(t, p.status, hit);
    OptEqualMeaning(t, AssigneeIdAttr, p.assigneeId, hit);
    OptEqualMeaning(t, DueDateAttr, p.dueDate, hit);
    SearchClauseMeaning(t, p.search, hit);
    PriorityClauseMeaning(t, p.priority, hit);
    AssigneeClausesMeaning(t, p.assigneesId, hit);
  }

  // ---------------------------------------------------------------------------
  // GET: populating the results
  // ---------------------------------------------------------------------------

  datatype Project = Project(id: string, name: string)

  /** A member document with the display `name` and `email` of its user. */
  datatype Assignee = Assignee(member: Member, name: string, email: string)

  /** A listed task with the project and the assignee whose ids it carries, when found. */
  datatype PopulatedTask = PopulatedTask(task: Task, project: Option<Project>, assignee: Option<Assignee>)

  /** `getMember`: the requester's first membership document in the workspace. */
  function GetMember(members: seq<Member>, workspaceId: string, userId: string): (r: Option<Member>)
    ensures r.Some? <==> IsMember(members, workspaceId, userId)
    ensures r.Some? ==> r.value.workspaceId == workspaceId && r.value.userId == userId
  {
    var mine := Memberships(members, workspaceId, userId);
    MembershipsMeaning(members, workspaceId, userId);
    if |mine| > 0 then Some(mine[0]) else None
  }

  function TaskById(tasks: seq<Task>, id: string): (r: Option<Task>)
    ensures r.Some? ==> r.value in tasks && r.value.id == id
    ensures r.None? <==> forall j :: 0 <= j < |tasks| ==> tasks[j].id != id
  {
    FindFirst(tasks, (t: Task) => t.id == id)
  }

  function ProjectById(projects: seq<Project>, id: string): (r: Option<Project>)
    ensures r.Some? ==> r.value in projects && r.value.id == id
    ensures r.None? <==> forall j :: 0 <= j < |projects| ==> projects[j].id != id
  {
    FindFirst(projects, (pr: Project) => pr.id == id)
  }

  function AssigneeById(assignees: seq<Assignee>, id: string): (r: Option<Assignee>)
    ensures r.Some? ==> r.value in assignees && r.value.member.id == id
    ensures r.None? <==> forall j :: 0 <= j < |assignees| ==> assignees[j].member.id != id
  {
    FindFirst(assignees, (a: Assignee) => a.member.id == id)
  }

  /** `s.substring(0, n)`: the first `n` characters, or all of a shorter string. */
  function Prefix(s: string, n: nat): (r: string)
    ensures |r| <= n && r <= s
    ensures |s| >= n ==> |r| == n
  {
    if |s| <= n then s else s[..n]
  }

  /** The assignee entry for a member: the user's name and email when `users.get` succeeds;
      otherwise the member's own name, or "User " and the first eight characters of the
      user id when the member has none, with the placeholder email. */
  function ResolveAssignee(m: Member, users: map<string, UserInfo>): (a: Assignee)
    ensures a.member == m
    ensures m.userId in users ==> a.name == users[m.userId].name && a.email == users[m.userId].email
    ensures m.userId !in users ==> a.email == UnknownEmail && a.name != ""
    ensures m.userId !in users && m.name != "" ==> a.name == m.name
    ensures m.userId !in users && m.name == "" ==> a.name == "User " + Prefix(m.userId, 8)
  {
    if m.userId in users then Assignee(m, users[m.userId].name, users[m.userId].email)
    else Assignee(m, Or(m.name, "User " + Prefix(m.userId, 8)), UnknownEmail)
  }

  function ResolveAll(members: seq<Member>, users: map<string, UserInfo>): (r: seq<Assignee>)
    ensures |r| == |members|
  {
    Map(members, (m: Member) => ResolveAssignee(m, users))
  }

  /** The projects query: documents whose id is among the tasks' project ids, or every
      project when there are no tasks. */
  function FetchedProjects(projects: seq<Project>, ids: seq<string>): seq<Project> {
    if |ids| > 0 then Filter(projects, (pr: Project) => pr.id in ids) else projects
  }

  /** The members query, built the same way from the tasks' assignee ids. */
  function FetchedMembers(members: seq<Member>, ids: seq<string>): seq<Member> {
    if |ids| > 0 then Filter(members, (m: Member) => m.id in ids) else members
  }

  /** Each task with `find` applied to the fetched projects and assignees. */
  function Populate(tasks: seq<Task>, projects: seq<Project>, assignees: seq<Assignee>): (r: seq<PopulatedTask>)
    ensures |r| == |tasks|
    ensures forall i :: 0 <= i < |tasks| ==> r[i].task == tasks[i]
    ensures forall i :: 0 <= i < |tasks| ==>
              r[i].project == ProjectById(projects, tasks[i].projectId)
              && r[i].assignee == AssigneeById(assignees, tasks[i].assigneeId)
  {
    if |tasks| == 0 then []
    else
      [PopulatedTask(tasks[0], ProjectById(projects, tasks[0].projectId), AssigneeById(assignees, tasks[0].assigneeId))]
      + Populate(tasks[1..], projects, assignees)
  }

  /** The tasks the list query selects, in store order. */
  function Selected(store: seq<Task>, p: ListParams, hit: (string, string) -> bool): seq<Task> {
    Filter(store, (t: Task) => MatchesAll(t, ListQuery(p), hit))
  }

  /** The tasks the request asks for, in store order. */
  function Requested(store: seq<Task>, p: ListParams, hit: (string, string) -> bool): (r: seq<Task>)
    ensures forall i :: 0 <= i < |r| ==> r[i] in store && Wanted(r[i], p, hit)
    ensures forall i :: 0 <= i < |store| && Wanted(store[i], p, hit) ==> store[i] in r
  {
    Filter(store, (t: Task) => Wanted(t, p, hit))
  }

  /** The database selects exactly the requested tasks. */
  lemma {:induction false} SelectedIsRequested(store: seq<Task>, p: ListParams, hit: (string, string) -> bool)
    ensures Selected(store, p, hit) == Requested(store, p, hit)
    decreases |store|
  {
    if |store| > 0 {
      SelectedIsRequested(store[1..], p, hit);
      ListQueryMeaning(p, store[0], hit);
    }
  }

  /** Restricting the projects to the tasks' ids loses none a task refers to. */
  lemma {:induction false} FetchedProjectFound(projects: seq<Project>, ids: seq<string>, id: string)
    requires id in ids
    ensures ProjectById(FetchedProjects(projects, ids), id) == ProjectById(projects, id)
    decreases |projects|
  {
    if |projects| > 0 {
      FetchedProjectFound(projects[1..], ids, id);
      var rest := FetchedProjects(projects[1..], ids);
      if projects[0].id in ids {
        var f := [projects[0]] + rest;
        assert FetchedProjects(projects, ids) == f;
        assert f[1..] == rest;
      } else {
        assert FetchedProjects(projects, ids) == rest;
      }
    }
  }

  /** Restricting the members to the tasks' ids loses none a task refers to. */
  lemma {:induction false} FetchedMemberFound(members: seq<Member>, ids: seq<string>, id: string)
    requires id in ids
    ensures MemberById(FetchedMembers(members, ids), id) == MemberById(members, id)
    decreases |members|
  {
    if |members| > 0 {
      FetchedMemberFound(members[1..], ids, id);
      var rest := FetchedMembers(members[1..], ids);
      if members[0].id in ids {
        var f := [members[0]] + rest;
        assert FetchedMembers(members, ids) == f;
        assert f[1..] == rest;
      } else {
        assert FetchedMembers(members, ids) == rest;
      }
    }
  }

  /** The assignee found for an id is the resolved entry of the first member with that id. */
  lemma {:induction false} AssigneeOfMember(members: seq<Member>, users: map<string, UserInfo>, id: string)
    ensures var a := AssigneeById(ResolveAll(members, users), id);
            a.Some? == MemberById(members, id).Some?
            && (a.Some? ==> a.value == ResolveAssignee(MemberById(members, id).value, users))
    decreases |members|
  {
    if |members| > 0 {
      AssigneeOfMember(members[1..], users, id);
      assert ResolveAll(members, users)[1..] == ResolveAll(members[1..], users);
    }
  }

  /** The GET handler: 401 for a requester outside the workspace, before any task is read;
      otherwise the selected tasks, each populated. */
  function ListTasks(p: ListParams, userId: string, store: seq<Task>, projects: seq<Project>,
                     members: seq<Member>, users: map<string, UserInfo>, hit: (string, string) -> bool)
    : (r: Result<seq<PopulatedTask>, int>)
    ensures r.Err? ==> r.error == Unauthorized
  {
    if GetMember(members, p.workspaceId, userId).None? then Err(Unauthorized)
    else
      var tasks := Selected(store, p, hit);
      var projectIds := Map(tasks, (t: Task) => t.projectId);
      var assigneeIds := Map(tasks, (t: Task) => t.assigneeId);
      var assignees := ResolveAll(FetchedMembers(members, assigneeIds), users);
      Ok(Populate(tasks, FetchedProjects(projects, projectIds), assignees))
  }

  /** A workspace member gets the requested tasks in store order, newest first; each carries
      the first project whose id is the task's project id, and the resolved entry of the
      first member whose id is the task's assignee id. A non-member gets 401. */
  lemma ListTasksMeaning(p: ListParams, userId: string, store: seq<Task>, projects: seq<Project>,
                         members: seq<Member>, users: map<string, UserInfo>, hit: (string, string) -> bool)
    ensures ListTasks(p, userId, store, projects, members, users, hit).Err?
            <==> !IsMember(members, p.workspaceId, userId)
    ensures var r := ListTasks(p, userId, store, projects, members, users, hit);
            r.Ok? ==> |r.value| == |Requested(store, p, hit)|
                      && forall i :: 0 <= i < |r.value| ==> r.value[i].task == Requested(store, p, hit)[i]
    ensures var r := ListTasks(p, userId, store, projects, members, users, hit);
            r.Ok? ==> forall i :: 0 <= i < |r.value| ==>
                        && r.value[i].project == ProjectById(projects, r.value[i].task.projectId)
                        && r.value[i].assignee.Some? == MemberById(members, r.value[i].task.assigneeId).Some?
                        && (r.value[i].assignee.Some? ==>
                              r.value[i].assignee.value == ResolveAssignee(MemberById(members, r.value[i].task.assigneeId).value, users))
  {
    var r := ListTasks(p, userId, store, projects, members, users, hit);
    if r.Ok? {
      var tasks := Selected(store, p, hit);
      SelectedIsRequested(store, p, hit);
      var projectIds := Map(tasks, (t: Task) => t.projectId);
      var assigneeIds := Map(tasks, (t: Task) => t.assigneeId);
      assert r.value == Populate(tasks, FetchedProjects(projects, projectIds), ResolveAll(FetchedMembers(members, assigneeIds), users));
      forall i | 0 <= i < |r.value|
        ensures r.value[i].project == ProjectById(projects, r.value[i].task.projectId)
        ensures r.value[i].assignee.Some? == MemberById(members, r.value[i].task.assigneeId).Some?
        ensures r.value[i].assignee.Some? ==>
                  r.value[i].assignee.value == ResolveAssignee(MemberById(members, r.value[i].task.assigneeId).value, users)
      {
        assert projectIds[i] == tasks[i].projectId && assigneeIds[i] == tasks[i].assigneeId;
        FetchedProjectFound(projects, projectIds, tasks[i].projectId);
        FetchedMemberFound(members, assigneeIds, tasks[i].assigneeId);
        AssigneeOfMember(FetchedMembers(members, assigneeIds), users, tasks[i].assigneeId);
      }
    }
  }

  // ---------------------------------------------------------------------------
  // POST: the new task's position
  // ---------------------------------------------------------------------------

  function MinOf(s: seq<int>): (m: int)
    requires |s| > 0
    ensures m in s && forall i :: 0 <= i < |s| ==> m <= s[i]
  {
    if |s| == 1 then s[0]
    else
      var rest := MinOf(s[1..]);
      if s[0] <= rest then s[0] else rest
  }

  function MaxOf(s: seq<int>): (m: int)
    requires |s| > 0
    ensures m in s && forall i :: 0 <= i < |s| ==> s[i] <= m
  {
    if |s| == 1 then s[0]
    else
      var rest := MaxOf(s[1..]);
      if s[0] >= rest then s[0] else rest
  }

  /** A task of the given workspace with the given status: one of the column's tasks. */
  predicate InColumn(t: Task, workspaceId: string, status: TaskStatus) {
    t.workspaceId == workspaceId && t.status == status
  }

  /** The positions of the tasks in the workspace that have the given status: every such
      task's position is fetched, and nothing else is. */
  function ColumnPositions(store: seq<Task>, workspaceId: string, status: TaskStatus): (r: seq<int>)
    ensures forall i :: 0 <= i < |store| && InColumn(store[i], workspaceId, status) ==> store[i].position in r
    ensures forall k :: 0 <= k < |r| ==> exists t :: t in store && InColumn(t, workspaceId, status) && t.position == r[k]
  {
    var column := Filter(store, (t: Task) => InColumn(t, workspaceId, status));
    var r := Map(column, (t: Task) => t.position);
    assert forall k :: 0 <= k < |column| ==> r[k] == column[k].position;
    forall k | 0 <= k < |r|
      ensures exists t :: t in store && InColumn(t, workspaceId, status) && t.position == r[k]
    {
      var t := column[k];
      assert t in store && InColumn(t, workspaceId, status) && t.position == r[k];
    }
    r
  }

  /** The position as the handler computes it: the query orders the column by ascending
      position and keeps one document, so the base is the lowest position, not the highest. */
  function PositionAsWritten(positions: seq<int>): (r: int)
    ensures |positions| > 0 ==> r - 1000 in positions && forall i :: 0 <= i < |positions| ==> r - 1000 <= positions[i]
    ensures |positions| == 0 ==> r == 1000
  {
    if |positions| > 0 then MinOf(positions) + 1000 else 1000
  }

  /** Creating three tasks in an empty column gives positions 1000, 2000 and 2000: the third
      task lands on the second one's position. */
  lemma PositionAsWrittenCollides()
    ensures PositionAsWritten([]) == 1000
    ensures PositionAsWritten([1000]) == 2000
    ensures PositionAsWritten([1000, 2000]) == 2000
  {
    assert MinOf([1000, 2000]) == 1000 by {
      assert [1000, 2000][1..] == [2000];
    }
  }

  /** Whenever the lowest position plus 1000 is already taken, the handler reuses it. */
  lemma PositionAsWrittenReuses(positions: seq<int>)
    requires |positions| > 0 && MinOf(positions) + 1000 in positions
    ensures PositionAsWritten(positions) in positions
  {
  }

  /** The evidently intended position: 1000 above the highest in the column, so the new task
      goes last and takes no position already in use. */
  function NewPosition(positions: seq<int>): (r: int)
    ensures forall i :: 0 <= i < |positions| ==> positions[i] < r
    ensures |positions| > 0 ==> r - 1000 in positions
    ensures |positions| == 0 ==> r == 1000
  {
    if |positions| > 0 then MaxOf(positions) + 1000 else 1000
  }

  /** The created document: the validated fields (the schema has already dropped any
      `assigneeId`, so none is written) and the position. */
  datatype NewTaskDocument = NewTaskDocument(fields: CreateTask, position: int)

  /** The POST handler: 401 for a requester outside the workspace, before anything is
      written; otherwise the document to create, placed as the handler places it. */
  function PostTask(c: CreateTask, userId: string, store: seq<Task>, members: seq<Member>)
    : (r: Result<NewTaskDocument, int>)
    ensures r.Err? ==> r.error == Unauthorized
    ensures r.Ok? ==> r.value.fields == c
    ensures r.Ok? ==> r.value.position == PositionAsWritten(ColumnPositions(store, c.workspaceId, c.status))
  {
    if GetMember(members, c.workspaceId, userId).None? then Err(Unauthorized)
    else Ok(NewTaskDocument(c, PositionAsWritten(ColumnPositions(store, c.workspaceId, c.status))))
  }

  /** A non-member creates nothing. A member's new task gets 1000 in an empty column, and
      otherwise 1000 above the lowest position in its column, not the highest. */
  lemma PostTaskMeaning(c: CreateTask, userId: string, store: seq<Task>, members: seq<Member>)
    ensures PostTask(c, userId, store, members).Err? <==> !IsMember(members, c.workspaceId, userId)
    ensures var r := PostTask(c, userId, store, members);
            r.Ok? && (forall t :: t in store ==> !InColumn(t, c.workspaceId, c.status)) ==> r.value.position == 1000
    ensures var r := PostTask(c, userId, store, members);
            r.Ok? ==> forall t :: t in store && InColumn(t, c.workspaceId, c.status) ==> r.value.position - 1000 <= t.position
    ensures var r := PostTask(c, userId, store, members);
            r.Ok? && (exists t :: t in store && InColumn(t, c.workspaceId, c.status)) ==>
              exists t :: t in store && InColumn(t, c.workspaceId, c.status) && t.position == r.value.position - 1000
  {
    var r := PostTask(c, userId, store, members);
    if r.Ok? {
      var positions := ColumnPositions(store, c.workspaceId, c.status);
      forall t | t in store && InColumn(t, c.workspaceId, c.status)
        ensures r.value.position - 1000 <= t.position
      {
        var i :| 0 <= i < |store| && store[i] == t;
        var k :| 0 <= k < |positions| && positions[k] == t.position;
      }
      if exists t :: t in store && InColumn(t, c.workspaceId, c.status) {
        var t :| t in store && InColumn(t, c.workspaceId, c.status);
        var i :| 0 <= i < |store| && store[i] == t;
        assert |positions| > 0;
        var k :| 0 <= k < |positions| && positions[k] == r.value.position - 1000;
      }
    }
  }

  /** The collision at the handler: when a task sits exactly 1000 above the lowest task of
      the column, a member's new task is given that task's position. */
  lemma PostTaskReusesPosition(c: CreateTask, userId: string, store: seq<Task>, members: seq<Member>, low: Task, next: Task)
    requires IsMember(members, c.workspaceId, userId)
    requires low in store && InColumn(low, c.workspaceId, c.status)
    requires forall t :: t in store && InColumn(t, c.workspaceId, c.status) ==> low.position <= t.position
    requires next in store && InColumn(next, c.workspaceId, c.status) && next.position == low.position + 1000
    ensures PostTask(c, userId, store, members).Ok?
    ensures PostTask(c, userId, store, members).value.position == next.position
  {
    PostTaskMeaning(c, userId, store, members);
  }

  /** The handler with the evidently intended position: 1000 above the highest. */
  function PostTaskCorrected(c: CreateTask, userId: string, store: seq<Task>, members: seq<Member>)
    : (r: Result<NewTaskDocument, int>)
    ensures r.Err? ==> r.error == Unauthorized
    ensures r.Ok? ==> r.value.fields == c
  {
    if GetMember(members, c.workspaceId, userId).None? then Err(Unauthorized)
    else Ok(NewTaskDocument(c, NewPosition(ColumnPositions(store, c.workspaceId, c.status))))
  }

  /** With the intended position a member's new task is placed after every task already in
      its column, so it takes no position in use. */
  lemma PostTaskCorrectedMeaning(c: CreateTask, userId: string, store: seq<Task>, members: seq<Member>)
    ensures PostTaskCorrected(c, userId, store, members).Err? <==> !IsMember(members, c.workspaceId, userId)
    ensures var r := PostTaskCorrected(c, userId, store, members);
            r.Ok? ==> forall t :: t in store && InColumn(t, c.workspaceId, c.status) ==> t.position < r.value.position
  {
    var r := PostTaskCorrected(c, userId, store, members);
    if r.Ok? {
      var positions := ColumnPositions(store, c.workspaceId, c.status);
      forall t | t in store && InColumn(t, c.workspaceId, c.status)
        ensures t.position < r.value.position
      {
        var i :| 0 <= i < |store| && store[i] == t;
        var k :| 0 <= k < |positions| && positions[k] == t.position;
      }
    }
  }

  // ---------------------------------------------------------------------------
  // PATCH: what is written
  // ---------------------------------------------------------------------------

  /** The PATCH body as the handler destructures it. `assigneeId` is not a key of the update
      schema, so validation strips it and a validated body always has it `undefined`. */
  datatype PatchRequest = PatchRequest(body: UpdateTask, assigneeId: Nullish<string>)

  function FromValidated(u: UpdateTask): PatchRequest {
    PatchRequest(u, Undefined)
  }

  /** An attribute value, `null` included. */
  datatype Value =
    | VString(s: string) | VStatus(status: TaskStatus) | VDate(time: int) | VPriority(priority: TaskPriority)
    | VBool(b: bool) | VIds(ids: seq<string>) | VNull

  function NullableString(v: Nullish<string>): Option<Value> {
    match v
    case Undefined => None
    case Null => Some(VNull)
    case Defined(s) => Some(VString(s))
  }

  function NullableBool(v: Nullish<bool>): Option<Value> {
    match v
    case Undefined => None
    case Null => Some(VNull)
    case Defined(b) => Some(VBool(b))
  }

  function NullableIds(v: Nullish<seq<string>>): Option<Value> {
    match v
    case Undefined => None
    case Null => Some(VNull)
    case Defined(ids) => Some(VIds(ids))
  }

  function PriorityEntry(v: Option<TaskPriority>): Value {
    if v.Some? then VPriority(v.value) else VNull
  }

  /** The attributes a PATCH can write. */
  const WritableAttributes: set<Attribute> :=
    {NameAttr, StatusAttr, DueDateAttr, AssigneeIdAttr, PriorityAttr, DescriptionAttr, LockedAttr, AssigneesIdAttr}

  /** The request's value for a writable attribute, `None` when it is `undefined`. The
      schema gives `name`, `status` and `dueDate` always, and `priority` a default. */
  function RequestValue(r: PatchRequest, a: Attribute): Option<Value> {
    match a
    case NameAttr => Some(VString(r.body.name))
    case StatusAttr => Some(VStatus(r.body.status))
    case DueDateAttr => Some(VDate(r.body.dueDate))
    case AssigneeIdAttr => NullableString(r.assigneeId)
    case PriorityAttr => Some(PriorityEntry(r.body.priority))
    case DescriptionAttr => NullableString(r.body.description)
    case LockedAttr => NullableBool(r.body.locked)
    case AssigneesIdAttr => NullableIds(r.body.assigneesId)
    case _ => None
  }

  /** `updateData`: every writable attribute whose request value is not `undefined`. */
  function UpdateData(r: PatchRequest): (d: map<Attribute, Value>)
    ensures NameAttr in d && StatusAttr in d && DueDateAttr in d && PriorityAttr in d
    ensures ProjectIdAttr !in d && WorkspaceIdAttr !in d && PositionAttr !in d && CreatedAtAttr !in d
  {
    map a | a in WritableAttributes && RequestValue(r, a).Some? :: RequestValue(r, a).value
  }

  /** The writable part of a request. */
  datatype Writable = Writable(
    name: string, status: TaskStatus, dueDate: int, assigneeId: Nullish<string>,
    priority: Option<TaskPriority>, description: Nullish<string>, locked: Nullish<bool>,
    assigneesId: Nullish<seq<string>>)

  function WritableOf(r: PatchRequest): Writable {
    Writable(r.body.name, r.body.status, r.body.dueDate, r.assigneeId, r.body.priority,
             r.body.description, r.body.locked, r.body.assigneesId)
  }

  function StringBack(d: map<Attribute, Value>, f: Attribute): Nullish<string> {
    if f !in d then Undefined else if d[f].VString? then Defined(d[f].s) else Null
  }

  function BoolBack(d: map<Attribute, Value>, f: Attribute): Nullish<bool> {
    if f !in d then Undefined else if d[f].VBool? then Defined(d[f].b) else Null
  }

  function IdsBack(d: map<Attribute, Value>, f: Attribute): Nullish<seq<string>> {
    if f !in d then Undefined else if d[f].VIds? then Defined(d[f].ids) else Null
  }

  /** Reads the writable fields back from an update: an absent key is `undefined`. */
  function ReadBack(d: map<Attribute, Value>): Option<Writable> {
    if NameAttr in d && d[NameAttr].VString? && StatusAttr in d && d[StatusAttr].VStatus?
       && DueDateAttr in d && d[DueDateAttr].VDate? && PriorityAttr in d
    then
      var priority := if d[PriorityAttr].VPriority? then Some(d[PriorityAttr].priority) else None;
      Some(Writable(d[NameAttr].s, d[StatusAttr].status, d[DueDateAttr].time,
                    StringBack(d, AssigneeIdAttr), priority, StringBack(d, DescriptionAttr),
                    BoolBack(d, LockedAttr), IdsBack(d, AssigneesIdAttr)))
    else None
  }

  /** The update holds exactly the request's writable fields: each one that is not
      `undefined`, with its value, `null` kept as `null`, and no other key. */
  lemma UpdateDataRoundTrip(r: PatchRequest)
    ensures ReadBack(UpdateData(r)) == Some(WritableOf(r))
  {
    var d := UpdateData(r);
    assert StringBack(d, AssigneeIdAttr) == r.assigneeId;
    assert StringBack(d, DescriptionAttr) == r.body.description;
    assert BoolBack(d, LockedAttr) == r.body.locked;
    assert IdsBack(d, AssigneesIdAttr) == r.body.assigneesId;
  }

  /** The request's `projectId` never reaches the update, so a PATCH cannot move a task to
      another project; neither can it change the workspace, which is not a request field. */
  lemma ProjectIdNotWritten(r: PatchRequest, projectId: Option<string>)
    ensures UpdateData(r.(body := r.body.(projectId := projectId))) == UpdateData(r)
  {
  }

  /** After validation no `assigneeId` is ever written. */
  lemma ValidatedWritesNoAssigneeId(u: UpdateTask)
    ensures AssigneeIdAttr !in UpdateData(FromValidated(u))
  {
  }

  // ---------------------------------------------------------------------------
  // PATCH: the lock and role gates
  // ---------------------------------------------------------------------------

  /** `updateData.locked !== originalTask.locked` for a stored boolean. */
  predicate LockChanges(locked: Nullish<bool>, stored: bool) {
    locked != Defined(stored)
  }

  /** Whether the lock checks refuse the update with 403: a locked task refuses a MEMBER, and
      an ADMIN unless `locked` is sent as something other than `undefined` and `true`; a
      MEMBER is also refused when the sent `locked` differs from the stored one. */
  function LockRefuses(stored: bool, role: MemberRole, locked: Nullish<bool>): bool {
    if stored && role == MEMBER then true
    else if stored && role == ADMIN && (locked == Undefined || locked == Defined(true)) then true
    else LockChanges(locked, stored) && role == MEMBER
  }

  /** The gates let an update through exactly when the requester is an ADMIN and the task is
      unlocked or the request sends `locked` as `false` or `null`, or the requester is a
      MEMBER, the task is unlocked and the request sends `locked: false`. In particular a
      MEMBER who leaves `locked` out is always refused. */
  lemma LockGateMeaning(stored: bool, role: MemberRole, locked: Nullish<bool>)
    ensures !LockRefuses(stored, role, locked) <==>
            || (role == ADMIN && (!stored || locked == Defined(false) || locked == Null))
            || (role == MEMBER && !stored && locked == Defined(false))
  {
    match locked
    case Undefined =>
    case Null =>
    case Defined(b) =>
  }

  // ---------------------------------------------------------------------------
  // PATCH: the handler and its notifications
  // ---------------------------------------------------------------------------

  /** A relay frame for `sendNotificationToUser`: the user id and a system envelope. */
  function Notice(userId: string, text: string): Hub.Frame {
    Hub.Frame(userId, Hub.System(text))
  }

  /** The user to notify about the single assignee: `""` when no `assigneeId` was sent;
      otherwise the member's user id, or a failed lookup (`getDocument` throws on `null` and
      on an unknown id). */
  function AssigneeTarget(assigneeId: Nullish<string>, members: seq<Member>): (r: Option<string>)
    ensures assigneeId == Undefined ==> r == Some("")
    ensures assigneeId == Null ==> r.None?
  {
    match assigneeId
    case Undefined => Some("")
    case Null => None
    case Defined(id) =>
      var m := MemberById(members, id);
      if m.Some? then Some(m.value.userId) else None
  }

  /** The users to notify for `assigneesId`, in order: none when `undefined`; a failure when
      `null` (iterating `null` throws) or when some id has no member document. */
  function AssigneesTargets(ids: Nullish<seq<string>>, members: seq<Member>): (r: Option<seq<string>>)
    ensures ids == Undefined ==> r == Some([])
    ensures ids == Null ==> r.None?
    ensures ids.Defined? ==>
              (r.Some? <==> forall i :: 0 <= i < |ids.value| ==> MemberById(members, ids.value[i]).Some?)
    ensures ids.Defined? && r.Some? ==>
              |r.value| == |ids.value|
              && forall i :: 0 <= i < |ids.value| ==> r.value[i] == MemberById(members, ids.value[i]).value.userId
  {
    match ids
    case Undefined => Some([])
    case Null => None
    case Defined(list) => UserIdsOf(list, members)
  }

  function UserIdsOf(ids: seq<string>, members: seq<Member>): (r: Option<seq<string>>)
    ensures r.Some? <==> forall i :: 0 <= i < |ids| ==> MemberById(members, ids[i]).Some?
    ensures r.Some? ==> |r.value| == |ids|
                        && forall i :: 0 <= i < |ids| ==> r.value[i] == MemberById(members, ids[i]).value.userId
  {
    if |ids| == 0 then Some([])
    else
      var m := MemberById(members, ids[0]);
      var rest := UserIdsOf(ids[1..], members);
      if m.Some? && rest.Some? then Some([m.value.userId] + rest.value)
      else
        assert m.None? ==> MemberById(members, ids[0]).None?;
        None
  }

  function UpdatedText(name: string): string {
    name + " has been updated."
  }

  function TaskUpdatedText(name: string): string {
    "Task " + name + " has been updated."
  }

  /** The notifications after an update: one to `first`, then one to each of `others`. */
  function FanOut(first: string, others: seq<string>, name: string): (r: seq<Hub.Frame>)
    ensures |r| == 1 + |others|
    ensures r[0] == Notice(first, UpdatedText(name))
    ensures forall i :: 0 <= i < |others| ==> r[i + 1] == Notice(others[i], TaskUpdatedText(name))
  {
    [Notice(first, UpdatedText(name))] + Map(others, (u: string) => Notice(u, TaskUpdatedText(name)))
  }

  datatype PatchOutcome =
    | PatchRefused(status: int)
    | Patched(taskId: string, data: map<Attribute, Value>, notices: seq<Hub.Frame>)

  /** The PATCH handler: the task must exist (else 500) and carry a workspace id (else 404);
      a requester outside that workspace gets 401 and the lock gates 403, all before any
      write; then the assignee lookups (a failure is 500), the update, and one notification
      for the single assignee followed by one per listed assignee. */
  function Patch(r: PatchRequest, userId: string, tasks: seq<Task>, members: seq<Member>): (o: PatchOutcome)
    ensures o.Patched? ==> o.taskId == r.body.taskId
  {
    var task := TaskById(tasks, r.body.taskId);
    if task.None? then PatchRefused(ServerError)
    else if task.value.workspaceId == "" then PatchRefused(NotFound)
    else
      var member := GetMember(members, task.value.workspaceId, userId);
      if member.None? then PatchRefused(Unauthorized)
      else if LockRefuses(task.value.locked, member.value.role, r.body.locked) then PatchRefused(Forbidden)
      else
        var first := AssigneeTarget(r.assigneeId, members);
        var others := AssigneesTargets(r.body.assigneesId, members);
        if first.None? || others.None? then PatchRefused(ServerError)
        else
          Patched(r.body.taskId, UpdateData(r), FanOut(first.value, others.value, Or(r.body.name, task.value.name)))
  }

  /** The checks before the write, in order: 500 for an unknown task, 404 for a task with no
      workspace, 401 for a requester outside the workspace, 403 from the lock gates. */
  lemma PatchRefusals(r: PatchRequest, userId: string, tasks: seq<Task>, members: seq<Member>)
    ensures TaskById(tasks, r.body.taskId).None? ==> Patch(r, userId, tasks, members) == PatchRefused(ServerError)
    ensures var t := TaskById(tasks, r.body.taskId);
            t.Some? && t.value.workspaceId == "" ==> Patch(r, userId, tasks, members) == PatchRefused(NotFound)
    ensures var t := TaskById(tasks, r.body.taskId);
            t.Some? && t.value.workspaceId != "" && !IsMember(members, t.value.workspaceId, userId)
            ==> Patch(r, userId, tasks, members) == PatchRefused(Unauthorized)
    ensures var t := TaskById(tasks, r.body.taskId);
            t.Some? && t.value.workspaceId != "" && GetMember(members, t.value.workspaceId, userId).Some?
            && LockRefuses(t.value.locked, GetMember(members, t.value.workspaceId, userId).value.role, r.body.locked)
            ==> Patch(r, userId, tasks, members) == PatchRefused(Forbidden)
  {
  }

  /** All the gates of the PATCH handler, in their order: the task exists, carries a
      workspace id, the requester belongs to that workspace and the lock gates let the
      request through. */
  predicate PatchGatesPass(r: PatchRequest, userId: string, tasks: seq<Task>, members: seq<Member>) {
    var t := TaskById(tasks, r.body.taskId);
    && t.Some? && t.value.workspaceId != ""
    && GetMember(members, t.value.workspaceId, userId).Some?
    && !LockRefuses(t.value.locked, GetMember(members, t.value.workspaceId, userId).value.role, r.body.locked)
  }

  /** A PATCH succeeds exactly when every gate passes and both assignee lookups resolve;
      once the gates pass, a failed lookup (an unknown member id, or a `null` list) gives
      500, and a refusal at a gate is one of 500, 404, 401 and 403. */
  lemma PatchMeaning(r: PatchRequest, userId: string, tasks: seq<Task>, members: seq<Member>)
    ensures Patch(r, userId, tasks, members).Patched? <==>
              PatchGatesPass(r, userId, tasks, members)
              && AssigneeTarget(r.assigneeId, members).Some?
              && AssigneesTargets(r.body.assigneesId, members).Some?
    ensures PatchGatesPass(r, userId, tasks, members)
            && (AssigneeTarget(r.assigneeId, members).None? || AssigneesTargets(r.body.assigneesId, members).None?)
            ==> Patch(r, userId, tasks, members) == PatchRefused(ServerError)
    ensures !PatchGatesPass(r, userId, tasks, members) ==>
              Patch(r, userId, tasks, members).PatchRefused?
              && Patch(r, userId, tasks, members).status in {ServerError, NotFound, Unauthorized, Forbidden}
  {
  }

  /** A successful PATCH writes the update and sends 1 + |assigneesId| notifications: first
      to the single assignee's user (or `""`), saying "<name> has been updated.", then to
      each listed assignee's user in order, saying "Task <name> has been updated.", where
      the name is the request's, or the stored one when the request's is empty. */
  lemma PatchNotifications(r: PatchRequest, userId: string, tasks: seq<Task>, members: seq<Member>)
    ensures var o := Patch(r, userId, tasks, members);
            o.Patched? ==> o.data == UpdateData(r)
    ensures var o := Patch(r, userId, tasks, members);
            var ids := if r.body.assigneesId.Defined? then r.body.assigneesId.value else [];
            o.Patched? ==>
              var name := Or(r.body.name, TaskById(tasks, r.body.taskId).value.name);
              && |o.notices| == 1 + |ids|
              && o.notices[0] == Notice(AssigneeTarget(r.assigneeId, members).value, UpdatedText(name))
              && forall i :: 0 <= i < |ids| ==>
                   o.notices[i + 1] == Notice(MemberById(members, ids[i]).value.userId, TaskUpdatedText(name))
  {
  }

  /** A `null` assignee list passes validation but makes the handler fail with 500 once the
      gates pass, before anything is written. */
  lemma NullAssigneesFails(r: PatchRequest, userId: string, tasks: seq<Task>, members: seq<Member>)
    requires r.body.assigneesId == Null
    ensures !Patch(r, userId, tasks, members).Patched?
  {
  }

  /** For a validated body the single-assignee notification goes to the empty user id, and
      the text uses the request's name, which the schema makes non-empty. */
  lemma ValidatedPatchNotifies(u: UpdateTask, userId: string, tasks: seq<Task>, members: seq<Member>)
    requires |u.name| >= 1
    ensures var o := Patch(FromValidated(u), userId, tasks, members);
            o.Patched? ==> o.notices[0] == Notice("", UpdatedText(u.name))
  {
    PatchNotifications(FromValidated(u), userId, tasks, members);
  }

  // ---------------------------------------------------------------------------
  // GET /getTaskById
  // ---------------------------------------------------------------------------

  /** The task with the requested id. `getDocument` throws for an unknown id and the
      handler does not catch it, so an unknown id gives 500 and the handler's own 404 is
      never returned. */
  function GetTaskById(taskId: string, tasks: seq<Task>): (r: Result<Task, int>)
    ensures r.Ok? <==> exists j :: 0 <= j < |tasks| && tasks[j].id == taskId
    ensures r.Ok? ==> r.value in tasks && r.value.id == taskId
    ensures r.Err? ==> r.error == ServerError
  {
    match TaskById(tasks, taskId)
    case Some(t) => Ok(t)
    case None => Err(ServerError)
  }

  // ---------------------------------------------------------------------------
  // DELETE
  // ---------------------------------------------------------------------------

  datatype DeleteTaskOutcome = TaskDeleted(taskId: string) | DeleteTaskRefused(status: int)

  /** The DELETE handler: 500 for an unknown task, 404 for a task with no workspace id, 401
      for a requester outside the workspace, 403 for a locked task whatever the role. */
  function DeleteTask(taskId: string, userId: string, tasks: seq<Task>, members: seq<Member>): (o: DeleteTaskOutcome)
    ensures o.TaskDeleted? ==> o.taskId == taskId
  {
    var task := TaskById(tasks, taskId);
    if task.None? then DeleteTaskRefused(ServerError)
    else if task.value.workspaceId == "" then DeleteTaskRefused(NotFound)
    else if GetMember(members, task.value.workspaceId, userId).None? then DeleteTaskRefused(Unauthorized)
    else if task.value.locked then DeleteTaskRefused(Forbidden)
    else TaskDeleted(taskId)
  }

  /** A task is deleted exactly when it exists, has a workspace, the requester belongs to
      that workspace and the task is unlocked; an ADMIN cannot delete a locked task either. */
  lemma DeleteTaskMeaning(taskId: string, userId: string, tasks: seq<Task>, members: seq<Member>)
    ensures DeleteTask(taskId, userId, tasks, members).TaskDeleted? <==>
            var t := TaskById(tasks, taskId);
            t.Some? && t.value.workspaceId != "" && IsMember(members, t.value.workspaceId, userId) && !t.value.locked
    ensures var t := TaskById(tasks, taskId);
            t.Some? && t.value.workspaceId != "" && IsMember(members, t.value.workspaceId, userId) && t.value.locked
            ==> DeleteTask(taskId, userId, tasks, members) == DeleteTaskRefused(Forbidden)
  {
  }

  /** Each refusal has its own status, in the order the handler checks: an unknown task is
      500, a task without a workspace 404, a requester outside the workspace 401. */
  lemma DeleteTaskRefusals(taskId: string, userId: string, tasks: seq<Task>, members: seq<Member>)
    ensures TaskById(tasks, taskId).None? ==> DeleteTask(taskId, userId, tasks, members) == DeleteTaskRefused(ServerError)
    ensures var t := TaskById(tasks, taskId);
            t.Some? && t.value.workspaceId == "" ==> DeleteTask(taskId, userId, tasks, members) == DeleteTaskRefused(NotFound)
    ensures var t := TaskById(tasks, taskId);
            t.Some? && t.value.workspaceId != "" && !IsMember(members, t.value.workspaceId, userId)
            ==> DeleteTask(taskId, userId, tasks, members) == DeleteTaskRefused(Unauthorized)
  {
  }
}

=== FILE: task_schemas.dfy ===
/**
  The request-body validators of `src/features/tasks/schemas.ts`, modelled on zod's
  object semantics: a body is a JSON object; a shape key that is absent reads as
  `undefined`; keys outside the shape are stripped from the output; a field whose
  value is `undefined` is left out of the output object.
 */
module TaskSchemas {
  import opened Wrappers
  import opened Strings
  import opened TaskTypes

  /** A JSON value (numbers are integers here). */
  datatype Json = JNull | JBool(b: bool) | JNum(n: int) | JStr(s: string) | JArr(items: seq<Json>) | JObj(entries: seq<(string, Json)>)

  /** The keys a task request body can carry, each under its own name; `Other` is any key
      outside the schemas' shapes (such as `assigneeId`). */
  datatype Key =
    | TaskIdKey | NameKey | StatusKey | WorkspaceIdKey | ProjectIdKey | DueDateKey
    | DescriptionKey | PriorityKey | LockedKey | AssigneesIdKey | Other(name: string)

  /** A request body: a JSON object, by key. */
  type Body = map<Key, Json>

  /** A field that may be `undefined`, `null`, or a value. */
  datatype Nullish<+T> = Undefined | Null | Defined(value: T)

  /** The largest time value a JavaScript `Date` can hold (the ECMAScript TimeClip bound), in ms. */
  const MaxTime: int := 8_640_000_000_000_000

  /** Reads a key: `None` is `undefined`. */
  function Get(body: Body, key: Key): Option<Json> {
    if key in body then Some(body[key]) else None
  }

  // ---------------------------------------------------------------------------
  // single-field checks (None = the field reports an issue)
  // ---------------------------------------------------------------------------

  /** `z.string().min(1)`: a string of length at least one, not trimmed. */
  function NonEmptyString(v: Option<Json>): (r: Option<string>)
    ensures r.Some? ==> |r.value| >= 1
  {
    if v.Some? && v.value.JStr? && |v.value.s| >= 1 then Some(v.value.s) else None
  }

  /** A value the trimmed-string check accepts: a string that is not all whitespace. */
  predicate IdItem(j: Json) {
    j.JStr? && !AllWhitespace(j.s)
  }

  /** `z.string().trim().min(1)`: a string that is not all whitespace; the output is trimmed. */
  function TrimmedNonEmpty(v: Option<Json>): (r: Option<string>)
    ensures r.Some? ==> CleanId(r.value)
    ensures r.Some? <==> v.Some? && IdItem(v.value)
    ensures r.Some? ==> r.value == Trim(v.value.s)
  {
    if v.Some? && v.value.JStr? && |Trim(v.value.s)| >= 1 then
      TrimEmptyIff(v.value.s);
      Some(Trim(v.value.s))
    else if v.Some? && v.value.JStr? then
      TrimEmptyIff(v.value.s);
      None
    else None
  }

  /** `z.nativeEnum(TaskStatus)`. */
  function StatusField(v: Option<Json>): Option<TaskStatus> {
    if v.Some? && v.value.JStr? then ParseStatus(v.value.s) else None
  }

  /** `z.nativeEnum(TaskPriority)` on a present, non-null value. */
  function PriorityField(v: Json): Option<TaskPriority> {
    if v.JStr? then ParsePriority(v.s) else None
  }

  /** `z.coerce.date()`: `new Date(v)` must not be an invalid date. `null` and booleans
      convert to the numbers 0 and 1; strings, arrays and objects go through the date-string
      parser `parse`; any time value beyond the ECMAScript range is an invalid date. */
  function CoerceDate(v: Option<Json>, parse: Json -> Option<int>): (r: Option<int>)
    ensures v.None? ==> r.None?
    ensures v == Some(JNull) ==> r == Some(0)
    ensures r.Some? ==> -MaxTime <= r.value <= MaxTime
  {
    var time := match v
      case None => None
      case Some(JNull) => Some(0)
      case Some(JBool(b)) => Some(if b then 1 else 0)
      case Some(JNum(n)) => Some(n)
      case Some(j) => parse(j);
    if time.Some? && -MaxTime <= time.value <= MaxTime then time else None
  }

  /** `z.array(z.string().trim().min(1))` on the items of an array: every item must pass,
      and the output holds each item trimmed, in order. */
  function TrimmedIds(items: seq<Json>): (r: Option<seq<string>>)
    ensures r.Some? <==> forall i :: 0 <= i < |items| ==> IdItem(items[i])
    ensures r.Some? ==> |r.value| == |items|
    ensures r.Some? ==> forall i :: 0 <= i < |items| ==> r.value[i] == Trim(items[i].s) && CleanId(r.value[i])
  {
    if forall i :: 0 <= i < |items| ==> IdItem(items[i]) then
      var ids := TrimAll(items);
      assert forall i :: 0 <= i < |items| ==> CleanId(ids[i]) by {
        forall i | 0 <= i < |items| ensures CleanId(ids[i]) {
          TrimEmptyIff(items[i].s);
        }
      }
      Some(ids)
    else None
  }

  /** Each string item, trimmed. */
  function TrimAll(items: seq<Json>): (r: seq<string>)
    requires forall i :: 0 <= i < |items| ==> items[i].JStr?
    ensures |r| == |items| && forall i :: 0 <= i < |items| ==> r[i] == Trim(items[i].s)
  {
    if |items| == 0 then [] else [Trim(items[0].s)] + TrimAll(items[1..])
  }

  /** An array of trimmed, non-empty ids; `None` reports an issue. */
  function IdArray(v: Json): (r: Option<seq<string>>)
    ensures r.Some? <==> v.JArr? && forall i :: 0 <= i < |v.items| ==> IdItem(v.items[i])
    ensures r.Some? ==> CleanIds(r.value)
  {
    if v.JArr? then TrimmedIds(v.items) else None
  }

  /** An id is a trimmed, non-empty string. */
  predicate CleanId(s: string) {
    |s| >= 1 && Trimmed(s)
  }

  predicate CleanIds(ids: seq<string>) {
    forall i :: 0 <= i < |ids| ==> CleanId(ids[i])
  }

  /** Names of the keys whose check failed, in shape order. */
  function Issue(failed: bool, key: Key): seq<Key> {
    if failed then [key] else []
  }

  // ---------------------------------------------------------------------------
  // createTaskSchema
  // ---------------------------------------------------------------------------

  datatype CreateTask = CreateTask(
    name: string,
    status: TaskStatus,
    workspaceId: string,
    projectId: string,
    dueDate: int,
    description: Option<string>,
    priority: TaskPriority,
    locked: bool,
    assigneesId: Option<seq<string>>)

  /** `description: z.string().optional()`. */
  function OptionalString(v: Option<Json>): Result<Option<string>, ()> {
    match v
    case None => Ok(None)
    case Some(JStr(s)) => Ok(Some(s))
    case Some(_) => Err(())
  }

  /** `priority: ….optional().default(TaskPriority.NULL)`: absent gives `NULL`; `null` is refused. */
  function CreatePriority(v: Option<Json>): Result<TaskPriority, ()> {
    match v
    case None => Ok(NULL)
    case Some(j) => if PriorityField(j).Some? then Ok(PriorityField(j).value) else Err(())
  }

  /** `locked: z.boolean().optional().default(false)`. */
  function CreateLocked(v: Option<Json>): Result<bool, ()> {
    match v
    case None => Ok(false)
    case Some(JBool(b)) => Ok(b)
    case Some(_) => Err(())
  }

  /** `assigneesId: z.array(…).optional()`. */
  function OptionalIds(v: Option<Json>): (r: Result<Option<seq<string>>, ()>)
    ensures r.Ok? && r.value.Some? ==> CleanIds(r.value.value)
  {
    match v
    case None => Ok(None)
    case Some(j) => if IdArray(j).Some? then Ok(Some(IdArray(j).value)) else Err(())
  }

  /** What every accepted create body satisfies. */
  predicate ValidCreate(t: CreateTask) {
    |t.name| >= 1
    && CleanId(t.workspaceId) && CleanId(t.projectId)
    && -MaxTime <= t.dueDate <= MaxTime
    && (t.assigneesId.Some? ==> CleanIds(t.assigneesId.value))
  }

  /** The outcome of each field check of `createTaskSchema`. */
  datatype CreateChecks = CreateChecks(
    name: Option<string>,
    status: Option<TaskStatus>,
    workspaceId: Option<string>,
    projectId: Option<string>,
    dueDate: Option<int>,
    description: Result<Option<string>, ()>,
    priority: Result<TaskPriority, ()>,
    locked: Result<bool, ()>,
    assigneesId: Result<Option<seq<string>>, ()>)

  /** What the passing field checks guarantee about their outputs. */
  predicate CreateChecksClean(c: CreateChecks) {
    (c.name.Some? ==> |c.name.value| >= 1)
    && (c.workspaceId.Some? ==> CleanId(c.workspaceId.value))
    && (c.projectId.Some? ==> CleanId(c.projectId.value))
    && (c.dueDate.Some? ==> -MaxTime <= c.dueDate.value <= MaxTime)
    && (c.assigneesId.Ok? && c.assigneesId.value.Some? ==> CleanIds(c.assigneesId.value.value))
  }

  function CheckCreate(body: Body, parse: Json -> Option<int>): (c: CreateChecks)
    ensures CreateChecksClean(c)
  {
    CreateChecks(
      NonEmptyString(Get(body, NameKey)),
      StatusField(Get(body, StatusKey)),
      TrimmedNonEmpty(Get(body, WorkspaceIdKey)),
      TrimmedNonEmpty(Get(body, ProjectIdKey)),
      CoerceDate(Get(body, DueDateKey), parse),
      OptionalString(Get(body, DescriptionKey)),
      CreatePriority(Get(body, PriorityKey)),
      CreateLocked(Get(body, LockedKey)),
      OptionalIds(Get(body, AssigneesIdKey)))
  }

  predicate CreatePasses(c: CreateChecks) {
    c.name.Some? && c.status.Some? && c.workspaceId.Some? && c.projectId.Some? && c.dueDate.Some?
    && c.description.Ok? && c.priority.Ok? && c.locked.Ok? && c.assigneesId.Ok?
  }

  /** The keys that reported issues, in shape order. */
  function CreateIssues(c: CreateChecks): (issues: seq<Key>)
    ensures |issues| == 0 <==> CreatePasses(c)
  {
    Issue(c.name.None?, NameKey) + Issue(c.status.None?, StatusKey) + Issue(c.workspaceId.None?, WorkspaceIdKey)
    + Issue(c.projectId.None?, ProjectIdKey) + Issue(c.dueDate.None?, DueDateKey)
    + Issue(c.description.Err?, DescriptionKey) + Issue(c.priority.Err?, PriorityKey)
    + Issue(c.locked.Err?, LockedKey) + Issue(c.assigneesId.Err?, AssigneesIdKey)
  }

  /** `createTaskSchema.safeParse(body)`: the parsed task, or the keys that reported issues. */
  function ValidateCreate(body: Body, parse: Json -> Option<int>): (r: Result<CreateTask, seq<Key>>)
    ensures r.Err? ==> |r.error| > 0
    ensures r.Ok? ==> ValidCreate(r.value)
  {
    var c := CheckCreate(body, parse);
    if CreatePasses(c) then
      Ok(CreateTask(c.name.value, c.status.value, c.workspaceId.value, c.projectId.value, c.dueDate.value,
                    c.description.value, c.priority.value, c.locked.value, c.assigneesId.value))
    else Err(CreateIssues(c))
  }

  /** The JSON body a client sends for a parsed create request. */
  function EncodeCreate(t: CreateTask): Body {
    var base := map[][NameKey := JStr(t.name)][StatusKey := JStr(StatusValue(t.status))]
                     [WorkspaceIdKey := JStr(t.workspaceId)][ProjectIdKey := JStr(t.projectId)]
                     [DueDateKey := JNum(t.dueDate)][PriorityKey := JStr(PriorityValue(t.priority))]
                     [LockedKey := JBool(t.locked)];
    var withDescription := if t.description.Some? then base[DescriptionKey := JStr(t.description.value)] else base;
    if t.assigneesId.Some? then withDescription[AssigneesIdKey := JArr(IdsJson(t.assigneesId.value))]
    else withDescription
  }

  function IdsJson(ids: seq<string>): (r: seq<Json>)
    ensures |r| == |ids| && forall i :: 0 <= i < |ids| ==> r[i] == JStr(ids[i])
  {
    if |ids| == 0 then [] else [JStr(ids[0])] + IdsJson(ids[1..])
  }

  /** Clean ids survive the array check unchanged. */
  lemma IdsRoundTrip(ids: seq<string>)
    requires CleanIds(ids)
    ensures IdArray(JArr(IdsJson(ids))) == Some(ids)
  {
    var items := IdsJson(ids);
    forall i | 0 <= i < |items|
      ensures IdItem(items[i])
    {
      assert items[i] == JStr(ids[i]);
      TrimmedFixed(ids[i]);
      TrimEmptyIff(ids[i]);
    }
    var r := TrimmedIds(items);
    assert r.Some?;
    forall i | 0 <= i < |ids|
      ensures r.value[i] == ids[i]
    {
      assert items[i] == JStr(ids[i]);
      TrimmedFixed(ids[i]);
    }
    assert r.value == ids;
  }

  /** A clean id passes the trimming check unchanged. */
  lemma CleanIdPasses(s: string)
    requires CleanId(s)
    ensures TrimmedNonEmpty(Some(JStr(s))) == Some(s)
  {
    TrimmedFixed(s);
    TrimEmptyIff(s);
  }

  /** What each key of an encoded create body reads as. */
  lemma EncodeCreateReads(t: CreateTask)
    ensures var b := EncodeCreate(t);
      Get(b, NameKey) == Some(JStr(t.name))
      && Get(b, StatusKey) == Some(JStr(StatusValue(t.status)))
      && Get(b, WorkspaceIdKey) == Some(JStr(t.workspaceId))
      && Get(b, ProjectIdKey) == Some(JStr(t.projectId))
      && Get(b, DueDateKey) == Some(JNum(t.dueDate))
      && Get(b, PriorityKey) == Some(JStr(PriorityValue(t.priority)))
      && Get(b, LockedKey) == Some(JBool(t.locked))
      && Get(b, DescriptionKey) == (if t.description.Some? then Some(JStr(t.description.value)) else None)
      && Get(b, AssigneesIdKey) == (if t.assigneesId.Some? then Some(JArr(IdsJson(t.assigneesId.value))) else None)
  {
  }

  /** Every valid create request is accepted exactly as sent: validation inverts encoding. */
  lemma CreateRoundTrip(t: CreateTask, parse: Json -> Option<int>)
    requires ValidCreate(t)
    ensures ValidateCreate(EncodeCreate(t), parse) == Ok(t)
  {
    var b := EncodeCreate(t);
    EncodeCreateReads(t);
    CleanIdPasses(t.workspaceId);
    CleanIdPasses(t.projectId);
    StatusRoundTrip(t.status, t.status);
    PriorityRoundTrip(t.priority, t.priority);
    if t.assigneesId.Some? {
      IdsRoundTrip(t.assigneesId.value);
    }
    var c := CheckCreate(b, parse);
    assert c == CreateChecks(Some(t.name), Some(t.status), Some(t.workspaceId), Some(t.projectId),
                             Some(t.dueDate), Ok(t.description), Ok(t.priority), Ok(t.locked), Ok(t.assigneesId));
  }

  /** Absent `priority` and `locked` take their defaults; `null` for either is refused. */
  lemma CreateDefaults(body: Body, parse: Json -> Option<int>)
    ensures var r := ValidateCreate(body, parse);
            r.Ok? && PriorityKey !in body ==> r.value.priority == NULL
    ensures var r := ValidateCreate(body, parse);
            r.Ok? && LockedKey !in body ==> r.value.locked == false
    ensures Get(body, PriorityKey) == Some(JNull) ==> ValidateCreate(body, parse).Err?
    ensures Get(body, LockedKey) == Some(JNull) ==> ValidateCreate(body, parse).Err?
  {
  }

  /** `workspaceId` and `projectId` come out trimmed, and one of only whitespace is refused;
      `name` is not trimmed and comes out exactly as sent. */
  lemma CreateTrimsIds(body: Body, parse: Json -> Option<int>)
    ensures var r := ValidateCreate(body, parse);
            r.Ok? ==> (r.value.workspaceId == Trim(body[WorkspaceIdKey].s)
                       && r.value.projectId == Trim(body[ProjectIdKey].s)
                       && r.value.name == body[NameKey].s)
    ensures WorkspaceIdKey in body && body[WorkspaceIdKey].JStr? && AllWhitespace(body[WorkspaceIdKey].s)
            ==> ValidateCreate(body, parse).Err?
  {
    var c := CheckCreate(body, parse);
    var r := ValidateCreate(body, parse);
    if r.Ok? {
      assert CreatePasses(c);
      assert r.value.workspaceId == c.workspaceId.value;
      assert r.value.projectId == c.projectId.value;
      assert r.value.name == c.name.value;
    }
  }

  /** Keys outside the shape never affect the result. */
  lemma CreateStripsUnknown(body: Body, key: string, v: Json, parse: Json -> Option<int>)
    ensures ValidateCreate(body[Other(key) := v], parse) == ValidateCreate(body, parse)
  {
    var b := body[Other(key) := v];
    forall k: Key | !k.Other?
      ensures Get(b, k) == Get(body, k)
    {
    }
    assert CheckCreate(b, parse) == CheckCreate(body, parse);
  }

  // ---------------------------------------------------------------------------
  // updateTaskSchema
  // ---------------------------------------------------------------------------

  /** The parsed update body. `priority` is never `undefined` (its default fills it in);
      `None` there is `null`. */
  datatype UpdateTask = UpdateTask(
    taskId: string,
    name: string,
    status: TaskStatus,
    dueDate: int,
    projectId: Option<string>,
    description: Nullish<string>,
    priority: Option<TaskPriority>,
    locked: Nullish<bool>,
    assigneesId: Nullish<seq<string>>)

  /** A `.nullish()` field whose present value is checked by `check`. */
  function NullishField<T>(v: Option<Json>, check: Json -> Option<T>): Result<Nullish<T>, ()> {
    match v
    case None => Ok(Undefined)
    case Some(JNull) => Ok(Null)
    case Some(j) => if check(j).Some? then Ok(Defined(check(j).value)) else Err(())
  }

  function StringValue(j: Json): Option<string> {
    if j.JStr? then Some(j.s) else None
  }

  function BoolValue(j: Json): Option<bool> {
    if j.JBool? then Some(j.b) else None
  }

  /** `priority: z.nativeEnum(…).nullable().optional().default(TaskPriority.NULL)`. */
  function UpdatePriority(v: Option<Json>): Result<Option<TaskPriority>, ()> {
    match v
    case None => Ok(Some(NULL))
    case Some(JNull) => Ok(None)
    case Some(j) => if PriorityField(j).Some? then Ok(Some(PriorityField(j).value)) else Err(())
  }

  /** The keys of the parsed update object: the fields whose value is not `undefined`. */
  function UpdateKeys(u: UpdateTask): (keys: set<Key>)
    ensures {TaskIdKey, NameKey, StatusKey, DueDateKey, PriorityKey} <= keys
    ensures ProjectIdKey in keys <==> u.projectId.Some?
    ensures LockedKey in keys <==> u.locked != Undefined
  {
    {TaskIdKey, NameKey, StatusKey, DueDateKey, PriorityKey}
    + (if u.projectId.Some? then {ProjectIdKey} else {})
    + (if u.description != Undefined then {DescriptionKey} else {})
    + (if u.locked != Undefined then {LockedKey} else {})
    + (if u.assigneesId != Undefined then {AssigneesIdKey} else {})
  }

  /** The outcome of each field check of `updateTaskSchema`. */
  datatype UpdateChecks = UpdateChecks(
    taskId: Option<string>,
    name: Option<string>,
    status: Option<TaskStatus>,
    dueDate: Option<int>,
    projectId: Result<Option<string>, ()>,
    description: Result<Nullish<string>, ()>,
    priority: Result<Option<TaskPriority>, ()>,
    locked: Result<Nullish<bool>, ()>,
    assigneesId: Result<Nullish<seq<string>>, ()>)

  function CheckUpdate(body: Body, parse: Json -> Option<int>): UpdateChecks {
    UpdateChecks(
      NonEmptyString(Get(body, TaskIdKey)),
      NonEmptyString(Get(body, NameKey)),
      StatusField(Get(body, StatusKey)),
      CoerceDate(Get(body, DueDateKey), parse),
      OptionalString(Get(body, ProjectIdKey)),
      NullishField(Get(body, DescriptionKey), StringValue),
      UpdatePriority(Get(body, PriorityKey)),
      NullishField(Get(body, LockedKey), BoolValue),
      NullishField(Get(body, AssigneesIdKey), IdArray))
  }

  predicate UpdatePasses(c: UpdateChecks) {
    c.taskId.Some? && c.name.Some? && c.status.Some? && c.dueDate.Some? && c.projectId.Ok?
    && c.description.Ok? && c.priority.Ok? && c.locked.Ok? && c.assigneesId.Ok?
  }

  function UpdateIssues(c: UpdateChecks): (issues: seq<Key>)
    ensures |issues| == 0 <==> UpdatePasses(c)
  {
    Issue(c.taskId.None?, TaskIdKey) + Issue(c.name.None?, NameKey) + Issue(c.status.None?, StatusKey)
    + Issue(c.dueDate.None?, DueDateKey) + Issue(c.projectId.Err?, ProjectIdKey)
    + Issue(c.description.Err?, DescriptionKey) + Issue(c.priority.Err?, PriorityKey)
    + Issue(c.locked.Err?, LockedKey) + Issue(c.assigneesId.Err?, AssigneesIdKey)
  }

  /** The update body the field checks produce, before the refinement. */
  function UpdateFields(c: UpdateChecks): UpdateTask
    requires UpdatePasses(c)
  {
    UpdateTask(c.taskId.value, c.name.value, c.status.value, c.dueDate.value, c.projectId.value,
               c.description.value, c.priority.value, c.locked.value, c.assigneesId.value)
  }

  /** The error the refinement reports. */
  datatype UpdateError = FieldIssues(keys: seq<Key>) | NoFields

  /** `updateTaskSchema.safeParse(body)`: the field checks, then the refinement that the
      parsed object has at least one key. */
  function ValidateUpdate(body: Body, parse: Json -> Option<int>): (r: Result<UpdateTask, UpdateError>)
    ensures r.Err? && r.error.FieldIssues? ==> |r.error.keys| > 0
    ensures r.Ok? ==> |r.value.taskId| >= 1 && |r.value.name| >= 1
    ensures r.Ok? && r.value.assigneesId.Defined? ==> CleanIds(r.value.assigneesId.value)
  {
    var c := CheckUpdate(body, parse);
    if !UpdatePasses(c) then Err(FieldIssues(UpdateIssues(c)))
    else
      var u := UpdateFields(c);
      if |UpdateKeys(u)| > 0 then
        assert u.assigneesId.Defined? ==> CleanIds(u.assigneesId.value);
        Ok(u)
      else Err(NoFields)
  }

  /** The refinement can never fail: a body that passes the field checks always has keys,
      so the "At least one field is required" error is unreachable and acceptance is decided
      by the field checks alone. */
  lemma UpdateRefineNeverFails(body: Body, parse: Json -> Option<int>)
    ensures ValidateUpdate(body, parse) != Err(NoFields)
    ensures ValidateUpdate(body, parse).Ok? <==> UpdatePasses(CheckUpdate(body, parse))
  {
    var c := CheckUpdate(body, parse);
    if UpdatePasses(c) {
      var keys := UpdateKeys(UpdateFields(c));
      assert TaskIdKey in keys;
    }
  }

  /** `priority` is filled with `NULL` when absent and stays `null` when sent as `null`;
      `locked` and `assigneesId` are `null` in the output exactly when sent as `null`. */
  lemma UpdateNullHandling(body: Body, parse: Json -> Option<int>)
    ensures var r := ValidateUpdate(body, parse);
            r.Ok? && PriorityKey !in body ==> r.value.priority == Some(NULL)
    ensures var r := ValidateUpdate(body, parse);
            r.Ok? && Get(body, PriorityKey) == Some(JNull) ==> r.value.priority.None?
    ensures var r := ValidateUpdate(body, parse);
            r.Ok? ==> (Get(body, LockedKey) == Some(JNull) <==> r.value.locked == Null)
    ensures var r := ValidateUpdate(body, parse);
            r.Ok? ==> (Get(body, AssigneesIdKey) == Some(JNull) <==> r.value.assigneesId == Null)
  {
  }

  /** The JSON body a client sends for a parsed update request. */
  function EncodeUpdate(u: UpdateTask): Body {
    var base := map[][TaskIdKey := JStr(u.taskId)][NameKey := JStr(u.name)]
                     [StatusKey := JStr(StatusValue(u.status))][DueDateKey := JNum(u.dueDate)]
                     [PriorityKey := (if u.priority.Some? then JStr(PriorityValue(u.priority.value)) else JNull)];
    var withProject := Put(base, ProjectIdKey, if u.projectId.Some? then Some(JStr(u.projectId.value)) else None);
    var withDescription := Put(withProject, DescriptionKey, DescriptionJson(u.description));
    var withLocked := Put(withDescription, LockedKey, LockedJson(u.locked));
    Put(withLocked, AssigneesIdKey, AssigneesJson(u.assigneesId))
  }

  /** Sets a key when there is a value to send. */
  function Put(body: Body, key: Key, v: Option<Json>): Body {
    if v.Some? then body[key := v.value] else body
  }

  function DescriptionJson(v: Nullish<string>): Option<Json> {
    match v
    case Undefined => None
    case Null => Some(JNull)
    case Defined(x) => Some(JStr(x))
  }

  function LockedJson(v: Nullish<bool>): Option<Json> {
    match v
    case Undefined => None
    case Null => Some(JNull)
    case Defined(x) => Some(JBool(x))
  }

  function AssigneesJson(v: Nullish<seq<string>>): Option<Json> {
    match v
    case Undefined => None
    case Null => Some(JNull)
    case Defined(ids) => Some(JArr(IdsJson(ids)))
  }

  predicate ValidUpdate(u: UpdateTask) {
    |u.taskId| >= 1 && |u.name| >= 1 && -MaxTime <= u.dueDate <= MaxTime
    && (u.assigneesId.Defined? ==> CleanIds(u.assigneesId.value))
  }

  /** What each key of an encoded update body reads as. */
  lemma EncodeUpdateReads(u: UpdateTask)
    ensures var b := EncodeUpdate(u);
      Get(b, TaskIdKey) == Some(JStr(u.taskId))
      && Get(b, NameKey) == Some(JStr(u.name))
      && Get(b, StatusKey) == Some(JStr(StatusValue(u.status)))
      && Get(b, DueDateKey) == Some(JNum(u.dueDate))
      && Get(b, PriorityKey) == Some(if u.priority.Some? then JStr(PriorityValue(u.priority.value)) else JNull)
      && Get(b, ProjectIdKey) == (if u.projectId.Some? then Some(JStr(u.projectId.value)) else None)
      && Get(b, DescriptionKey) == DescriptionJson(u.description)
      && Get(b, LockedKey) == LockedJson(u.locked)
      && Get(b, AssigneesIdKey) == AssigneesJson(u.assigneesId)
  {
  }

  /** The nullish fields read back as sent. */
  lemma NullishRoundTrips(u: UpdateTask)
    requires u.assigneesId.Defined? ==> CleanIds(u.assigneesId.value)
    ensures NullishField(DescriptionJson(u.description), StringValue) == Ok(u.description)
    ensures NullishField(LockedJson(u.locked), BoolValue) == Ok(u.locked)
    ensures NullishField(AssigneesJson(u.assigneesId), IdArray) == Ok(u.assigneesId)
  {
    match u.assigneesId
    case Undefined =>
    case Null =>
    case Defined(ids) => AssigneesRoundTrip(ids);
  }

  lemma AssigneesRoundTrip(ids: seq<string>)
    requires CleanIds(ids)
    ensures NullishField(AssigneesJson(Defined(ids)), IdArray) == Ok(Defined(ids))
  {
    IdsRoundTrip(ids);
    var j := JArr(IdsJson(ids));
    assert AssigneesJson(Defined(ids)) == Some(j);
    assert j != JNull;
    assert IdArray(j) == Some(ids);
  }

  /** Every valid update request is accepted exactly as sent. */
  lemma UpdateRoundTrip(u: UpdateTask, parse: Json -> Option<int>)
    requires ValidUpdate(u)
    ensures ValidateUpdate(EncodeUpdate(u), parse) == Ok(u)
  {
    var b := EncodeUpdate(u);
    EncodeUpdateReads(u);
    NullishRoundTrips(u);
    StatusRoundTrip(u.status, u.status);
    if u.priority.Some? { PriorityRoundTrip(u.priority.value, u.priority.value); }
    var c := CheckUpdate(b, parse);
    assert c == UpdateChecks(Some(u.taskId), Some(u.name), Some(u.status), Some(u.dueDate), Ok(u.projectId),
                             Ok(u.description), Ok(u.priority), Ok(u.locked), Ok(u.assigneesId));
    UpdateRefineNeverFails(b, parse);
  }

  /** `assigneeId` is not part of the update shape, so it is stripped: the parsed body is the
      same whether or not the client sent one. */
  lemma UpdateStripsAssigneeId(body: Body, v: Json, parse: Json -> Option<int>)
    ensures ValidateUpdate(body[Other("assigneeId") := v], parse) == ValidateUpdate(body, parse)
  {
    var b := body[Other("assigneeId") := v];
    assert CheckUpdate(b, parse) == CheckUpdate(body, parse);
  }

  // ---------------------------------------------------------------------------
  // getTaskByIdSchema / deleteTaskSchema
  // ---------------------------------------------------------------------------

  /** `getTaskByIdSchema` and `deleteTaskSchema`: a trimmed, non-empty `taskId`. */
  function ValidateTaskId(body: Body): (r: Result<string, seq<Key>>)
    ensures r.Ok? ==> CleanId(r.value) && TaskIdKey in body && body[TaskIdKey].JStr? && r.value == Trim(body[TaskIdKey].s)
    ensures r.Err? <==> !(TaskIdKey in body && body[TaskIdKey].JStr? && !AllWhitespace(body[TaskIdKey].s))
  {
    var id := TrimmedNonEmpty(Get(body, TaskIdKey));
    if id.Some? then Ok(id.value) else Err([TaskIdKey])
  }
}

=== FILE: task_types.dfy ===
/** The task enums and the task record of `src/features/tasks/types.ts`. */
module TaskTypes {
  import opened Wrappers
  import opened Seqs

  /** `TaskStatus`: each member's string value is its own identifier. */
  datatype TaskStatus = BACKLOG | TODO | IN_PROGRESS | IN_REVIEW | DONE

  /** `TaskPriority`, including the explicit `NULL` member. */
  datatype TaskPriority = LOW | MEDIUM_LOW | MEDIUM | MEDIUM_HIGH | HIGH | CRITICAL | NULL

  /** A stored task document: a numeric `position`, a `status` and a `priority` of the enum types. */
  datatype Task = Task(
    id: string,
    name: string,
    status: TaskStatus,
    workspaceId: string,
    projectId: string,
    assigneeId: string,
    assigneesId: seq<string>,
    position: int,
    dueDate: string,
    priority: TaskPriority,
    locked: bool)

  const AllStatuses: seq<TaskStatus> := [BACKLOG, TODO, IN_PROGRESS, IN_REVIEW, DONE]
  const AllPriorities: seq<TaskPriority> := [LOW, MEDIUM_LOW, MEDIUM, MEDIUM_HIGH, HIGH, CRITICAL, NULL]

  /** The string value of a status. */
  function StatusValue(s: TaskStatus): string {
    match s
    case BACKLOG => "BACKLOG"
    case TODO => "TODO"
    case IN_PROGRESS => "IN_PROGRESS"
    case IN_REVIEW => "IN_REVIEW"
    case DONE => "DONE"
  }

  /** The string value of a priority. */
  function PriorityValue(p: TaskPriority): string {
    match p
    case LOW => "LOW"
    case MEDIUM_LOW => "MEDIUM_LOW"
    case MEDIUM => "MEDIUM"
    case MEDIUM_HIGH => "MEDIUM_HIGH"
    case HIGH => "HIGH"
    case CRITICAL => "CRITICAL"
    case NULL => "NULL"
  }

  /** `z.nativeEnum(TaskStatus)` on a string: accepts exactly the members' string values. */
  function ParseStatus(str: string): (r: Option<TaskStatus>)
    ensures r.Some? ==> StatusValue(r.value) == str
    ensures r.None? ==> forall s :: StatusValue(s) != str
  {
    if str == "BACKLOG" then Some(BACKLOG)
    else if str == "TODO" then Some(TODO)
    else if str == "IN_PROGRESS" then Some(IN_PROGRESS)
    else if str == "IN_REVIEW" then Some(IN_REVIEW)
    else if str == "DONE" then Some(DONE)
    else None
  }

  /** `z.nativeEnum(TaskPriority)` on a string: accepts exactly the members' string values. */
  function ParsePriority(str: string): (r: Option<TaskPriority>)
    ensures r.Some? ==> PriorityValue(r.value) == str
    ensures r.None? ==> forall p :: PriorityValue(p) != str
  {
    if str == "LOW" then Some(LOW)
    else if str == "MEDIUM_LOW" then Some(MEDIUM_LOW)
    else if str == "MEDIUM" then Some(MEDIUM)
    else if str == "MEDIUM_HIGH" then Some(MEDIUM_HIGH)
    else if str == "HIGH" then Some(HIGH)
    else if str == "CRITICAL" then Some(CRITICAL)
    else if str == "NULL" then Some(NULL)
    else None
  }

  /** Parsing a status's string value gives the status back; distinct statuses have distinct values. */
  lemma StatusRoundTrip(s: TaskStatus, t: TaskStatus)
    ensures ParseStatus(StatusValue(s)) == Some(s)
    ensures StatusValue(s) == StatusValue(t) ==> s == t
  {
  }

  /** Parsing a priority's string value gives the priority back; distinct priorities have distinct values. */
  lemma PriorityRoundTrip(p: TaskPriority, q: TaskPriority)
    ensures ParsePriority(PriorityValue(p)) == Some(p)
    ensures PriorityValue(p) == PriorityValue(q) ==> p == q
  {
  }

  /** `TaskStatus` has exactly five members. */
  lemma FiveStatuses(s: TaskStatus)
    ensures |AllStatuses| == 5 && NoDup(AllStatuses) && s in AllStatuses
  {
  }

  /** `TaskPriority` has exactly seven members, `NULL` among them. */
  lemma SevenPriorities(p: TaskPriority)
    ensures |AllPriorities| == 7 && NoDup(AllPriorities) && p in AllPriorities && NULL in AllPriorities
  {
  }
}

=== FILE: uri.dfy ===
/**
  The URL text between the browser clients and the hub: `encodeURIComponent` on the
  client side (section 19.2.6.5 of ECMA-262), and on the server side the query of a URL
  read through `URLSearchParams`, which splits it with the
  application/x-www-form-urlencoded parser of section 5.1 of the WHATWG URL Standard and
  decodes each name and value as UTF-8 with the decoder of section 9.1.1 of the WHATWG
  Encoding Standard.

  A `string` is a sequence of Unicode scalar values, so the lone surrogates on which
  `encodeURIComponent` throws cannot occur.
 */
module Uri {
  import opened Wrappers
  import opened Strings
  import opened Seqs

  type Byte = b: nat | b < 256

  // ---------------------------------------------------------------------------
  // UTF-8 (section 3 of RFC 3629)
  // ---------------------------------------------------------------------------

  /** A byte that may follow a lead byte: `10xxxxxx`. */
  predicate IsContinuation(b: Byte) {
    0x80 <= b <= 0xBF
  }

  /** The UTF-8 encoding of one scalar value: one to four bytes, the first of which tells
      how many follow. */
  function Utf8(c: char): (r: seq<Byte>)
    ensures 1 <= |r| <= 4
    ensures |r| == 1 <==> c as int < 0x80
    ensures |r| == 1 ==> r[0] == c as int
    ensures forall k :: 1 <= k < |r| ==> IsContinuation(r[k])
  {
    var cp := c as int;
    if cp < 0x80 then [cp]
    else if cp < 0x800 then [0xC0 + cp / 64, 0x80 + cp % 64]
    else if cp < 0x10000 then [0xE0 + cp / 4096, 0x80 + cp / 64 % 64, 0x80 + cp % 64]
    else [0xF0 + cp / 262144, 0x80 + cp / 4096 % 64, 0x80 + cp / 64 % 64, 0x80 + cp % 64]
  }

  function Utf8Bytes(s: string): (r: seq<Byte>)
    ensures |r| >= |s|
  {
    if s == "" then [] else Utf8(s[0]) + Utf8Bytes(s[1..])
  }

  const Replacement: char := '\U{FFFD}'

  /** How many continuation bytes a lead byte from `C2` to `F4` announces. */
  function Needed(b0: Byte): (n: nat)
    requires 0xC2 <= b0 <= 0xF4
    ensures 1 <= n <= 3
  {
    if b0 <= 0xDF then 1 else if b0 <= 0xEF then 2 else 3
  }

  /** The range the first continuation byte must lie in, which is what excludes overlong
      forms, surrogates and values past `10FFFF`. */
  function FirstLower(b0: Byte): Byte {
    if b0 == 0xE0 then 0xA0 else if b0 == 0xF0 then 0x90 else 0x80
  }

  function FirstUpper(b0: Byte): Byte {
    if b0 == 0xED then 0x9F else if b0 == 0xF4 then 0x8F else 0xBF
  }

  /** How many of the announced continuation bytes are present and in range. */
  function Accepted(bs: seq<Byte>): (k: nat)
    requires |bs| >= 1 && 0xC2 <= bs[0] <= 0xF4
    ensures k <= Needed(bs[0]) && 1 + k <= |bs|
  {
    var need := Needed(bs[0]);
    if |bs| < 2 || !(FirstLower(bs[0]) <= bs[1] <= FirstUpper(bs[0])) then 0
    else if need == 1 then 1
    else if |bs| < 3 || !IsContinuation(bs[2]) then 1
    else if need == 2 then 2
    else if |bs| < 4 || !IsContinuation(bs[3]) then 2
    else 3
  }

  /** The scalar value of a complete, well-formed sequence of two to four bytes. */
  function ScalarOf(bs: seq<Byte>): (c: char)
    requires |bs| >= 1 && 0xC2 <= bs[0] <= 0xF4 && Accepted(bs) == Needed(bs[0])
  {
    var b0, b1: int := bs[0], bs[1];
    if b0 <= 0xDF then ((b0 - 0xC0) * 64 + (b1 - 0x80)) as char
    else
      var b2: int := bs[2];
      if b0 <= 0xEF then ((b0 - 0xE0) * 4096 + (b1 - 0x80) * 64 + (b2 - 0x80)) as char
      else
        var b3: int := bs[3];
        ((b0 - 0xF0) * 262144 + (b1 - 0x80) * 4096 + (b2 - 0x80) * 64 + (b3 - 0x80)) as char
  }

  /** UTF-8 decode with replacement: an ill-formed sequence gives one U+FFFD and decoding
      resumes at the byte that broke it. */
  function Utf8Decode(bs: seq<Byte>): (r: string)
    ensures |r| <= |bs|
    decreases |bs|
  {
    if bs == [] then ""
    else if bs[0] < 0x80 then [bs[0] as char] + Utf8Decode(bs[1..])
    else if !(0xC2 <= bs[0] <= 0xF4) then [Replacement] + Utf8Decode(bs[1..])
    else
      var k := Accepted(bs);
      if k < Needed(bs[0]) then [Replacement] + Utf8Decode(bs[1 + k..])
      else [ScalarOf(bs)] + Utf8Decode(bs[1 + k..])
  }

  /** The bytes of one character, followed by anything, decode to that character first. */
  lemma DecodeOne(c: char, rest: seq<Byte>)
    ensures Utf8Decode(Utf8(c) + rest) == [c] + Utf8Decode(rest)
  {
    var bs := Utf8(c) + rest;
    var cp := c as int;
    assert bs[..|Utf8(c)|] == Utf8(c);
    assert bs[|Utf8(c)|..] == rest;
    if cp < 0x80 {
    } else if cp < 0x800 {
      assert bs[0] == 0xC0 + cp / 64 && bs[1] == 0x80 + cp % 64;
      assert Accepted(bs) == 1;
    } else if cp < 0x10000 {
      ThreeByteRanges(cp);
      assert bs[0] == 0xE0 + cp / 4096 && bs[1] == 0x80 + cp / 64 % 64 && bs[2] == 0x80 + cp % 64;
      assert Accepted(bs) == 2;
    } else {
      FourByteRanges(cp);
      assert bs[0] == 0xF0 + cp / 262144 && bs[1] == 0x80 + cp / 4096 % 64;
      assert bs[2] == 0x80 + cp / 64 % 64 && bs[3] == 0x80 + cp % 64;
      assert Accepted(bs) == 3;
    }
  }

  lemma ThreeByteRanges(cp: int)
    requires 0x800 <= cp < 0x10000 && !(0xD800 <= cp < 0xE000)
    ensures var b0, b1 := 0xE0 + cp / 4096, 0x80 + cp / 64 % 64;
            && 0xE0 <= b0 <= 0xEF
            && FirstLower(b0) <= b1 <= FirstUpper(b0)
            && (b0 - 0xE0) * 4096 + (b1 - 0x80) * 64 + cp % 64 == cp
  {
  }

  lemma FourByteRanges(cp: int)
    requires 0x10000 <= cp < 0x110000
    ensures var b0, b1 := 0xF0 + cp / 262144, 0x80 + cp / 4096 % 64;
            && 0xF0 <= b0 <= 0xF4
            && FirstLower(b0) <= b1 <= FirstUpper(b0)
            && (b0 - 0xF0) * 262144 + (b1 - 0x80) * 4096 + cp / 64 % 64 * 64 + cp % 64 == cp
  {
  }

  /** Decoding gives back every string from its UTF-8 bytes. */
  lemma {:induction false} Utf8RoundTrip(s: string)
    ensures Utf8Decode(Utf8Bytes(s)) == s
    decreases |s|
  {
    if s != "" {
      DecodeOne(s[0], Utf8Bytes(s[1..]));
      Utf8RoundTrip(s[1..]);
    }
  }

  // ---------------------------------------------------------------------------
  // Percent-encoding (section 2.1 of RFC 3986)
  // ---------------------------------------------------------------------------

  /** The characters `encodeURIComponent` leaves as they are: ASCII letters and digits and
      `- _ . ! ~ * ' ( )`. */
  predicate Unreserved(c: char) {
    ('A' <= c <= 'Z') || ('a' <= c <= 'z') || ('0' <= c <= '9')
    || c == '-' || c == '_' || c == '.' || c == '!' || c == '~' || c == '*' || c == '\'' || c == '(' || c == ')'
  }

  const UpperHex := "0123456789ABCDEF"

  predicate IsHex(c: char) {
    ('0' <= c <= '9') || ('A' <= c <= 'F') || ('a' <= c <= 'f')
  }

  function HexValue(c: char): (v: nat)
    requires IsHex(c)
    ensures v < 16
  {
    if '0' <= c <= '9' then c as int - '0' as int
    else if 'A' <= c <= 'F' then c as int - 'A' as int + 10
    else c as int - 'a' as int + 10
  }

  lemma HexDigitReads(v: nat)
    requires v < 16
    ensures IsHex(UpperHex[v]) && Unreserved(UpperHex[v]) && HexValue(UpperHex[v]) == v
  {
  }

  /** `%XX` with two upper-case hexadecimal digits. */
  function PercentByte(b: Byte): (r: string)
    ensures |r| == 3 && r[0] == '%' && Unreserved(r[1]) && Unreserved(r[2])
  {
    HexDigitReads(b / 16);
    HexDigitReads(b % 16);
    ['%', UpperHex[b / 16], UpperHex[b % 16]]
  }

  function PercentBytes(bs: seq<Byte>): (r: string)
    ensures |r| == 3 * |bs|
    ensures forall i :: 0 <= i < |r| ==> Unreserved(r[i]) || r[i] == '%'
  {
    if bs == [] then "" else PercentByte(bs[0]) + PercentBytes(bs[1..])
  }

  /** An unreserved character stays, any other becomes its UTF-8 bytes as `%XX`. */
  function EncodeChar(c: char): (r: string)
    ensures |r| >= 1
    ensures forall i :: 0 <= i < |r| ==> Unreserved(r[i]) || r[i] == '%'
  {
    if Unreserved(c) then [c] else PercentBytes(Utf8(c))
  }

  /** `encodeURIComponent(s)`. Its output is made of unreserved characters and `%` only:
      never `&`, `=`, `+`, `#` or `?`, the characters that structure a query. */
  function EncodeURIComponent(s: string): (r: string)
    ensures forall i :: 0 <= i < |r| ==> Unreserved(r[i]) || r[i] == '%'
    ensures r == "" <==> s == ""
    ensures (forall i :: 0 <= i < |s| ==> Unreserved(s[i])) ==> r == s
  {
    if s == "" then "" else EncodeChar(s[0]) + EncodeURIComponent(s[1..])
  }

  /** The byte sequence of an application/x-www-form-urlencoded name or value: `+` is a
      space, `%` with two hexadecimal digits is that byte, and any other character (a `%`
      not followed by two digits included) is its own UTF-8 bytes. */
  function FormBytes(s: string): (r: seq<Byte>)
    decreases |s|
  {
    if s == "" then []
    else if s[0] == '%' && |s| >= 3 && IsHex(s[1]) && IsHex(s[2]) then
      [HexValue(s[1]) * 16 + HexValue(s[2])] + FormBytes(s[3..])
    else if s[0] == '+' then [0x20] + FormBytes(s[1..])
    else Utf8(s[0]) + FormBytes(s[1..])
  }

  function FormDecode(s: string): string {
    Utf8Decode(FormBytes(s))
  }

  lemma PercentByteReads(b: Byte, rest: string)
    ensures FormBytes(PercentByte(b) + rest) == [b] + FormBytes(rest)
  {
    var s := PercentByte(b) + rest;
    HexDigitReads(b / 16);
    HexDigitReads(b % 16);
    assert s[0] == '%' && s[1] == UpperHex[b / 16] && s[2] == UpperHex[b % 16];
    assert s[3..] == rest;
  }

  lemma {:induction false} PercentBytesRead(bs: seq<Byte>, rest: string)
    ensures FormBytes(PercentBytes(bs) + rest) == bs + FormBytes(rest)
    decreases |bs|
  {
    if bs == [] {
      assert PercentBytes(bs) + rest == rest;
    } else {
      var head, tail := PercentByte(bs[0]), PercentBytes(bs[1..]);
      PercentBytesRead(bs[1..], rest);
      PercentByteReads(bs[0], tail + rest);
      ReadStep(bs, head, tail, rest, FormBytes(tail + rest), FormBytes(rest));
    }
  }

  lemma ReadStep(bs: seq<Byte>, head: string, tail: string, rest: string, readTail: seq<Byte>, readRest: seq<Byte>)
    requires |bs| > 0 && PercentBytes(bs) == head + tail
    requires readTail == bs[1..] + readRest
    requires FormBytes(head + (tail + rest)) == [bs[0]] + readTail
    ensures FormBytes(PercentBytes(bs) + rest) == bs + readRest
  {
    assert PercentBytes(bs) + rest == head + (tail + rest) by {
      ConcatAssoc(head, tail, rest);
    }
    assert [bs[0]] + readTail == bs + readRest by {
      ConcatAssoc([bs[0]], bs[1..], readRest);
      assert bs == [bs[0]] + bs[1..];
    }
  }

  lemma EncodeCharReads(c: char, rest: string)
    ensures FormBytes(EncodeChar(c) + rest) == Utf8(c) + FormBytes(rest)
  {
    if Unreserved(c) {
      var s := [c] + rest;
      assert s[0] == c && s[1..] == rest;
    } else {
      PercentBytesRead(Utf8(c), rest);
    }
  }

  /** The bytes read back from an encoded string are the UTF-8 bytes of the string. */
  lemma {:induction false} EncodedBytes(s: string)
    ensures FormBytes(EncodeURIComponent(s)) == Utf8Bytes(s)
    decreases |s|
  {
    if s != "" {
      EncodeCharReads(s[0], EncodeURIComponent(s[1..]));
      EncodedBytes(s[1..]);
    }
  }

  /** Form-decoding undoes `encodeURIComponent`: every string survives the trip. */
  lemma EncodeRoundTrip(s: string)
    ensures FormDecode(EncodeURIComponent(s)) == s
  {
    EncodedBytes(s);
    Utf8RoundTrip(s);
  }

  // ---------------------------------------------------------------------------
  // Queries and URLSearchParams
  // ---------------------------------------------------------------------------

  /** The text before the first `c` and the text after it; without a `c`, the whole text
      and nothing. */
  function BreakAt(s: string, c: char): (r: (string, string))
    ensures c !in s ==> r == (s, "")
    ensures c in s ==> c !in r.0 && s == r.0 + [c] + r.1
  {
    if s == "" then ("", "")
    else if s[0] == c then ("", s[1..])
    else
      var t := BreakAt(s[1..], c);
      assert s == [s[0]] + s[1..];
      ([s[0]] + t.0, t.1)
  }

  lemma {:induction false} BreakAtFirst(a: string, c: char, b: string)
    requires c !in a
    ensures BreakAt(a + [c] + b, c) == (a, b)
    decreases |a|
  {
    var s := a + [c] + b;
    if a == [] {
      assert s[0] == c && s[1..] == b;
    } else {
      assert s[0] == a[0] && s[1..] == a[1..] + [c] + b;
      BreakAtFirst(a[1..], c, b);
      assert a == [a[0]] + a[1..];
    }
  }

  /** The query of a URL or request target: the text after the first `?` that comes before
      the fragment, which starts at the first `#`; empty without such a `?`. */
  function QueryOf(url: string): (q: string)
    ensures '#' !in q
    ensures '?' !in url ==> q == ""
  {
    var beforeFragment := BreakAt(url, '#').0;
    var q := BreakAt(beforeFragment, '?').1;
    assert '#' !in q by {
      AfterBreakIsInside(beforeFragment, '?');
    }
    q
  }

  lemma AfterBreakIsInside(s: string, c: char)
    ensures forall i :: 0 <= i < |BreakAt(s, c).1| ==> BreakAt(s, c).1[i] in s
  {
    var r := BreakAt(s, c);
    if c in s {
      forall i | 0 <= i < |r.1| ensures r.1[i] in s {
        assert r.1[i] == s[|r.0| + 1 + i];
      }
    }
  }

  /** Parsing a query: the pieces between `&`, the empty ones dropped, each split at its
      first `=` into a name and a value, both form-decoded. */
  function ParseQuery(query: string): seq<(string, string)> {
    PairsOf(Split(query, "&"))
  }

  function PairsOf(pieces: seq<string>): (r: seq<(string, string)>)
    ensures |r| <= |pieces|
  {
    if pieces == [] then []
    else if pieces[0] == "" then PairsOf(pieces[1..])
    else
      var nv := BreakAt(pieces[0], '=');
      [(FormDecode(nv.0), FormDecode(nv.1))] + PairsOf(pieces[1..])
  }

  /** `new URLSearchParams(init)`: a leading `?` is dropped before parsing. */
  function SearchParams(init: string): seq<(string, string)> {
    ParseQuery(if init != "" && init[0] == '?' then init[1..] else init)
  }

  /** `params.get(name)`: the value of the first pair with that name, or null. */
  function Get(params: seq<(string, string)>, name: string): (r: Option<string>)
    ensures r.None? <==> forall i :: 0 <= i < |params| ==> params[i].0 != name
    ensures r.Some? ==> (name, r.value) in params
  {
    if params == [] then None
    else if params[0].0 == name then Some(params[0].1)
    else Get(params[1..], name)
  }

  /** `get` answers with the first pair of the name, whatever later pairs say. */
  lemma {:induction false} GetFirst(params: seq<(string, string)>, name: string, i: nat)
    requires i < |params| && params[i].0 == name
    requires forall j :: 0 <= j < i ==> params[j].0 != name
    ensures Get(params, name) == Some(params[i].1)
    decreases i
  {
    if i > 0 {
      GetFirst(params[1..], name, i - 1);
    }
  }

  /** A name a client writes into a query as it is: non-empty and made of unreserved
      characters, so encoding leaves it alone. */
  predicate PlainName(n: string) {
    |n| > 0 && forall i :: 0 <= i < |n| ==> Unreserved(n[i])
  }

  predicate PlainNames(ps: seq<(string, string)>) {
    forall i :: 0 <= i < |ps| ==> PlainName(ps[i].0)
  }

  /** `name=${encodeURIComponent(value)}`. */
  function Piece(p: (string, string)): (r: string)
    ensures |r| > |p.0| && r[..|p.0|] == p.0 && r[|p.0|] == '='
  {
    p.0 + "=" + EncodeURIComponent(p.1)
  }

  /** With a plain name, a piece holds no `&`, `#` or `?`: nothing that could end it. */
  lemma PieceAlphabet(p: (string, string))
    requires PlainName(p.0)
    ensures '&' !in Piece(p) && '#' !in Piece(p) && '?' !in Piece(p)
  {
    var r, n, e := Piece(p), |p.0|, EncodeURIComponent(p.1);
    assert r == p.0 + "=" + e;
    forall i | 0 <= i < |r| ensures r[i] != '&' && r[i] != '#' && r[i] != '?' {
      if i < n {
        assert r[i] == p.0[i];
      } else if i > n {
        assert r[i] == e[i - n - 1];
      }
    }
  }

  /** The pieces of a query, in order. */
  function Pieces(ps: seq<(string, string)>): (r: seq<string>)
    ensures |r| == |ps|
  {
    if ps == [] then [] else [Piece(ps[0])] + Pieces(ps[1..])
  }

  /** A query written as `&`-joined pieces with plain names and encoded values parses back
      into exactly the pairs it was written from. */
  lemma QueryRoundTrip(ps: seq<(string, string)>, query: string)
    requires |ps| >= 1
    requires PlainNames(ps)
    requires query == Join(Pieces(ps), "&")
    ensures ParseQuery(query) == ps
  {
    SplitPieces(ps);
    PiecesParse(ps);
  }

  lemma SplitPieces(ps: seq<(string, string)>)
    requires |ps| >= 1
    requires PlainNames(ps)
    ensures Split(Join(Pieces(ps), "&"), "&") == Pieces(ps)
  {
    PiecesAvoidAmpersand(ps);
    SplitJoinChar(Pieces(ps), '&');
  }

  lemma PiecesAvoidAmpersand(ps: seq<(string, string)>)
    requires PlainNames(ps)
    ensures forall k :: 0 <= k < |ps| ==> '&' !in Pieces(ps)[k]
  {
    forall k | 0 <= k < |ps| ensures '&' !in Pieces(ps)[k] {
      PiecesAt(ps, k);
      PieceAlphabet(ps[k]);
    }
  }

  lemma {:induction false} PiecesAt(ps: seq<(string, string)>, k: nat)
    requires k < |ps|
    ensures Pieces(ps)[k] == Piece(ps[k])
    decreases k
  {
    if k > 0 {
      PiecesAt(ps[1..], k - 1);
    }
  }

  lemma {:induction false} PiecesParse(ps: seq<(string, string)>)
    requires PlainNames(ps)
    ensures PairsOf(Pieces(ps)) == ps
    decreases |ps|
  {
    if ps != [] {
      var pieces := Pieces(ps);
      var name, value := ps[0].0, ps[0].1;
      assert '=' !in name;
      BreakAtFirst(name, '=', EncodeURIComponent(value));
      assert BreakAt(pieces[0], '=') == (name, EncodeURIComponent(value));
      EncodeRoundTrip(name);
      EncodeRoundTrip(value);
      PiecesParse(ps[1..]);
    }
  }

  /** A URL written as a base, `?`, and a query of pieces. */
  function WithQuery(base: string, ps: seq<(string, string)>): string {
    base + "?" + Join(Pieces(ps), "&")
  }

  /** Whatever the written values, reading the query of such a URL gives back the pairs
      it was written from, in order. */
  lemma UrlQueryRoundTrip(base: string, ps: seq<(string, string)>)
    requires '?' !in base && '#' !in base
    requires |ps| >= 1 && PlainNames(ps)
    ensures ParseQuery(QueryOf(WithQuery(base, ps))) == ps
  {
    var query := Join(Pieces(ps), "&");
    assert QueryOf(WithQuery(base, ps)) == query by {
      NoHashInPieces(ps);
      NoCharInJoin(Pieces(ps), "&", '#');
      NoHashInUrl(base, query);
      BreakAtFirst(base, '?', query);
    }
    QueryRoundTrip(ps, query);
  }

  lemma NoHashInUrl(base: string, query: string)
    requires '#' !in base && '#' !in query
    ensures BreakAt(base + "?" + query, '#').0 == base + "?" + query
  {
    var url := base + "?" + query;
    assert '#' !in url by {
      forall i | 0 <= i < |url| ensures url[i] != '#' {
        if i < |base| { assert url[i] == base[i]; }
        else if i > |base| { assert url[i] == query[i - |base| - 1]; }
      }
    }
  }

  lemma NoHashInPieces(ps: seq<(string, string)>)
    requires PlainNames(ps)
    ensures forall k :: 0 <= k < |Pieces(ps)| ==> '#' !in Pieces(ps)[k]
  {
    forall k | 0 <= k < |ps| ensures '#' !in Pieces(ps)[k] {
      PiecesAt(ps, k);
      PieceAlphabet(ps[k]);
    }
  }

  /** A piece whose value is plain is written as it is. */
  lemma PlainPiece(p: (string, string))
    requires PlainName(p.1)
    ensures Piece(p) == p.0 + "=" + p.1
  {
  }

  /** A URL of three pieces spelled out. */
  lemma WithThreePieces(base: string, ps: seq<(string, string)>)
    requires |ps| == 3
    ensures WithQuery(base, ps) == base + "?" + Piece(ps[0]) + "&" + Piece(ps[1]) + "&" + Piece(ps[2])
  {
    var p0, p1, p2 := Piece(ps[0]), Piece(ps[1]), Piece(ps[2]);
    assert Pieces(ps) == [p0, p1, p2] by {
      assert Pieces(ps[1..]) == [p1, p2] by {
        assert ps[1..][1..] == [ps[2]];
      }
    }
    JoinThree(p0, p1, p2, "&");
    var q := p0 + "&" + p1 + "&" + p2;
    assert WithQuery(base, ps) == base + "?" + q;
    ConcatAssoc(base + "?", p0 + "&" + p1 + "&", p2);
    ConcatAssoc(base + "?", p0 + "&" + p1, "&");
    ConcatAssoc(base + "?", p0 + "&", p1);
    ConcatAssoc(base + "?", p0, "&");
  }

  /** A URL of two pieces spelled out. */
  lemma WithTwoPieces(base: string, ps: seq<(string, string)>)
    requires |ps| == 2
    ensures WithQuery(base, ps) == base + "?" + Piece(ps[0]) + "&" + Piece(ps[1])
  {
    assert Pieces(ps) == [Piece(ps[0]), Piece(ps[1])] by {
      assert ps[1..][1..] == [];
    }
    assert Join([Piece(ps[0]), Piece(ps[1])], "&") == Piece(ps[0]) + "&" + Piece(ps[1]) by {
      assert [Piece(ps[0]), Piece(ps[1])][1..] == [Piece(ps[1])];
    }
  }

  /** `location.search`: `?` and the query, or nothing when the query is empty. */
  function Search(url: string): (r: string)
    ensures SearchParams(r) == ParseQuery(QueryOf(url))
  {
    var q := QueryOf(url);
    if q == "" then "" else "?" + q
  }
}

=== FILE: wrappers.dfy ===
/** Failure-compatible wrappers shared by every module of the model. */
module Wrappers {

  /** An optional value: JavaScript's `undefined`/`null` versus a present value. */
  datatype Option<+T> = None | Some(value: T) {
    function GetOr(default: T): T {
      match this
      case Some(v) => v
      case None => default
    }
  }

  /** A value or an error, for operations whose source throws or returns an error response. */
  datatype Result<+T, +E> = Ok(value: T) | Err(error: E)
}
